=== FILE: README.md ===
# medcoretes student front-end: a Dafny model

This project models the decision logic of the medcoretes student front-end, a React/TypeScript
client for a medical-studies quiz and exam platform. The model covers the following parts:

- **Quiz session reducer** (`QuizReducer`). Navigation, answer recording, bookmarks, notes,
  flags, timer control and the submission payload.
- **Screens around it.** The question display (`QuestionDisplay`), the completion screen
  (`QuizCompletion`), the question report dialog (`ReportDialog`), the study-streak card
  (`StudyStreak`) and the global analytics overview (`AnalyticsOverview`).
- **API test runner** (`ApiTestSuite`).
- **Subscriptions.** The subscription hook's helpers (`SubscriptionHook`), the subscription status
  card (`SubscriptionCard`), the subscriptions page (`SubscriptionsPage`) and the profile menu
  (`ProfileDropdown`).
- **Exam service** (`ExamService`). Response unwrapping, the module list, the years,
  module-availability validation and the availability map.
- **Quiz API hook** (`QuizApiHook`). Session list normalisation, filter options and topics.
- **Student workspace**:
  - notes grouping and the note form (`WorkspaceNotes`);
  - todos (`WorkspaceTodos`);
  - labels (`WorkspaceLabels`);
  - the shared filter update, pagination caption, report captions and report form
    (`WorkspaceFilters`).

Shared modules:

- `Wrappers` holds `Option` and `Result`.
- `Js` is an untyped JSON value with JavaScript truthiness, `||`, optional property access and
  the `d?.data?.data || d?.data || d` envelope unwrapping the services repeat.
- `Text` covers ASCII case mapping, `trim`, `split`/`join`, `padStart`, decimal printing,
  `parseInt` and `includes`.
- `Lists` covers `filter`, counting, partition and the include/exclude toggle.
- `Sorting` is a stable descending sort by an integer key.

Asynchronous requests become inputs. A request's outcome is a `Fetch` value, or a `lookup`
function from a module id to the body the server would return. The clock is an integer `now`,
or the number of days left. `parseDate` stands for `new Date(s)`. JSX rendering is reduced to the
values it displays.

## Model

| member | source | states |
|---|---|---|
| QuizReducer.Step | src/components/student/quiz/quiz-api-context.tsx:62-342 | no action changes the session's questions or their number; the current index stays in range; only the three navigation actions move it, and only to an index inside the session |
| QuizReducer.MoveToMoves | src/components/student/quiz/quiz-api-context.tsx:64-124 | a successful move makes the question at the target index current and resets the reveal, explanation and question timer |
| QuizReducer.NextQuestionStep | src/components/student/quiz/quiz-api-context.tsx:64-83 | NEXT moves one question forward unless the current one is the last, and otherwise changes nothing |
| QuizReducer.PreviousQuestionStep | src/components/student/quiz/quiz-api-context.tsx:85-104 | PREVIOUS moves one question back unless the current one is the first, and otherwise changes nothing |
| QuizReducer.GoToQuestionStep | src/components/student/quiz/quiz-api-context.tsx:106-124 | GO_TO moves exactly when the target index lies inside the session |
| QuizReducer.SubmitWithoutQuestionIsNoOp | src/components/student/quiz/quiz-api-context.tsx:126-128 | without a current question SUBMIT_ANSWER leaves the state unchanged |
| QuizReducer.SubmitAnswerRecords | src/components/student/quiz/quiz-api-context.tsx:126-158 | the answer is stored under the current question's id, with the answer's own fields over the defaults; every other record is untouched; the local copy exists only with client storage on |
| QuizReducer.AnswerSubmittedOutcome | src/components/student/quiz/quiz-api-context.tsx:160-165 | ANSWER_SUBMITTED ends the pending submission; the error is cleared on success and set to the given text or 'Submission failed' otherwise |
| QuizReducer.BookmarkFlips | src/components/student/quiz/quiz-api-context.tsx:223-242 | BOOKMARK flips the bookmark of the named question only, creating its record when missing |
| QuizReducer.BookmarkTwice | src/components/student/quiz/quiz-api-context.tsx:223-242 | bookmarking twice restores the bookmark flag |
| QuizReducer.AddNoteSets | src/components/student/quiz/quiz-api-context.tsx:244-263 | ADD_NOTE sets the note of the named question and touches no other record |
| QuizReducer.FlagToggles | src/components/student/quiz/quiz-api-context.tsx:265-290 | FLAG removes a present flag and appends an absent one; the other flags are kept |
| QuizReducer.FlagTwice | src/components/student/quiz/quiz-api-context.tsx:265-290 | flagging twice with the same flag restores a duplicate-free flag list up to order, and exactly when the flag was absent |
| QuizReducer.TogglesAreInvolutions | src/components/student/quiz/quiz-api-context.tsx:173-222 | TOGGLE_EXPLANATION and TOGGLE_SIDEBAR flip their flag and undo themselves |
| QuizReducer.TimerControls | src/components/student/quiz/quiz-api-context.tsx:179-304 | PAUSE, RESUME and COMPLETE set the session status and the two timer flags together, and the timer is never running while paused |
| QuizReducer.AnswerStoreFrame | src/components/student/quiz/quiz-api-context.tsx:62-342 | only SUBMIT_ANSWER and the three annotation actions write answer records; only SUBMIT_ANSWER and the two local-answer actions write local answers |
| QuizReducer.SubmissionPayload | src/components/student/quiz/quiz-api-context.tsx:598-603 | one API answer per stored answer with a selection, each with a truthy selected id |
| QuizReducer.SubmissionPayloadIsSelectedProjection | src/components/student/quiz/quiz-api-context.tsx:598-603 | the payload is the projection of exactly the answers with a selection, in storage order |
| QuestionDisplay.JsRem | src/components/student/quiz/question-display.tsx:114 | JavaScript's remainder takes the sign of the dividend |
| QuestionDisplay.FormatTime | src/components/student/quiz/question-display.tsx:112-116 | a non-negative duration prints as its whole minutes, a colon and its remaining seconds padded to two digits |
| QuestionDisplay.SecondsField | src/components/student/quiz/question-display.tsx:114-115 | the padded seconds field is two digits that read back as the seconds |
| QuestionDisplay.FormatTimeRoundTrip | src/components/student/quiz/question-display.tsx:112-116 | a non-negative duration formatted as m:ss reads back as the same number of seconds |
| QuestionDisplay.ClockRoundTrip | src/components/student/quiz/question-display.tsx:112-116 | any minutes and a seconds value below 60, printed as m:ss, read back as their number of seconds |
| QuestionDisplay.OrDefault | src/components/student/quiz/question-display.tsx:131-135 | `a \|\| fallback` with a non-empty fallback is never empty |
| QuestionDisplay.ToOptions | src/components/student/quiz/question-display.tsx:125-130 | one option per answer, in order, carrying the answer's text, correctness and explanation |
| QuestionDisplay.Transform | src/components/student/quiz/question-display.tsx:119-138 | options come from the answers, else the existing options, else none; the title is the title, else the question text, else 'Question' and the id; difficulty, source and type are never empty, pass through when given and take their defaults when missing; given tags are kept, missing ones become [] |
| QuestionDisplay.OptionIdsRoundTrip | src/components/student/quiz/question-display.tsx:126 | an option id read back as a number is the id of its answer |
| QuestionDisplay.OptionIdsDistinct | src/components/student/quiz/question-display.tsx:126 | distinct answer ids give distinct option ids |
| QuestionDisplay.QuestionType | src/components/student/quiz/question-display.tsx:141-157 | an explicit type wins; otherwise the type is QCM or QCS |
| QuestionDisplay.InferredTypeIsMultipleIffTwoCorrect | src/components/student/quiz/question-display.tsx:147-153 | without an explicit type a question is QCM exactly when an answers list holds two correct answers |
| QuestionDisplay.TwoInFilterAreTwoInList | src/components/student/quiz/question-display.tsx:151-152 | more than one correct answer after filtering means two correct answers at distinct positions |
| QuestionDisplay.TwoInListAreTwoInFilter | src/components/student/quiz/question-display.tsx:151-152 | two correct answers at distinct positions survive the filter |
| QuestionDisplay.QuestionTypeInfo | src/components/student/quiz/question-display.tsx:77-110 | the generic caption is given exactly to unknown types |
| QuestionDisplay.KnownTypeInfosDistinct | src/components/student/quiz/question-display.tsx:77-110 | the four known types have four different captions |
| QuestionDisplay.InferredTypeHasSpecificInfo | src/components/student/quiz/question-display.tsx:159-161 | a type inferred from the answers always gets a specific caption |
| QuizCompletion.AnsweredCount | src/components/student/quiz/quiz-completion-screen.tsx:57 | the number of answered questions is the number of keys of the local answers, 0 exactly without any |
| QuizCompletion.AnsweredCountAfterStore | src/components/student/quiz/quiz-completion-screen.tsx:57 | storing an answer adds one answered question exactly when that question had none |
| QuizCompletion.TotalQuestions | src/components/student/quiz/quiz-completion-screen.tsx:58 | the declared total, else the length of the question list, else 0 |
| QuizCompletion.CompletionPercentage | src/components/student/quiz/quiz-completion-screen.tsx:59 | 0 without questions; otherwise the answered share, within 0..100 when no more are answered than exist |
| QuizCompletion.AverageSeconds | src/components/student/quiz/quiz-completion-screen.tsx:134 | the per-question average rounded to the nearest second, halves up |
| QuizCompletion.AverageCaption | src/components/student/quiz/quiz-completion-screen.tsx:134 | '0:00' without questions; otherwise a clock that, for a non-negative total time, reads back as the rounded average |
| QuizCompletion.AverageCaptionReadsBack | src/components/student/quiz/quiz-completion-screen.tsx:134 | the caption reads back as the rounded average, or as zero |
| QuizCompletion.Summarise | src/components/student/quiz/quiz-completion-screen.tsx:56-66 | answered is the number of locally answered questions and total the session's `totalQuestions \|\| questions.length \|\| 0`; 'all answered' holds exactly when those two agree; the percentage is the completion share of them; the total-time caption reads back as the total time and the average caption as the rounded average (or '0:00' without questions); submission is disabled exactly while one is pending or nothing is answered |
| QuizCompletion.SubmitAnswerEnablesSubmission | src/components/student/quiz/quiz-completion-screen.tsx:205 | after an answer is recorded with client storage on, the submit button is blocked only by a pending submission |
| ReportDialog.Payload | src/components/student/session-analysis/question-report-dialog.tsx:78-88 | nothing is sent without a type or with a blank description; otherwise the type and the trimmed description, which is not empty |
| ReportDialog.SentDescriptionIsTrimmed | src/components/student/session-analysis/question-report-dialog.tsx:87 | the sent description is the typed one with a white-space prefix and a white-space suffix cut off, and starts and ends with a visible character |
| ReportDialog.AfterSubmit | src/components/student/session-analysis/question-report-dialog.tsx:78-105 | a successful send closes and clears the form; a stopped or failed one leaves it |
| ReportDialog.OpenChange | src/components/student/session-analysis/question-report-dialog.tsx:107-115 | closing clears the form, opening keeps it |
| ReportDialog.ClearedFormSendsNothing | src/components/student/session-analysis/question-report-dialog.tsx:78-115 | a form closed through the dialog's close handler, or through the corrected Cancel, or successfully sent has nothing to send, even after reopening |
| ReportDialog.Cancel | src/components/student/session-analysis/question-report-dialog.tsx:204-210 | Cancel closes the dialog and keeps the chosen type and the typed description |
| ReportDialog.CancelKeepsDraft | src/components/student/session-analysis/question-report-dialog.tsx:204-210 | after Cancel and reopening, the handler sends exactly what it would have sent before |
| ReportDialog.CancelCorrected | src/components/student/session-analysis/question-report-dialog.tsx:107-115 | the corrected Cancel closes and clears the form like the close handler |
| ReportDialog.SubmitEnabled | src/components/student/session-analysis/question-report-dialog.tsx:211-214 | the button is enabled exactly when nothing is being sent and the handler would send a description of at least 10 UTF-16 code units |
| ReportDialog.EnabledButtonSends | src/components/student/session-analysis/question-report-dialog.tsx:213 | whenever the button can be pressed, the handler sends a description of at least 10 UTF-16 code units, so at least 5 characters |
| ReportDialog.AstralDescriptionEnablesButton | src/components/student/session-analysis/question-report-dialog.tsx:213 | five characters outside the Basic Multilingual Plane count as ten and enable the button |
| ReportDialog.ShortDescriptionDisablesButton | src/components/student/session-analysis/question-report-dialog.tsx:213 | a description the handler would send can still keep the button disabled |
| ReportDialog.Preview | src/components/student/session-analysis/question-report-dialog.tsx:147-150 | a text over 200 characters is cut to 200 plus '...'; a shorter non-empty one is shown whole; a missing or empty one is 'Question text not available' |
| StudyStreak.StreakMessage | src/components/student/study-streak-card.tsx:62-68 | each of the five messages exactly for its band: 0, 1, below 7 otherwise (negative streaks included), 7 to 29, 30 and more |
| StudyStreak.StreakColor | src/components/student/study-streak-card.tsx:70-75 | each of the four colours exactly for its band: muted for 0, chart-3 below 7 otherwise, chart-2 for 7 to 29, chart-5 for 30 and more |
| StudyStreak.SameMessageSameColor | src/components/student/study-streak-card.tsx:62-75 | two streaks with the same message have the same colour |
| StudyStreak.BandsSettleAtThirty | src/components/student/study-streak-card.tsx:62-75 | message and colour no longer change from 30 days on |
| StudyStreak.ThisWeekSessions | src/components/student/study-streak-card.tsx:55 | the sessions of the last week listed, or 0 without weeks |
| StudyStreak.WeeklyProgress | src/components/student/study-streak-card.tsx:57 | 20 points per session up to the goal of 5, then 100 |
| StudyStreak.WeeklyProgressMonotone | src/components/student/study-streak-card.tsx:57 | more sessions never show less progress |
| StudyStreak.BonusBanner | src/components/student/study-streak-card.tsx:171-186 | hidden without a streak; otherwise the days to 7, the days to 30, or the champion text |
| StudyStreak.BonusIsNearestMilestone | src/components/student/study-streak-card.tsx:180-184 | a positive streak below 30 is shown the nearest milestone it has not reached |
| StudyStreak.DayWord | src/components/student/study-streak-card.tsx:114 | 'day' exactly for a one-day streak |
| AnalyticsOverview.CompletedSessions | src/components/student/analytics/global-analytics-overview.tsx:76-88 | a session is counted exactly when it passes the completed-session test, every copy of it is counted, and the counted ones keep their order |
| AnalyticsOverview.SumPercentBounds | src/components/student/analytics/global-analytics-overview.tsx:97 | the score total lies between n times the lowest and n times the highest allowed percentage |
| AnalyticsOverview.AverageScore | src/components/student/analytics/global-analytics-overview.tsx:97-98 | 0 without sessions; otherwise the average times the count is the total |
| AnalyticsOverview.AverageWithinBounds | src/components/student/analytics/global-analytics-overview.tsx:97-98 | the average lies between the lowest and highest percentage |
| AnalyticsOverview.RoundMinutes | src/components/student/analytics/global-analytics-overview.tsx:102-103 | minutes rounded to the nearest, halves up |
| AnalyticsOverview.SessionMinutes | src/components/student/analytics/global-analytics-overview.tsx:101-106 | the duration if truthy, else the time spent if truthy, else 0 |
| AnalyticsOverview.TotalMinutesWithoutTimes | src/components/student/analytics/global-analytics-overview.tsx:101-106 | sessions without time data add nothing |
| AnalyticsOverview.ImprovementTrend | src/components/student/analytics/global-analytics-overview.tsx:110-118 | 0 below four sessions; otherwise mean of the last two percentages minus mean of the first two, positive exactly when the last two sum higher |
| AnalyticsOverview.TrendOfReversed | src/components/student/analytics/global-analytics-overview.tsx:110-118 | the same sessions in the opposite order show the opposite trend |
| AnalyticsOverview.SteadyScoresNoTrend | src/components/student/analytics/global-analytics-overview.tsx:110-118 | sessions with one and the same percentage show no trend |
| AnalyticsOverview.WeeklyGoalProgress | src/components/student/analytics/global-analytics-overview.tsx:122-127 | 20 per session of the last week below the goal of five, 100 from five on, always within 0..100 |
| AnalyticsOverview.WeeklyGoalProgressGrows | src/components/student/analytics/global-analytics-overview.tsx:122-127 | one more session never lowers the weekly progress, and one outside the last week leaves it unchanged |
| AnalyticsOverview.CompletedSessionsUseCompletionTime | src/components/student/analytics/global-analytics-overview.tsx:123-126 | a counted session's week test reads its completion time |
| ApiTestSuite.Merge | src/components/testing/api-test-suite.tsx:49 | the spread keeps the name; status, message, data and duration each come from the update when it carries them, else from the old entry |
| ApiTestSuite.Names | src/components/testing/api-test-suite.tsx:45-53 | the names of the results, in order |
| ApiTestSuite.MergeNamed | src/components/testing/api-test-suite.tsx:49 | every entry with the name takes the update, the others stay |
| ApiTestSuite.UpdateResult | src/components/testing/api-test-suite.tsx:45-53 | a known name is updated in place; an unknown one is appended as a pending entry with the update |
| ApiTestSuite.UpdateKeepsNamesUnique | src/components/testing/api-test-suite.tsx:45-53 | unique names stay unique and the name set grows by the updated name only |
| ApiTestSuite.UpdateTwiceMerges | src/components/testing/api-test-suite.tsx:45-53 | two updates of a name equal one update with both field sets, the later winning |
| ApiTestSuite.RunTest | src/components/testing/api-test-suite.tsx:57-80 | the run keeps the list's names and adds the test's name when it was missing |
| ApiTestSuite.RunTestOutcome | src/components/testing/api-test-suite.tsx:57-80 | after a run every entry with the name is success with 'Test passed' and the result when the test returned, otherwise error with the thrown message or 'Test failed', with the duration; other entries are untouched |
| ApiTestSuite.CountStatus | src/components/testing/api-test-suite.tsx:234-236 | the count equals the length of the results filtered by that status, and never exceeds the number of results |
| ApiTestSuite.TestSummary | src/components/testing/api-test-suite.tsx:232-239 | the total is the number of results; passed, failed and running are the lengths of the success, error and running filters, and add up to at most the total |
| ApiTestSuite.StatusCountsBounded | src/components/testing/api-test-suite.tsx:232-239 | each result has one status, so the counts add up to at most the total |
| ApiTestSuite.CountStatusIsFilterLength | src/components/testing/api-test-suite.tsx:234-236 | the count is the length of the status filter |
| SubscriptionHook.CeilDiv | src/hooks/use-subscription.tsx:357 | `Math.ceil(a / b)`: the least r with a <= r * b |
| SubscriptionHook.SubscriptionStatus | src/hooks/use-subscription.tsx:348-361 | cancelled exactly when inactive; expired exactly when active and past expiry; trial only for the trial type |
| SubscriptionHook.DaysUntilExpiry | src/hooks/use-subscription.tsx:363-369 | 0 exactly when expired; otherwise whole days, a started day counting as one |
| SubscriptionHook.IsSubscriptionActive | src/hooks/use-subscription.tsx:339-346 | a subscription is in force exactly when it is active and at least a started day is left before expiry |
| SubscriptionHook.StatusAgreesWithActive | src/hooks/use-subscription.tsx:339-361 | the status is active or trial exactly when the subscription is in force |
| SubscriptionHook.TrialIffLastWeekOfTrial | src/hooks/use-subscription.tsx:356-358 | trial exactly for an in-force trial subscription with at most 7 days left |
| SubscriptionHook.DaysUntilExpiryOfWholeDays | src/hooks/use-subscription.tsx:363-369 | an expiry a whole number of days away is that many days away |
| SubscriptionHook.Capitalise | src/hooks/use-subscription.tsx:384 | the first character upper-cased, the rest unchanged |
| SubscriptionHook.TypeLabel | src/hooks/use-subscription.tsx:371-386 | the five known types get their labels; any other is capitalised |
| SubscriptionHook.TypeLabelEmptyOnlyForEmpty | src/hooks/use-subscription.tsx:371-386 | only the empty type has an empty label; an unknown type keeps all but its first character |
| SubscriptionHook.CapitalisedUnknownTypeCollides | src/hooks/use-subscription.tsx:371-386 | an unknown type can show the label of a known one |
| SubscriptionHook.Benefits | src/hooks/use-subscription.tsx:388-423 | five benefits for the three large packs, three for basic, the default list for anything else |
| SubscriptionHook.TrialHasDefaultBenefits | src/hooks/use-subscription.tsx:371-423 | a trial has a label of its own but the default benefits |
| SubscriptionCard.ExpiryStatesExclusive | src/components/student/subscription-status.tsx:83-84 | never both expired and expiring soon; neither exactly above 30 days |
| SubscriptionCard.Progress | src/components/student/subscription-status.tsx:79-81 | the used share of a 365-day year, clamped to 0..100 |
| SubscriptionCard.ProgressMonotone | src/components/student/subscription-status.tsx:79-81 | fewer days left never shows less progress |
| SubscriptionCard.StatusColor | src/components/student/subscription-status.tsx:86-91 | destructive exactly when expired, warning exactly when expiring soon |
| SubscriptionCard.StatusIcon | src/components/student/subscription-status.tsx:92-97 | the alert icon exactly when expired, the clock exactly when expiring soon |
| SubscriptionCard.IconFollowsColor | src/components/student/subscription-status.tsx:86-97 | the icon follows the colour |
| SubscriptionCard.ButtonLabel | src/components/student/subscription-status.tsx:295-308 | 'Renew Now' exactly when expired or expiring soon; 'Upgrade Plan' exactly for a free plan above 30 days; 'Manage Plan' exactly for a paid plan above 30 days |
| SubscriptionCard.AllAccessShownWhenExpired | src/components/student/subscription-status.tsx:241-255 | the banner guard as written admits an active paid subscription with 0 days left, and the card shows both banners |
| SubscriptionCard.WrittenBanners | src/components/student/subscription-status.tsx:226-269 | each banner exactly under its written guard: expiring soon for 1 to 30 days, expired for 0 or fewer, All Access for an active paid plan not expiring soon, the free plan for an active free one |
| SubscriptionCard.StatusBanners | src/components/student/subscription-status.tsx:227-280 | with the corrected guard at most one of the exclusive banners shows, and 'All Access Active' exactly for an active paid plan above 30 days |
| SubscriptionCard.AllAccessCorrectionOnlyWhenExpired | src/components/student/subscription-status.tsx:255 | the corrected guard differs from the written one exactly on expired subscriptions |
| SubscriptionCard.Render | src/components/student/subscription-status.tsx:40-310 | the empty-state card exactly without a subscription; the icon follows the colour, the progress lies in 0..100, and the banners follow the written guards, so an active paid plan at 0 days shows both 'Subscription Expired' and 'All Access Active' |
| SubscriptionCard.RenderCorrected | src/components/student/subscription-status.tsx:255 | with the corrected guard 'All Access Active' never shows next to 'Subscription Expired', and the card differs from the written one exactly in that case |
| SubscriptionsPage.SubscriptionItems | src/app/student/subscriptions/page.tsx:80-82 | the unwrapped payload's items when it is an array, else none |
| SubscriptionsPage.Load | src/app/student/subscriptions/page.tsx:70-94 | a list exactly for a successful answer with a truthy payload: the unwrapped payload's items when it is an array, else empty; otherwise the answer's non-empty error or 'Failed to load subscription data', and for a thrown request its non-empty message or 'Failed to load subscriptions' |
| SubscriptionsPage.LoadFindsListInEnvelope | src/app/student/subscriptions/page.tsx:80-84 | the list is found bare or in one or two envelopes |
| SubscriptionsPage.NonArrayPayloadGivesEmptyList | src/app/student/subscriptions/page.tsx:80-86 | a payload that is not an array gives an empty list |
| SubscriptionsPage.SplitIsPartition | src/app/student/subscriptions/page.tsx:192-193 | current and past subscriptions split the list without loss, in order |
| SubscriptionsPage.Min100 | src/app/student/subscriptions/page.tsx:248 | `Math.min(100, x)`: x up to 100 kept, 100 for x from 100 up and for +∞, −∞ and NaN kept |
| SubscriptionsPage.CardProgress | src/app/student/subscriptions/page.tsx:241-248 | 100 for an inactive card; otherwise the used share of the card's days, at most 100 |
| SubscriptionsPage.SameDayCardHasNoProgress | src/app/student/subscriptions/page.tsx:247-248 | an active card of zero days with no days remaining computes NaN |
| SubscriptionsPage.StatusVariant | src/app/student/subscriptions/page.tsx:250-258 | secondary for an inactive card; otherwise the variant of its status |
| SubscriptionsPage.CardStatusBadge | src/app/student/subscriptions/page.tsx:241-282 | only a current card gets the default badge |
| SubscriptionsPage.TypeVariant | src/app/student/subscriptions/page.tsx:260-266 | default exactly for YEAR, secondary exactly for RESIDENCY |
| ProfileDropdown.FirstChar | src/components/student/layout/profile-dropdown.tsx:80 | `charAt(0)`: the first character, or nothing |
| ProfileDropdown.FirstChars | src/components/student/layout/profile-dropdown.tsx:79-81 | at most one character per word |
| ProfileDropdown.Initials | src/components/student/layout/profile-dropdown.tsx:77-84 | at most two characters, none a lower-case letter, the first two of the capitalised first letters |
| ProfileDropdown.InitialsOfTwoNames | src/components/student/layout/profile-dropdown.tsx:77-84 | a first and a last name give their two capitalised first letters |
| ProfileDropdown.InitialsOfOneName | src/components/student/layout/profile-dropdown.tsx:77-84 | a single name gives its capitalised first letter |
| ProfileDropdown.PlanStatus | src/components/student/layout/profile-dropdown.tsx:87-98 | 'No Active Plan' without subscriptions; 'Active Plan' exactly when one is active; 'Inactive Plan' otherwise; the secondary, default and destructive badge variants go with the three texts |
| ProfileDropdown.ActiveCountIffSomeActive | src/components/student/layout/profile-dropdown.tsx:92-93 | the active filter is non-empty exactly when some subscription is active |
| ProfileDropdown.PlanStatusIgnoresOrder | src/components/student/layout/profile-dropdown.tsx:87-98 | the caption does not depend on the order of the subscriptions |
| Js.Unwrap | src/lib/api/exam-service.ts:112 | the first truthy of the doubly nested payload, the nested payload and the response |
| Js.UnwrapDoubleEnvelope | src/lib/api/exam-service.ts:112 | a truthy payload in two envelopes is recovered |
| Js.UnwrapSingleEnvelope | src/lib/api/exam-service.ts:112 | a payload in one envelope is recovered unless it has a truthy data field of its own |
| Js.UnwrapBare | src/lib/api/exam-service.ts:112 | a response without a truthy data field is kept whole |
| Js.UnwrapKeepsTruthy | src/lib/api/exam-service.ts:112 | unwrapping a truthy response gives a truthy value |
| Sorting.SortDesc | src/lib/api/exam-service.ts:211 | a permutation of the input in non-increasing key order |
| Sorting.SortDescIsStable | src/lib/api/exam-service.ts:211 | the sort is stable: elements with equal keys come out in their input order |
| ExamService.ExamList | src/lib/api/exam-service.ts:120-126 | the unwrapped array's items, or a one-element list of any other payload; empty only for an empty array |
| ExamService.ExamListInEnvelopes | src/lib/api/exam-service.ts:120-126 | an exam list in one or two envelopes is found |
| ExamService.NullPayloadCountsAsOneExam | src/lib/api/exam-service.ts:120-126 | a successful answer with null data counts as one exam |
| ExamService.CheckModule | src/lib/api/exam-service.ts:229-263 | 10 questions per exam; available exactly with an exam; a failed request gives 0 exams |
| ExamService.AvailableIffSomeExam | src/lib/api/exam-service.ts:235-245 | a module is available exactly when its request answered with a non-empty list or a non-array |
| ExamService.Checks | src/lib/api/exam-service.ts:229-264 | one check per requested module, in order |
| ExamService.ChecksSnoc | src/lib/api/exam-service.ts:229-264 | the checks of one more module extend the earlier checks |
| ExamService.SplitChecks | src/lib/api/exam-service.ts:229-264 | the loop puts each check at the end of the available or the unavailable list and sums the available questions |
| ExamService.SumQuestionsAppend | src/lib/api/exam-service.ts:250 | the question total grows by the added module's count |
| ExamService.AllQuestionsComeFromAvailableModules | src/lib/api/exam-service.ts:248-253 | unavailable modules add no questions |
| ExamService.Validate | src/lib/api/exam-service.ts:222-286 | available and unavailable checks in request order; the total is the available questions; valid exactly with an available module; the two messages exactly in their cases |
| ExamService.ValidationPartitionsRequest | src/lib/api/exam-service.ts:222-286 | the two lists split the requested modules without loss, and the total equals all modules' questions |
| ExamService.Availability | src/lib/api/exam-service.ts:292-327 | the map's keys are the module ids, each mapped to its check |
| ExamService.AvailabilityAgreesWithValidation | src/lib/api/exam-service.ts:292-327 | the map holds, for each module, the check that validation makes |
| ExamService.ModuleAvailabilityForYear | src/lib/api/exam-service.ts:292-327 | a failed module list fails; otherwise the map covers exactly the listed modules |
| ExamService.UniteModules | src/lib/api/exam-service.ts:177-189 | every module of a unite is read, failing on a nullish module; each entry is the module's id and name with the unite's name and study pack name |
| ExamService.FlattenUnitesSucceeds | src/lib/api/exam-service.ts:175-192 | the module list succeeds exactly when no unite or module is nullish, with one entry per module |
| ExamService.FlattenUnitesCons | src/lib/api/exam-service.ts:175-192 | the first unite's modules come first |
| ExamService.FlattenUnitesConcat | src/lib/api/exam-service.ts:175-192 | the modules of two unite lists are the modules of each, concatenated |
| ExamService.AvailableModules | src/lib/api/exam-service.ts:168-199 | nullish filter data fails; a missing unite array gives no modules |
| ExamService.AvailableModulesInEnvelope | src/lib/api/exam-service.ts:168-199 | well-formed unites in an envelope give one module per unite module |
| ExamService.AvailableYears | src/lib/api/exam-service.ts:204-216 | fails on nullish data or a non-array; otherwise the years newest first, a permutation, empty when missing |
| ExamService.YearsNewestFirst | src/lib/api/exam-service.ts:211 | numeric years come newest first |
| QuizApiHook.Sessions | src/hooks/use-quiz-api.tsx:155-192 | sessions exactly for a successful answer, and then no error; a failure gives an error and no pagination: the answer's error or the fixed text when answered (never empty), the thrown message when there is one (possibly empty), else the fixed text |
| QuizApiHook.SessionsInEnvelope | src/hooks/use-quiz-api.tsx:169-180 | a page of sessions in an envelope gives its sessions and pagination |
| QuizApiHook.SessionsOfBareArray | src/hooks/use-quiz-api.tsx:169-180 | a bare array is the session list |
| QuizApiHook.SessionsOfNonArray | src/hooks/use-quiz-api.tsx:170-176 | a payload that is not an array gives an empty list |
| QuizApiHook.ModuleCourses | src/hooks/use-quiz-api.tsx:290-297 | one flat course per course of a module, carrying the module and unit names and the year |
| QuizApiHook.ModulesCourses | src/hooks/use-quiz-api.tsx:289-298 | every flat course comes from a module of the unit |
| QuizApiHook.ModulesCoursesComplete | src/hooks/use-quiz-api.tsx:289-298 | every course of every module of the unit is listed |
| QuizApiHook.ModulesCoursesIsFlatMap | src/hooks/use-quiz-api.tsx:289-298 | a unit's courses are its modules' courses, module after module |
| QuizApiHook.ModulesCoursesConcat | src/hooks/use-quiz-api.tsx:289-298 | the courses of two module lists are concatenated, so modules keep their order |
| QuizApiHook.AllCourses | src/hooks/use-quiz-api.tsx:287-299 | every flat course comes from a unit and module of the tree, and every course of the tree is listed |
| QuizApiHook.AllCoursesConcat | src/hooks/use-quiz-api.tsx:287-299 | the courses of two unit lists are concatenated |
| QuizApiHook.AllCoursesOfOneModule | src/hooks/use-quiz-api.tsx:287-299 | a unit with one module gives exactly that module's courses |
| QuizApiHook.ModulesCoursesLength | src/hooks/use-quiz-api.tsx:289-298 | one flat course per course of the unit's modules |
| QuizApiHook.AllCoursesLength | src/hooks/use-quiz-api.tsx:287-299 | one flat course per course of the tree |
| QuizApiHook.YearLevels | src/hooks/use-quiz-api.tsx:302-305 | one level per year, captioned 'Year' and the year |
| QuizApiHook.CourseLabel | src/hooks/use-quiz-api.tsx:308 | the course name, then the module name in parentheses |
| QuizApiHook.CourseOptions | src/hooks/use-quiz-api.tsx:306-312 | one option per flat course, in order |
| QuizApiHook.UnitOptions | src/hooks/use-quiz-api.tsx:313-317 | one option per unit, its id printed as the value |
| QuizApiHook.UnitModuleOptions | src/hooks/use-quiz-api.tsx:319-324 | one option per module of a unit, with the unit's id and name |
| QuizApiHook.ModuleOptionsComeFromUnits | src/hooks/use-quiz-api.tsx:318-325 | every module option carries the id and name of a unit of the tree |
| QuizApiHook.ModuleOptionsConcat | src/hooks/use-quiz-api.tsx:318-325 | the options of two unit lists are concatenated |
| QuizApiHook.Options | src/hooks/use-quiz-api.tsx:283-333 | no options exactly without filters; otherwise the five lists, with the three fixed difficulties |
| QuizApiHook.CourseOptionsCoverTree | src/hooks/use-quiz-api.tsx:283-333 | one course option per course of the tree, each naming a unit of the tree and a module of that unit |
| QuizApiHook.TopicsForCourse | src/hooks/use-quiz-api.tsx:337-341 | no topics for any course |
| WorkspaceNotes.IndexOfKey | src/app/student/workspace/page.tsx:228 | the position of the group with the key, or -1 when there is none |
| WorkspaceNotes.AddNote | src/app/student/workspace/page.tsx:225-239 | a note joins its group or opens one more |
| WorkspaceNotes.FilterAfterNote | src/app/student/workspace/page.tsx:225-253 | the notes of a key after one more note are the earlier ones plus that note when it has the key |
| WorkspaceNotes.AddNoteOpensGroup | src/app/student/workspace/page.tsx:228-231 | a note of a new key opens a group after the others, keeping a grouping |
| WorkspaceNotes.AddNoteJoinsGroup | src/app/student/workspace/page.tsx:231 | a note of a known key joins the end of its group, keeping a grouping |
| WorkspaceNotes.AddNoteKeepsGrouping | src/app/student/workspace/page.tsx:225-253 | adding the next note keeps a grouping of the notes seen |
| WorkspaceNotes.GroupAllIsGrouping | src/app/student/workspace/page.tsx:222-256 | adding the notes one by one groups them |
| WorkspaceNotes.GroupNotes | src/app/student/workspace/page.tsx:222-256 | every group holds exactly its key's notes in order, keys are distinct, and every note has a group |
| WorkspaceNotes.GroupedNotes | src/app/student/workspace/page.tsx:217-259 | a single ungrouped group without notes or grouping; otherwise a grouping |
| WorkspaceNotes.NoteInExactlyOneGroup | src/app/student/workspace/page.tsx:217-259 | every note is in exactly one group |
| WorkspaceNotes.QuestionGroupsShareQuestion | src/app/student/workspace/page.tsx:226-237 | the general group holds exactly the notes without a question; a question group's notes all have that question |
| WorkspaceNotes.QuestionInfoOf | src/app/student/workspace/page.tsx:414-429 | 'General Notes' for the general group; for a question group the first note's id and its question text or 'Unknown Question'; the key itself otherwise; failing only on an empty question group |
| WorkspaceNotes.QuestionGroupCaption | src/app/student/workspace/page.tsx:414-429 | a question group made by the grouping has a caption naming its question |
| WorkspaceNotes.ToggleExpansion | src/app/student/workspace/page.tsx:400-410 | the question's membership flips and the others stay |
| WorkspaceNotes.ToggleExpansionTwice | src/app/student/workspace/page.tsx:400-410 | toggling twice restores the set |
| WorkspaceNotes.CreateNote | src/app/student/workspace/page.tsx:346-356 | nothing is sent for a blank text; the text is sent untrimmed with the question and labels |
| WorkspaceNotes.EditNote | src/app/student/workspace/page.tsx:364-373 | nothing is sent without a note being edited or for a blank text |
| WorkspaceNotes.OpenEditNote | src/app/student/workspace/page.tsx:391-398 | the form takes the note's text and question and no labels |
| WorkspaceNotes.EditWithoutLabelsSendsNone | src/app/student/workspace/page.tsx:364-398 | saving an opened note unchanged sends an empty label list |
| WorkspaceNotes.ClickLabel | src/app/student/workspace/page.tsx:770-775 | the clicked label's membership flips and the other labels stay |
| WorkspaceNotes.ClickLabelTwice | src/app/student/workspace/page.tsx:770-775 | clicking twice restores the labels up to order, and exactly for an absent label |
| WorkspaceTodos.PriorityColor | src/app/student/workspace/page.tsx:302-313 | each colour exactly for its priority, ignoring case |
| WorkspaceTodos.PriorityIconOf | src/app/student/workspace/page.tsx:315-326 | the alert icon exactly for HIGH, the target exactly for LOW |
| WorkspaceTodos.PriorityIconFollowsColor | src/app/student/workspace/page.tsx:302-326 | the icon follows the colour |
| WorkspaceTodos.PriorityIgnoresCase | src/app/student/workspace/page.tsx:303 | the colour does not depend on the spelling's case |
| WorkspaceTodos.IsOverdue | src/app/student/workspace/page.tsx:328-331 | an open todo with a valid due date is overdue exactly when the date is before now; an overdue todo is open and dated |
| WorkspaceTodos.OverdueStaysOverdue | src/app/student/workspace/page.tsx:328-331 | an overdue todo stays overdue later, and completing it ends that |
| WorkspaceTodos.CompletedOrUndatedNotOverdue | src/app/student/workspace/page.tsx:328-331 | a completed or undated todo is never overdue |
| WorkspaceTodos.Stats | src/app/student/workspace/page.tsx:508-517 | zeros without todos; total = completed + pending; overdue <= pending |
| WorkspaceTodos.OverdueArePending | src/app/student/workspace/page.tsx:513-514 | no more overdue todos than pending ones |
| WorkspaceTodos.ToRequest | src/app/student/workspace/page.tsx:445-449 | upper-case priority; no due date for a blank field, else the end of that day |
| WorkspaceTodos.DatePart | src/app/student/workspace/page.tsx:503 | a prefix of the date that ends where the date does or at its first T, so the whole date when it has none |
| WorkspaceTodos.FormOf | src/app/student/workspace/page.tsx:498-506 | the form holds the title, the description or '', the part of the due date before its first T or '', and the lower-case priority |
| WorkspaceTodos.FormRoundTrip | src/app/student/workspace/page.tsx:440-506 | saving a form with a date and lower-case priority, then opening it, gives the form back |
| WorkspaceTodos.BlankDateComesBackEmpty | src/app/student/workspace/page.tsx:440-506 | a blank date field comes back empty |
| WorkspaceTodos.CreateTodo | src/app/student/workspace/page.tsx:440-449 | nothing is sent for a blank title |
| WorkspaceTodos.EditTodo | src/app/student/workspace/page.tsx:458-467 | nothing is sent without a todo being edited or for a blank title |
| WorkspaceTodos.ToggleComplete | src/app/student/workspace/page.tsx:478-484 | a completed todo is reopened, any other is completed |
| WorkspaceLabels.SearchLabels | src/app/student/workspace/page.tsx:519-521 | only labels whose lower-case name contains the lower-case term, in order; none without labels |
| WorkspaceLabels.SearchFindsEveryMatch | src/app/student/workspace/page.tsx:519-521 | every matching label is found |
| WorkspaceLabels.SearchIgnoresCase | src/app/student/workspace/page.tsx:520 | the search ignores the case of the term |
| WorkspaceLabels.EmptySearchShowsAll | src/app/student/workspace/page.tsx:519-521 | an empty term shows every label |
| WorkspaceLabels.FindById | src/app/student/workspace/page.tsx:292-294 | a found label has the id; none exactly when no label has it |
| WorkspaceLabels.LabelById | src/app/student/workspace/page.tsx:292-294 | as above, and nothing while the labels are not loaded |
| WorkspaceLabels.LabelByIdIsFirst | src/app/student/workspace/page.tsx:292-294 | the lookup gives the first label with the id |
| WorkspaceLabels.ActiveByUse | src/app/student/workspace/page.tsx:1523-1524 | a permutation of the used labels, most used first, labels with equal use in list order |
| WorkspaceLabels.MostActive | src/app/student/workspace/page.tsx:1523-1526 | the first five of the used labels ordered by use, or all of them when fewer |
| WorkspaceLabels.MostActiveAreTheMostUsed | src/app/student/workspace/page.tsx:1523-1526 | no used label left out is used more than a shown one |
| WorkspaceLabels.NoneUsedIffPanelEmpty | src/app/student/workspace/page.tsx:1538 | with non-negative counts, the 'no labels used' message shows exactly when the panel is empty |
| WorkspaceLabels.ActiveAndUnusedAddUp | src/app/student/workspace/page.tsx:1553-1559 | with non-negative counts, active and unused labels add up to all labels |
| WorkspaceLabels.CreateLabel | src/app/student/workspace/page.tsx:524-529 | nothing is sent for a blank name |
| WorkspaceLabels.EditLabel | src/app/student/workspace/page.tsx:538-543 | nothing is sent without a label being edited or for a blank name |
| WorkspaceLabels.OpenEditLabel | src/app/student/workspace/page.tsx:561-566 | the form takes the label's name |
| WorkspaceLabels.UnchangedEditKeepsName | src/app/student/workspace/page.tsx:538-566 | saving an opened label unchanged sends its name back |
| WorkspaceFilters.UpdateFilters | src/app/student/workspace/page.tsx:334-340 | the patch's fields win and other fields stay; the page is the patch's truthy page, else 1 |
| WorkspaceFilters.UpdateFiltersIdempotent | src/app/student/workspace/page.tsx:432-438 | applying the same change twice is applying it once |
| WorkspaceFilters.SearchResetsPage | src/app/student/workspace/page.tsx:570-580 | a new search keeps the other filters and goes back to page 1 |
| WorkspaceFilters.PageStepKeepsFilters | src/app/student/workspace/page.tsx:987-1000 | a page step changes the page and nothing else |
| WorkspaceFilters.ApiTodosFilters | src/app/student/workspace/page.tsx:205-208 | the 'all' priority is never sent; the other fields pass through |
| WorkspaceFilters.ApiTodosFiltersKeepsPriority | src/app/student/workspace/page.tsx:205-208 | a specific priority is passed through unchanged |
| WorkspaceFilters.Showing | src/app/student/workspace/page.tsx:979-984 | shown only with several pages; from the page's first item to its last or the total |
| WorkspaceFilters.ShowingIsWithinTotal | src/app/student/workspace/page.tsx:982-983 | a page holding items shows a non-empty range of at most 'limit' items within the total |
| WorkspaceFilters.ConsecutivePagesAdjoin | src/app/student/workspace/page.tsx:982-983 | a full page ends just before the next begins |
| WorkspaceFilters.LastPageEndsAtTotal | src/app/student/workspace/page.tsx:982-983 | the last page ends at the total |
| WorkspaceFilters.ReportTypeCaption | src/app/student/workspace/page.tsx:294-296 | a caption from the table; an unknown type reads as Other |
| WorkspaceFilters.StatusCaption | src/app/student/workspace/page.tsx:298-300 | a caption from the table; an unknown status reads as Pending |
| WorkspaceFilters.ReportTypeCaptionsIdentifyTypes | src/app/student/workspace/page.tsx:85-111 | known types keep their captions, and no two share one |
| WorkspaceFilters.StatusCaptionsIdentifyStatuses | src/app/student/workspace/page.tsx:114-135 | known statuses keep their captions, and no two share one |
| WorkspaceFilters.CreateReport | src/app/student/workspace/page.tsx:582-590 | nothing is sent for a blank question id, no type or a blank description; otherwise the parsed id, the type and the trimmed, non-empty description |
| WorkspaceFilters.ReportIsForTypedQuestion | src/app/student/workspace/page.tsx:582-590 | a question id typed as a number is sent as that number, with a description starting with a visible character |

## Left out

- Network requests, client storage, toasts, timers, routing, confirmation dialogs and JSX are
  left out. Their outcomes and the values they display are inputs or results.
- The clock is left out. `now`, `daysLeft` and `parseDate` are inputs. Date grouping uses a
  precomputed `dayKey` per note, which stands for the locale-dependent `toDateString()`.
- Case mapping covers ASCII letters only. Unicode case mapping is not modelled. `trim` and
  `parseInt` skip the full ECMAScript white-space and line-terminator set, byte-order mark included.
- Numbers are integers, or reals where the source divides. Only the subscriptions page's progress
  reaches a non-finite value, and only there is `NaN` modelled.
- `Text.ParseInt` models `parseInt` without a radix only.
- The report and status caption lookups index a plain object. A type named like an inherited
  property (`constructor`, `toString`) would read that property; this case is not modelled.
- The icons and class names of the report and status tables are not modelled, only their captions.
- ExamService.YearKey orders numbers by value, `true` as 1 and `null` and `false` as 0. The
  source's comparator `b - a` would also coerce numeric strings to their value, and a comparison
  giving `NaN` leaves the order to the engine; the model orders every other value as 0. The
  engine's sort also moves `undefined` entries to the end without comparing them; the model
  orders them as 0.
- `ExamService.Validate` computes every module's check first and then splits the checks. The
  source awaits each request inside the loop. The requests do not depend on each other, so the
  lists and the total are the same.
- `preValidateExamSession` (exam-service.ts:333-335) only calls validation, which is
  `ExamService.Validate`.
- The other exam-service getters apply `Js.Unwrap` and nothing else. The one exception is
  `getExamsByModuleAndYear`, which is `ExamService.ExamList`.
- The engine's wording of a thrown `TypeError` (reading a field of `undefined`) is not modelled.
  Such a failure is an `Err` whose text names only the field read (`ExamService.ReadError`).
- Lists.ToggleTwice restores a selected element's multiset, not its position. A second toggle
  moves the element to the end, as the source does.
- QuestionDisplay.FormatTimeRoundTrip is stated for non-negative durations only. A negative
  duration prints a negative seconds field.
- JavaScript's `length`, `substring`, `charAt` and `slice` count UTF-16 code units. The report
  button's length test is modelled in code units (`Text.Utf16Length`). The operations that cut a
  string count characters, because a cut through a surrogate pair has no counterpart in a string
  of characters:
  - ReportDialog.Preview: the 200-unit limit and cut are counted in characters;
  - ProfileDropdown.FirstChar and ProfileDropdown.Initials: `charAt(0)` and `slice(0, 2)` take
    whole characters;
  - SubscriptionHook.Capitalise: `charAt(0)` and `slice(1)` split after the first character.
- ReportDialog.ClearedFormSendsNothing: does not cover the Cancel button as written. That button
  keeps the draft (ReportDialog.CancelKeepsDraft); the lemma covers the corrected Cancel, listed
  under Findings.
- QuestionDisplay.Transform: a truthy `answers` that is not an array makes `.map` throw in the
  source; the model takes a present `answers` to be an array and does not model the throw.
- WorkspaceFilters.UpdateFiltersIdempotent and the other filter lemmas treat a filter object as
  a map. JavaScript's key order is not modelled.

## Findings

| source | as written | input that shows it | evidently intended | confidence | as-written member | corrected member |
|---|---|---|---|---|---|---|
| src/components/student/subscription-status.tsx:255 | the "All Access Active" banner shows for `isActive && !isExpiringSoon && !isFree` | an active paid subscription with 0 days left shows both "Subscription Expired" and "All Access Active" | the banner also requires the subscription not to be expired | medium, not executed | SubscriptionCard.AllAccessShownWhenExpired | SubscriptionCard.StatusBanners |
| src/components/student/session-analysis/question-report-dialog.tsx:206 | the Cancel button calls `setOpen(false)`, which bypasses `handleOpenChange` and its reset | type a description, press Cancel, reopen the dialog: the draft is still there and is sent | closing resets the form on every path, as the close handler's reset does | low, not executed | ReportDialog.CancelKeepsDraft | ReportDialog.CancelCorrected |

=== FILE: analytics_overview.dfy ===
/** The figures of the analytics overview computed from the student's sessions: which sessions
    count as completed, the average score, the time spent, the improvement trend and the progress
    towards five sessions a week. Timestamps are integer milliseconds; the current time is an
    input. */
module AnalyticsOverview {
  import opened Wrappers
  import Lists
  import StudyStreak

  datatype Session = Session(
    status: string,
    score: Option<real>,
    percentage: Option<real>,
    completedAt: Option<int>,
    createdAt: Option<int>,
    duration: Option<int>,
    timeSpent: Option<int>)

  /** A completed status (in either spelling), a non-negative score or percentage, and a
      completion timestamp. */
  predicate IsCompleted(s: Session)
  {
    && (s.status == "COMPLETED" || s.status == "completed")
    && ((s.score.Some? && s.score.value >= 0.0) || (s.percentage.Some? && s.percentage.value >= 0.0))
    && s.completedAt.Some?
  }

  /** The sessions the overview counts, in their original order. */
  function CompletedSessions(all: seq<Session>): (r: seq<Session>)
    ensures |r| <= |all|
    ensures forall i :: 0 <= i < |r| ==> IsCompleted(r[i]) && r[i].completedAt.Some?
    ensures Lists.IsSubsequence(r, all)
    ensures forall s {:trigger s in r} :: s in r <==> s in all && IsCompleted(s)
    ensures forall s :: multiset(r)[s] == if IsCompleted(s) then multiset(all)[s] else 0
  {
    forall s ensures multiset(Lists.Filter(all, IsCompleted))[s] == if IsCompleted(s) then multiset(all)[s] else 0 {
      Lists.FilterMultiplicity(all, IsCompleted, s);
    }
    Lists.FilterIsSubsequence(all, IsCompleted);
    Lists.FilterContains(all, IsCompleted);
    Lists.Filter(all, IsCompleted)
  }

  /** `session.percentage || 0` */
  function PercentOf(s: Session): real
  {
    if s.percentage.Some? then s.percentage.value else 0.0
  }

  function SumPercent(ss: seq<Session>): real
  {
    if ss == [] then 0.0 else PercentOf(ss[0]) + SumPercent(ss[1..])
  }

  /** The percentage of every session lies in `lo..hi` (missing ones count as 0). */
  predicate PercentagesWithin(ss: seq<Session>, lo: real, hi: real)
  {
    forall i :: 0 <= i < |ss| ==> lo <= PercentOf(ss[i]) <= hi
  }

  lemma {:induction false} SumPercentBounds(ss: seq<Session>, lo: real, hi: real)
    requires PercentagesWithin(ss, lo, hi)
    ensures |ss| as real * lo <= SumPercent(ss) <= |ss| as real * hi
  {
    if ss != [] {
      assert PercentagesWithin(ss[1..], lo, hi) by {
        forall i | 0 <= i < |ss[1..]| ensures lo <= PercentOf(ss[1..][i]) <= hi {
          assert ss[1..][i] == ss[i + 1];
        }
      }
      SumPercentBounds(ss[1..], lo, hi);
    }
  }

  /** `totalSessions > 0 ? totalScore / totalSessions : 0` */
  function AverageScore(ss: seq<Session>): (r: real)
    ensures ss == [] ==> r == 0.0
    ensures ss != [] ==> r * |ss| as real == SumPercent(ss)
  {
    if |ss| > 0 then SumPercent(ss) / |ss| as real else 0.0
  }

  /** The average lies between the smallest and largest percentage allowed. */
  lemma AverageWithinBounds(ss: seq<Session>, lo: real, hi: real)
    requires ss != [] && PercentagesWithin(ss, lo, hi)
    ensures lo <= AverageScore(ss) <= hi
  {
    SumPercentBounds(ss, lo, hi);
    var n := |ss| as real;
    assert AverageScore(ss) * n == SumPercent(ss);
    assert n * lo <= AverageScore(ss) * n <= n * hi;
  }

  /** `Math.round(seconds / 60)`: minutes, to the nearest, halves rounded up. */
  function RoundMinutes(seconds: int): (r: int)
    ensures -60 <= 2 * (seconds - 60 * r) < 60
  {
    (2 * seconds + 60) / 120
  }

  /** A number field is truthy: present and not 0. */
  predicate Nonzero(x: Option<int>)
  {
    x.Some? && x.value != 0
  }

  /** The minutes one session contributes: its duration if given, else its time spent, else 0. */
  function SessionMinutes(s: Session): (r: int)
    ensures Nonzero(s.duration) ==> r == RoundMinutes(s.duration.value)
    ensures !Nonzero(s.duration) && Nonzero(s.timeSpent) ==> r == RoundMinutes(s.timeSpent.value)
    ensures !Nonzero(s.duration) && !Nonzero(s.timeSpent) ==> r == 0
  {
    if Nonzero(s.duration) then RoundMinutes(s.duration.value)
    else if Nonzero(s.timeSpent) then RoundMinutes(s.timeSpent.value)
    else 0
  }

  function TotalMinutes(ss: seq<Session>): int
  {
    if ss == [] then 0 else SessionMinutes(ss[0]) + TotalMinutes(ss[1..])
  }

  /** Sessions without any time data add nothing to the total time. */
  lemma {:induction false} TotalMinutesWithoutTimes(ss: seq<Session>)
    requires forall i :: 0 <= i < |ss| ==> !Nonzero(ss[i].duration) && !Nonzero(ss[i].timeSpent)
    ensures TotalMinutes(ss) == 0
  {
    if ss != [] {
      TotalMinutesWithoutTimes(ss[1..]);
    }
  }

  /** Mean of the last two minus mean of the first two, with at least four sessions; else 0. */
  function ImprovementTrend(ss: seq<Session>): (r: real)
    ensures |ss| < 4 ==> r == 0.0
    ensures |ss| >= 4 ==>
      r == (PercentOf(ss[|ss| - 2]) + PercentOf(ss[|ss| - 1])) / 2.0 - (PercentOf(ss[0]) + PercentOf(ss[1])) / 2.0
    ensures |ss| >= 4 ==>
      (r > 0.0 <==> PercentOf(ss[|ss| - 1]) + PercentOf(ss[|ss| - 2]) > PercentOf(ss[0]) + PercentOf(ss[1]))
    ensures |ss| >= 4 ==>
      (r == 0.0 <==> PercentOf(ss[|ss| - 1]) + PercentOf(ss[|ss| - 2]) == PercentOf(ss[0]) + PercentOf(ss[1]))
  {
    if |ss| >= 4 then
      var recent := ss[|ss| - 2..];
      var older := ss[..2];
      assert SumPercent(recent) == PercentOf(ss[|ss| - 2]) + PercentOf(ss[|ss| - 1]) by {
        assert recent[0] == ss[|ss| - 2] && recent[1..][0] == ss[|ss| - 1] && recent[1..][1..] == [];
        assert SumPercent(recent[1..]) == PercentOf(recent[1..][0]) + SumPercent(recent[1..][1..]);
      }
      assert SumPercent(older) == PercentOf(ss[0]) + PercentOf(ss[1]) by {
        assert older[0] == ss[0] && older[1..][0] == ss[1] && older[1..][1..] == [];
        assert SumPercent(older[1..]) == PercentOf(older[1..][0]) + SumPercent(older[1..][1..]);
      }
      SumPercent(recent) / 2.0 - SumPercent(older) / 2.0
    else 0.0
  }

  /** The sessions in the opposite order. */
  function Reversed(ss: seq<Session>): (r: seq<Session>)
    ensures |r| == |ss|
    ensures forall i :: 0 <= i < |ss| ==> r[i] == ss[|ss| - 1 - i]
  {
    seq(|ss|, i requires 0 <= i < |ss| => ss[|ss| - 1 - i])
  }

  /** The trend is antisymmetric: read in the opposite order, the same sessions show the
      opposite trend. */
  lemma TrendOfReversed(ss: seq<Session>)
    ensures ImprovementTrend(Reversed(ss)) == -ImprovementTrend(ss)
  {
    var r := Reversed(ss);
    if |ss| >= 4 {
      assert r[0] == ss[|ss| - 1] && r[1] == ss[|ss| - 2];
      assert r[|r| - 1] == ss[0] && r[|r| - 2] == ss[1];
    }
  }

  /** Sessions with one and the same percentage show no trend. */
  lemma SteadyScoresNoTrend(ss: seq<Session>, p: real)
    requires PercentagesWithin(ss, p, p)
    ensures ImprovementTrend(ss) == 0.0
  {
    if |ss| >= 4 {
      assert PercentOf(ss[|ss| - 1]) == p && PercentOf(ss[|ss| - 2]) == p;
      assert PercentOf(ss[0]) == p && PercentOf(ss[1]) == p;
    }
  }

  const WeekMillis: int := 7 * 24 * 60 * 60 * 1000

  /** `new Date(completedAt || createdAt) >= weekAgo`; a session with neither timestamp reads as
      an invalid date, which no comparison accepts. */
  predicate InLastWeek(s: Session, now: int)
  {
    var at := if s.completedAt.Some? then s.completedAt else s.createdAt;
    at.Some? && at.value >= now - WeekMillis
  }

  /** The week test as the filter uses it. */
  function ThisWeek(now: int): Session -> bool
  {
    (s: Session) => InLastWeek(s, now)
  }

  /** `Math.min((sessionsThisWeek / 5) * 100, 100)`: 20 per session of the last week, capped at
      the goal. */
  function WeeklyGoalProgress(ss: seq<Session>, now: int): (r: real)
    ensures 0.0 <= r <= 100.0
    ensures Lists.Count(ss, ThisWeek(now)) >= StudyStreak.WeeklyGoal ==> r == 100.0
    ensures Lists.Count(ss, ThisWeek(now)) < StudyStreak.WeeklyGoal ==>
      r == Lists.Count(ss, ThisWeek(now)) as real * 20.0
  {
    StudyStreak.WeeklyProgress(Lists.Count(ss, ThisWeek(now)))
  }

  /** One more session never shows less progress, and one outside the last week changes
      nothing. */
  lemma WeeklyGoalProgressGrows(ss: seq<Session>, s: Session, now: int)
    ensures WeeklyGoalProgress(ss, now) <= WeeklyGoalProgress(ss + [s], now)
    ensures !InLastWeek(s, now) ==> WeeklyGoalProgress(ss + [s], now) == WeeklyGoalProgress(ss, now)
  {
    Lists.FilterSnoc(ss, s, ThisWeek(now));
    StudyStreak.WeeklyProgressMonotone(Lists.Count(ss, ThisWeek(now)), Lists.Count(ss + [s], ThisWeek(now)));
  }

  /** For a counted session the week test reads its completion time. */
  lemma CompletedSessionsUseCompletionTime(all: seq<Session>, now: int, i: int)
    requires 0 <= i < |CompletedSessions(all)|
    ensures var s := CompletedSessions(all)[i];
      InLastWeek(s, now) <==> s.completedAt.value >= now - WeekMillis
  {
  }
}

=== FILE: api_test_suite.dfy ===
/** The result list of the API test page: upserting a named result, running one test, and the
    status summary. The elapsed time of a run is an input. */
module ApiTestSuite {
  import opened Wrappers
  import Lists
  import Js

  datatype Status = Pending | Running | Success | Error

  datatype TestResult = TestResult(
    name: string, status: Status, message: Option<string>, data: Option<Js.Json>, duration: Option<int>)

  /** `Partial<TestResult>` without the name: each present field overrides. */
  datatype Update = Update(
    status: Option<Status>, message: Option<string>, data: Option<Js.Json>, duration: Option<int>)

  /** `{ ...r, ...updates }` */
  function Merge(r: TestResult, u: Update): (m: TestResult)
    ensures m.name == r.name
    ensures u.status.Some? ==> m.status == u.status.value
    ensures u.status.None? ==> m.status == r.status
    ensures m.message == if u.message.Some? then u.message else r.message
    ensures m.data == if u.data.Some? then u.data else r.data
    ensures m.duration == if u.duration.Some? then u.duration else r.duration
  {
    TestResult(r.name,
      if u.status.Some? then u.status.value else r.status,
      if u.message.Some? then u.message else r.message,
      if u.data.Some? then u.data else r.data,
      if u.duration.Some? then u.duration else r.duration)
  }

  function Names(rs: seq<TestResult>): (ns: seq<string>)
    ensures |ns| == |rs|
    ensures forall i :: 0 <= i < |rs| ==> ns[i] == rs[i].name
  {
    if rs == [] then [] else [rs[0].name] + Names(rs[1..])
  }

  function MergeNamed(rs: seq<TestResult>, name: string, u: Update): (r: seq<TestResult>)
    ensures |r| == |rs|
    ensures forall i :: 0 <= i < |rs| ==> r[i] == if rs[i].name == name then Merge(rs[i], u) else rs[i]
  {
    if rs == [] then [] else [if rs[0].name == name then Merge(rs[0], u) else rs[0]] + MergeNamed(rs[1..], name, u)
  }

  /** `updateTestResult(name, updates)`: every entry with that name takes the updates; when there
      is none, a new entry is appended, pending unless the updates say otherwise. */
  function UpdateResult(rs: seq<TestResult>, name: string, u: Update): (r: seq<TestResult>)
    ensures name in Names(rs) ==> |r| == |rs| && Names(r) == Names(rs)
    ensures name in Names(rs) ==> forall i :: 0 <= i < |rs| && rs[i].name != name ==> r[i] == rs[i]
    ensures name in Names(rs) ==> forall i :: 0 <= i < |rs| && rs[i].name == name ==> r[i] == Merge(rs[i], u)
    ensures name !in Names(rs) ==> |r| == |rs| + 1 && r[..|rs|] == rs
    ensures name !in Names(rs) ==> r[|rs|] == Merge(TestResult(name, Pending, None, None, None), u)
  {
    if name in Names(rs) then MergeNamed(rs, name, u)
    else rs + [Merge(TestResult(name, Pending, None, None, None), u)]
  }

  /** Names that were unique stay unique, and afterwards the list holds exactly the old names
      plus the updated one. */
  lemma UpdateKeepsNamesUnique(rs: seq<TestResult>, name: string, u: Update)
    requires Lists.NoDuplicates(Names(rs))
    ensures Lists.NoDuplicates(Names(UpdateResult(rs, name, u)))
    ensures forall n :: n in Names(UpdateResult(rs, name, u)) <==> n in Names(rs) || n == name
  {
    var r := UpdateResult(rs, name, u);
    if name !in Names(rs) {
      assert Names(r) == Names(rs) + [name];
    }
  }

  /** Updating the same name twice is the same as one update with both sets of fields, the later
      ones winning. */
  lemma UpdateTwiceMerges(rs: seq<TestResult>, name: string, u1: Update, u2: Update)
    ensures UpdateResult(UpdateResult(rs, name, u1), name, u2) == UpdateResult(rs, name, Then(u1, u2))
  {
    if name in Names(rs) {
      UpdateTwiceOfPresent(rs, name, u1, u2);
    } else {
      UpdateTwiceOfAbsent(rs, name, u1, u2);
    }
  }

  lemma MergeThen(r: TestResult, u1: Update, u2: Update)
    ensures Merge(Merge(r, u1), u2) == Merge(r, Then(u1, u2))
  {
  }

  lemma UpdateTwiceOfPresent(rs: seq<TestResult>, name: string, u1: Update, u2: Update)
    requires name in Names(rs)
    ensures UpdateResult(UpdateResult(rs, name, u1), name, u2) == UpdateResult(rs, name, Then(u1, u2))
  {
    assert Names(UpdateResult(rs, name, u1)) == Names(rs);
    MergeNamedTwice(rs, name, u1, u2);
  }

  lemma {:induction false} MergeNamedTwice(rs: seq<TestResult>, name: string, u1: Update, u2: Update)
    ensures MergeNamed(MergeNamed(rs, name, u1), name, u2) == MergeNamed(rs, name, Then(u1, u2))
  {
    if rs != [] {
      MergeNamedTwice(rs[1..], name, u1, u2);
      MergeThen(rs[0], u1, u2);
      assert MergeNamed(rs, name, u1)[1..] == MergeNamed(rs[1..], name, u1);
    }
  }

  lemma UpdateTwiceOfAbsent(rs: seq<TestResult>, name: string, u1: Update, u2: Update)
    requires name !in Names(rs)
    ensures UpdateResult(UpdateResult(rs, name, u1), name, u2) == UpdateResult(rs, name, Then(u1, u2))
  {
    var blank := TestResult(name, Pending, None, None, None);
    var once := rs + [Merge(blank, u1)];
    assert Names(once)[|rs|] == name;
    var twice := MergeNamed(once, name, u2);
    var direct := rs + [Merge(blank, Then(u1, u2))];
    MergeThen(blank, u1, u2);
    forall i | 0 <= i < |once| ensures twice[i] == direct[i] {
      if i < |rs| {
        assert rs[i].name == Names(rs)[i];
      }
    }
  }

  /** The fields of `u1` overridden by those of `u2`. */
  function Then(u1: Update, u2: Update): Update
  {
    Update(if u2.status.Some? then u2.status else u1.status,
           if u2.message.Some? then u2.message else u1.message,
           if u2.data.Some? then u2.data else u1.data,
           if u2.duration.Some? then u2.duration else u1.duration)
  }

  /** How the awaited test function ended. */
  datatype Outcome = Returned(result: Js.Json) | Threw(message: string)

  /** `runTest(name, fn)`: the entry is first marked running, then success with the result or
      error with the thrown message. */
  function RunTest(rs: seq<TestResult>, name: string, outcome: Outcome, duration: int): (r: seq<TestResult>)
    ensures Names(r) == if name in Names(rs) then Names(rs) else Names(rs) + [name]
  {
    var running := UpdateResult(rs, name, Update(Some(Running), None, None, None));
    assert Names(running) == if name in Names(rs) then Names(rs) else Names(rs) + [name];
    match outcome
    case Returned(result) => UpdateResult(running, name, Update(Some(Success), Some("Test passed"), Some(result), Some(duration)))
    case Threw(m) => UpdateResult(running, name, Update(Some(Error), Some(if m != [] then m else "Test failed"), None, Some(duration)))
  }

  /** After a run the named entry exists; every entry with that name has finished: success with
      "Test passed" and the result exactly when the test function returned, otherwise error with
      the thrown message or "Test failed"; nothing else changes. */
  lemma RunTestOutcome(rs: seq<TestResult>, name: string, outcome: Outcome, duration: int, i: int)
    requires 0 <= i < |RunTest(rs, name, outcome, duration)|
    ensures name in Names(RunTest(rs, name, outcome, duration))
    ensures var e := RunTest(rs, name, outcome, duration)[i];
      e.name == name ==>
        && (e.status == Success <==> outcome.Returned?)
        && (e.status == Success || e.status == Error)
        && e.message.Some? && e.message.value != []
        && e.duration == Some(duration)
        && (outcome.Returned? ==> e.message == Some("Test passed") && e.data == Some(outcome.result))
        && (outcome.Threw? ==> e.message == Some(if outcome.message != [] then outcome.message else "Test failed"))
    ensures i < |rs| && rs[i].name != name ==> RunTest(rs, name, outcome, duration)[i] == rs[i]
  {
    var running := UpdateResult(rs, name, Update(Some(Running), None, None, None));
    assert name in Names(running) by {
      if name !in Names(rs) {
        assert Names(running)[|rs|] == name;
      }
    }
  }

  /** The test `r => r.status === s` the summary filters by. */
  function HasStatus(s: Status): TestResult -> bool
  {
    (r: TestResult) => r.status == s
  }

  datatype Summary = Summary(total: nat, passed: nat, failed: nat, running: nat)

  /** The number of results with status `s`, counted one by one. */
  function CountStatus(rs: seq<TestResult>, s: Status): (n: nat)
    ensures n <= |rs|
    ensures n == Lists.Count(rs, HasStatus(s))
  {
    if rs == [] then 0 else (if rs[0].status == s then 1 else 0) + CountStatus(rs[1..], s)
  }

  /** `getTestSummary()` */
  function TestSummary(rs: seq<TestResult>): (r: Summary)
    ensures r.total == |rs|
    ensures r.passed == Lists.Count(rs, HasStatus(Success))
    ensures r.failed == Lists.Count(rs, HasStatus(Error))
    ensures r.running == Lists.Count(rs, HasStatus(Running))
    ensures r.passed + r.failed + r.running <= r.total
  {
    StatusCountsBounded(rs);
    CountStatusIsFilterLength(rs, Success);
    CountStatusIsFilterLength(rs, Error);
    CountStatusIsFilterLength(rs, Running);
    Summary(|rs|, CountStatus(rs, Success), CountStatus(rs, Error), CountStatus(rs, Running))
  }

  /** The per-status counts never exceed the number of results: a result has one status. */
  lemma {:induction false} StatusCountsBounded(rs: seq<TestResult>)
    ensures CountStatus(rs, Success) + CountStatus(rs, Error) + CountStatus(rs, Running)
            + CountStatus(rs, Pending) == |rs|
  {
    if rs != [] {
      StatusCountsBounded(rs[1..]);
    }
  }

  /** `CountStatus` is `filter(r => r.status === s).length`. */
  lemma {:induction false} CountStatusIsFilterLength(rs: seq<TestResult>, s: Status)
    ensures CountStatus(rs, s) == Lists.Count(rs, HasStatus(s))
  {
    if rs != [] {
      CountStatusIsFilterLength(rs[1..], s);
    }
  }
}

=== FILE: badge.dfy ===
/** The variants of the badge component, shared by the subscription pages and the profile menu. */
module Badge {
  datatype Variant = Default | Secondary | Destructive | Outline
}

=== FILE: exam_service.dfy ===
/** The exam service: the exam list of one module and year, the validation of a module selection
    for a year, the availability map of all modules, and the module and year lists read from the
    quiz filters. Requests are inputs: `lookup(id)` is the body of the by-module-and-year request
    for module `id`, or `None` when that request threw. */
module ExamService {
  import opened Wrappers
  import Js
  import Lists
  import Sorting
  import Text

  /** The estimate of questions per exam. */
  const QuestionsPerExam: int := 10

  // ---------------------------------------------------------------------------------------
  // The exams of one module and year

  /** `getExamsByModuleAndYear`: the unwrapped payload, wrapped in a list when it is not one. */
  function ExamList(body: Js.Json): (r: seq<Js.Json>)
    ensures Js.Unwrap(body).Arr? ==> r == Js.Unwrap(body).items
    ensures !Js.Unwrap(body).Arr? ==> r == [Js.Unwrap(body)]
    ensures r == [] ==> Js.Unwrap(body) == Js.Arr([])
  {
    var d := Js.Unwrap(body);
    if d.Arr? then d.items else [d]
  }

  /** A list of exams is found inside one or two envelopes. */
  lemma ExamListInEnvelopes(exams: seq<Js.Json>)
    requires exams != []
    ensures ExamList(Js.Envelope(Js.Arr(exams))) == exams
    ensures ExamList(Js.Envelope(Js.Envelope(Js.Arr(exams)))) == exams
  {
    Js.UnwrapSingleEnvelope(Js.Arr(exams));
    Js.UnwrapDoubleEnvelope(Js.Arr(exams));
  }

  /** A successful answer whose payload is null is not an array, so the whole answer is wrapped
      and counts as one exam. */
  lemma NullPayloadCountsAsOneExam()
    ensures var body := Js.Obj(map["success" := Js.Bool(true), "data" := Js.Null]);
      ExamList(body) == [body]
  {
  }

  // ---------------------------------------------------------------------------------------
  // Validation of a module selection

  /** `ModuleAvailabilityCheck`; `K` is the type of the module ids. */
  datatype ModuleCheck<K> = ModuleCheck(moduleId: K, year: int, hasQuestions: bool, questionCount: int, examCount: int)

  /** The check of one module: a request that threw counts as no exams. */
  function CheckModule<K>(moduleId: K, year: int, lookup: K -> Option<Js.Json>): (c: ModuleCheck<K>)
    ensures c.moduleId == moduleId && c.year == year
    ensures c.questionCount == QuestionsPerExam * c.examCount
    ensures c.hasQuestions <==> c.examCount > 0
    ensures c.examCount >= 0
    ensures lookup(moduleId).None? ==> c.examCount == 0
    ensures lookup(moduleId).Some? ==> c.examCount == |ExamList(lookup(moduleId).value)|
  {
    match lookup(moduleId)
    case None => ModuleCheck(moduleId, year, false, 0, 0)
    case Some(body) =>
      var exams := ExamList(body);
      ModuleCheck(moduleId, year, |exams| > 0, if |exams| > 0 then |exams| * QuestionsPerExam else 0, |exams|)
  }

  /** A module is available exactly when its request answered with at least one exam. */
  lemma AvailableIffSomeExam<K>(moduleId: K, year: int, lookup: K -> Option<Js.Json>)
    ensures CheckModule(moduleId, year, lookup).hasQuestions <==>
      lookup(moduleId).Some? && ExamList(lookup(moduleId).value) != []
  {
  }

  /** The checks of the requested modules, in request order. */
  function Checks<K>(ids: seq<K>, year: int, lookup: K -> Option<Js.Json>): (r: seq<ModuleCheck<K>>)
    ensures |r| == |ids|
    ensures forall i :: 0 <= i < |ids| ==> r[i] == CheckModule(ids[i], year, lookup)
  {
    seq(|ids|, i requires 0 <= i < |ids| => CheckModule(ids[i], year, lookup))
  }

  lemma ChecksSnoc<K>(ids: seq<K>, i: int, year: int, lookup: K -> Option<Js.Json>)
    requires 0 <= i < |ids|
    ensures Checks(ids[..i + 1], year, lookup) == Checks(ids[..i], year, lookup) + [CheckModule(ids[i], year, lookup)]
  {
    assert ids[..i + 1][..i] == ids[..i];
  }

  predicate HasQuestions<K>(c: ModuleCheck<K>) { c.hasQuestions }

  /** The sum of the question estimates. */
  function SumQuestions<K>(cs: seq<ModuleCheck<K>>): int
  {
    if cs == [] then 0 else cs[0].questionCount + SumQuestions(cs[1..])
  }

  lemma {:induction false} SumQuestionsAppend<K>(cs: seq<ModuleCheck<K>>, c: ModuleCheck<K>)
    ensures SumQuestions(cs + [c]) == SumQuestions(cs) + c.questionCount
  {
    if cs != [] {
      assert (cs + [c])[1..] == cs[1..] + [c];
      SumQuestionsAppend(cs[1..], c);
    }
  }

  /** The checks of modules without questions add nothing, so the total over the available
      modules is the total over all of them. */
  lemma {:induction false} AllQuestionsComeFromAvailableModules<K(!new)>(cs: seq<ModuleCheck<K>>)
    requires forall i :: 0 <= i < |cs| ==> cs[i].hasQuestions || cs[i].questionCount == 0
    ensures SumQuestions(Lists.Filter(cs, HasQuestions)) == SumQuestions(cs)
  {
    if cs != [] {
      assert forall i :: 0 <= i < |cs[1..]| ==> cs[1..][i] == cs[i + 1];
      AllQuestionsComeFromAvailableModules(cs[1..]);
      var rest := Lists.Filter(cs[1..], HasQuestions);
      if cs[0].hasQuestions {
        assert Lists.Filter(cs, HasQuestions) == [cs[0]] + rest;
        assert ([cs[0]] + rest)[1..] == rest;
      } else {
        assert Lists.Filter(cs, HasQuestions) == rest;
        assert cs[0].questionCount == 0;
      }
    }
  }

  datatype Validation<K> = Validation(
    isValid: bool, available: seq<ModuleCheck<K>>, unavailable: seq<ModuleCheck<K>>,
    totalQuestions: int, message: string)

  function NoQuestionsMessage(year: int): (r: string)
    ensures r != []
  {
    "No questions found for the selected modules in year " + Text.IntToString(year)
    + ". Please try selecting different modules or a different year."
  }

  function SomeMissingMessage(year: int, available: int, requested: int): (r: string)
    ensures r != []
  {
    "Some modules don't have questions available for year " + Text.IntToString(year)
    + ". Only " + Text.IntToString(available) + " out of " + Text.IntToString(requested)
    + " modules have questions."
  }

  /** The loop of `validateModuleAvailability`: the checks split into those with questions and
      those without, in request order, with the sum of the estimates. */
  method SplitChecks<K(!new)>(cs: seq<ModuleCheck<K>>)
    returns (available: seq<ModuleCheck<K>>, unavailable: seq<ModuleCheck<K>>, total: int)
    ensures available == Lists.Filter(cs, HasQuestions)
    ensures unavailable == Lists.Reject(cs, HasQuestions)
    ensures total == SumQuestions(available)
  {
    available, unavailable, total := [], [], 0;
    var i := 0;
    while i < |cs|
      invariant 0 <= i <= |cs|
      invariant available == Lists.Filter(cs[..i], HasQuestions)
      invariant unavailable == Lists.Reject(cs[..i], HasQuestions)
      invariant total == SumQuestions(available)
    {
      var c := cs[i];
      SplitStep(cs, i);
      if c.hasQuestions {
        SumQuestionsAppend(available, c);
        available := available + [c];
        total := total + c.questionCount;
      } else {
        unavailable := unavailable + [c];
      }
      i := i + 1;
    }
    assert cs[..|cs|] == cs;
  }

  /** One more check joins the end of the list it belongs to. */
  lemma SplitStep<K(!new)>(cs: seq<ModuleCheck<K>>, i: int)
    requires 0 <= i < |cs|
    ensures Lists.Filter(cs[..i + 1], HasQuestions)
            == Lists.Filter(cs[..i], HasQuestions) + (if cs[i].hasQuestions then [cs[i]] else [])
    ensures Lists.Reject(cs[..i + 1], HasQuestions)
            == Lists.Reject(cs[..i], HasQuestions) + (if cs[i].hasQuestions then [] else [cs[i]])
  {
    assert cs[..i + 1] == cs[..i] + [cs[i]];
    Lists.FilterSnoc(cs[..i], cs[i], HasQuestions);
  }

  /** `validateModuleAvailability(moduleIds, year)`: the requested modules split into those with
      questions and those without, in request order, with the sum of the estimates and the
      message for the user. */
  method Validate<K(!new)>(ids: seq<K>, year: int, lookup: K -> Option<Js.Json>) returns (r: Validation<K>)
    ensures r.available == Lists.Filter(Checks(ids, year, lookup), HasQuestions)
    ensures r.unavailable == Lists.Reject(Checks(ids, year, lookup), HasQuestions)
    ensures r.totalQuestions == SumQuestions(r.available)
    ensures r.isValid <==> r.available != []
    ensures r.message == [] <==> r.isValid && r.unavailable == []
    ensures !r.isValid ==> r.message == NoQuestionsMessage(year)
    ensures r.isValid && r.unavailable != [] ==> r.message == SomeMissingMessage(year, |r.available|, |ids|)
  {
    var available, unavailable, total := SplitChecks(Checks(ids, year, lookup));
    var isValid := |available| > 0;
    var message := "";
    if !isValid {
      message := NoQuestionsMessage(year);
    } else if |unavailable| > 0 {
      message := SomeMissingMessage(year, |available|, |ids|);
    }
    r := Validation(isValid, available, unavailable, total, message);
  }

  /** Every requested module lands in exactly one of the two lists, none is lost or repeated,
      the available ones are exactly those with questions, and the total counts only them. */
  lemma ValidationPartitionsRequest<K(!new)>(ids: seq<K>, year: int, lookup: K -> Option<Js.Json>)
    ensures var cs := Checks(ids, year, lookup);
      multiset(Lists.Filter(cs, HasQuestions)) + multiset(Lists.Reject(cs, HasQuestions)) == multiset(cs)
      && |Lists.Filter(cs, HasQuestions)| + |Lists.Reject(cs, HasQuestions)| == |ids|
      && Lists.IsSubsequence(Lists.Filter(cs, HasQuestions), cs)
      && SumQuestions(Lists.Filter(cs, HasQuestions)) == SumQuestions(cs)
  {
    var cs := Checks(ids, year, lookup);
    assert forall i :: 0 <= i < |cs| ==> cs[i].hasQuestions || cs[i].questionCount == 0;
    Lists.PartitionIsComplete(cs, HasQuestions);
    Lists.FilterIsSubsequence(cs, HasQuestions);
    AllQuestionsComeFromAvailableModules(cs);
  }

  // ---------------------------------------------------------------------------------------
  // Availability of every module

  /** `getModuleAvailabilityForYear(year)` once the module list is known: the map from each
      module id to its check; a repeated id is checked again and the later check kept. */
  function Availability<K>(ids: seq<K>, year: int, lookup: K -> Option<Js.Json>): (r: map<K, ModuleCheck<K>>)
    ensures r.Keys == set i | 0 <= i < |ids| :: ids[i]
    ensures forall k :: k in r ==> r[k] == CheckModule(k, year, lookup)
  {
    if ids == [] then map[]
    else
      var n := |ids| - 1;
      var prior := Availability(ids[..n], year, lookup);
      assert (set i | 0 <= i < |ids| :: ids[i]) == (set i | 0 <= i < n :: ids[..n][i]) + {ids[n]};
      prior[ids[n] := CheckModule(ids[n], year, lookup)]
  }

  /** The availability map agrees with the validation of the same modules. */
  lemma AvailabilityAgreesWithValidation<K>(ids: seq<K>, year: int, lookup: K -> Option<Js.Json>, i: int)
    requires 0 <= i < |ids|
    ensures ids[i] in Availability(ids, year, lookup)
    ensures Availability(ids, year, lookup)[ids[i]] == Checks(ids, year, lookup)[i]
  {
  }

  /** The availability map of the module list read from the filters; the error of that read
      is passed on. */
  function ModuleAvailabilityForYear(modules: Result<seq<ExamModule>>, year: int, lookup: Js.Json -> Option<Js.Json>)
    : (r: Result<map<Js.Json, ModuleCheck<Js.Json>>>)
    ensures modules.Err? <==> r.Err?
    ensures modules.Ok? ==> r.value.Keys == set m | m in modules.value :: m.id
  {
    match modules
    case Err(e) => Err(e)
    case Ok(ms) =>
      var ids := seq(|ms|, i requires 0 <= i < |ms| => ms[i].id);
      assert (set i | 0 <= i < |ids| :: ids[i]) == set m | m in ms :: m.id by {
        forall m | m in ms ensures m.id in set i | 0 <= i < |ids| :: ids[i] {
          var i :| 0 <= i < |ms| && ms[i] == m;
          assert ids[i] == m.id;
        }
      }
      Ok(Availability(ids, year, lookup))
  }

  // ---------------------------------------------------------------------------------------
  // Modules and years from the quiz filters

  /** Stands for the `TypeError` raised by reading a property of `null` or `undefined`; it names
      only the property read, not the engine's wording. */
  function ReadError(property: string): (r: string)
    ensures r != []
  {
    "TypeError: " + property
  }

  /** `ExamModule`: the module's id and name and its unite's name and study pack name. */
  datatype ExamModule = ExamModule(id: Js.Json, name: Js.Json, uniteName: Js.Json, studyPackName: Option<Js.Json>)

  /** `response.data?.data || response.data` */
  function FiltersData(body: Js.Json): Js.Json
  {
    Js.Or(Js.Field(body, "data"), body)
  }

  /** `unite.modules && Array.isArray(unite.modules)` and the like: the items of a truthy array. */
  function ArrayItems(v: Js.Json): seq<Js.Json>
  {
    if Js.Truthy(v) && v.Arr? then v.items else []
  }

  /** `unite.studyPack ? { name: unite.studyPack.name } : undefined`, by its name. */
  function StudyPackName(unite: Js.Json): Option<Js.Json>
  {
    var studyPack := Js.Field(unite, "studyPack");
    if Js.Truthy(studyPack) then Some(Js.Field(studyPack, "name")) else None
  }

  /** The entries pushed for the modules `ms` of `unite`. */
  function UniteModules(unite: Js.Json, ms: seq<Js.Json>): (r: Result<seq<ExamModule>>)
    ensures r.Ok? <==> forall i :: 0 <= i < |ms| ==> !Js.IsNullish(ms[i])
    ensures r.Ok? ==> |r.value| == |ms|
    ensures r.Ok? ==> forall i :: 0 <= i < |ms| ==>
      r.value[i] == ExamModule(Js.Field(ms[i], "id"), Js.Field(ms[i], "name"), Js.Field(unite, "name"),
                               StudyPackName(unite))
  {
    if ms == [] then Ok([])
    else if Js.IsNullish(ms[0]) then Err(ReadError("id"))
    else
      var m := ExamModule(Js.Field(ms[0], "id"), Js.Field(ms[0], "name"), Js.Field(unite, "name"),
                          StudyPackName(unite));
      match UniteModules(unite, ms[1..])
      case Err(e) => Err(e)
      case Ok(rest) => Ok([m] + rest)
  }

  /** Every unite is an object-like value and so is every module listed in it. */
  predicate WellFormedUnites(us: seq<Js.Json>)
  {
    forall i :: 0 <= i < |us| ==>
      !Js.IsNullish(us[i])
      && forall j :: 0 <= j < |ArrayItems(Js.Field(us[i], "modules"))| ==>
        !Js.IsNullish(ArrayItems(Js.Field(us[i], "modules"))[j])
  }

  /** The number of modules the unites list. */
  function ModuleCount(us: seq<Js.Json>): nat
  {
    if us == [] then 0 else |ArrayItems(Js.Field(us[0], "modules"))| + ModuleCount(us[1..])
  }

  /** The modules of all unites, unite after unite. */
  function FlattenUnites(us: seq<Js.Json>): (r: Result<seq<ExamModule>>)
  {
    if us == [] then Ok([])
    else if Js.IsNullish(us[0]) then Err(ReadError("modules"))
    else
      match UniteModules(us[0], ArrayItems(Js.Field(us[0], "modules")))
      case Err(e) => Err(e)
      case Ok(first) =>
        match FlattenUnites(us[1..])
        case Err(e) => Err(e)
        case Ok(rest) => Ok(first + rest)
  }

  /** The flattening fails exactly on a missing unite or module, and otherwise yields one entry
      per listed module. */
  lemma {:induction false} FlattenUnitesSucceeds(us: seq<Js.Json>)
    ensures FlattenUnites(us).Ok? <==> WellFormedUnites(us)
    ensures FlattenUnites(us).Ok? ==> |FlattenUnites(us).value| == ModuleCount(us)
  {
    if us != [] {
      FlattenUnitesSucceeds(us[1..]);
      assert WellFormedUnites(us) <==> WellFormedUnites([us[0]]) && WellFormedUnites(us[1..]) by {
        if WellFormedUnites([us[0]]) && WellFormedUnites(us[1..]) {
          forall i | 0 <= i < |us|
            ensures !Js.IsNullish(us[i])
              && forall j :: 0 <= j < |ArrayItems(Js.Field(us[i], "modules"))| ==>
                !Js.IsNullish(ArrayItems(Js.Field(us[i], "modules"))[j])
          {
            if i > 0 { assert us[i] == us[1..][i - 1]; } else { assert us[0] == [us[0]][0]; }
          }
        }
        if WellFormedUnites(us) {
          forall i | 0 <= i < |us[1..]|
            ensures !Js.IsNullish(us[1..][i])
              && forall j :: 0 <= j < |ArrayItems(Js.Field(us[1..][i], "modules"))| ==>
                !Js.IsNullish(ArrayItems(Js.Field(us[1..][i], "modules"))[j])
          {
            assert us[1..][i] == us[i + 1];
          }
          assert [us[0]][0] == us[0];
        }
      }
    }
  }

  /** The modules of one unite, as the flattening reads them. */
  function ModulesOf(u: Js.Json): Result<seq<ExamModule>>
  {
    UniteModules(u, ArrayItems(Js.Field(u, "modules")))
  }

  lemma FlattenUnitesCons(us: seq<Js.Json>)
    requires us != []
    ensures FlattenUnites(us).Ok? <==>
      !Js.IsNullish(us[0]) && ModulesOf(us[0]).Ok? && FlattenUnites(us[1..]).Ok?
    ensures FlattenUnites(us).Ok? ==>
      FlattenUnites(us).value == ModulesOf(us[0]).value + FlattenUnites(us[1..]).value
  {
  }

  /** Flattening a concatenation of unite lists concatenates the flattened lists, so the modules
      keep the order of their unites. */
  lemma {:induction false} FlattenUnitesConcat(a: seq<Js.Json>, b: seq<Js.Json>)
    requires FlattenUnites(a).Ok? && FlattenUnites(b).Ok?
    ensures FlattenUnites(a + b) == Ok(FlattenUnites(a).value + FlattenUnites(b).value)
  {
    if a == [] {
      assert a + b == b;
      assert FlattenUnites(a).value == [];
      assert [] + FlattenUnites(b).value == FlattenUnites(b).value;
    } else {
      var ab := a + b;
      assert ab[0] == a[0];
      assert ab[1..] == a[1..] + b;
      FlattenUnitesCons(a);
      FlattenUnitesConcat(a[1..], b);
      FlattenUnitesCons(ab);
      var first := ModulesOf(a[0]).value;
      var rest := FlattenUnites(a[1..]).value;
      var tail := FlattenUnites(b).value;
      assert first + (rest + tail) == (first + rest) + tail;
    }
  }

  /** `getAvailableModules()` on the filters' answer: missing or non-array unites give no
      modules, and a missing filters payload, unite or module raises an error. */
  function AvailableModules(body: Js.Json): (r: Result<seq<ExamModule>>)
    ensures Js.IsNullish(FiltersData(body)) ==> r.Err?
    ensures !Js.IsNullish(FiltersData(body)) ==>
      r == FlattenUnites(ArrayItems(Js.Field(FiltersData(body), "unites")))
    ensures !Js.IsNullish(FiltersData(body)) && !Js.Field(FiltersData(body), "unites").Arr? ==> r == Ok([])
  {
    var data := FiltersData(body);
    if Js.IsNullish(data) then Err(ReadError("unites"))
    else FlattenUnites(ArrayItems(Js.Field(data, "unites")))
  }

  /** Unites sent in an envelope are read: well-formed ones give one entry per listed module. */
  lemma AvailableModulesInEnvelope(us: seq<Js.Json>)
    requires WellFormedUnites(us)
    ensures AvailableModules(Js.Envelope(Js.Obj(map["unites" := Js.Arr(us)]))).Ok?
    ensures |AvailableModules(Js.Envelope(Js.Obj(map["unites" := Js.Arr(us)]))).value| == ModuleCount(us)
  {
    var payload := Js.Obj(map["unites" := Js.Arr(us)]);
    assert FiltersData(Js.Envelope(payload)) == payload;
    assert ArrayItems(Js.Field(payload, "unites")) == us;
    FlattenUnitesSucceeds(us);
  }

  /** The sort key of a year: what `b - a` turns it into. A number is itself, `true` is 1, and
      `null` and `false` are 0; every other value is also ordered as 0. */
  function YearKey(y: Js.Json): int
  {
    match y
    case Num(n) => n
    case Bool(b) => if b then 1 else 0
    case _ => 0
  }

  /** `getAvailableYears()` on the filters' answer: the years, newest first. A missing filters
      payload, or years that are not an array, raise an error. */
  function AvailableYears(body: Js.Json): (r: Result<seq<Js.Json>>)
    ensures r.Ok? <==> (!Js.IsNullish(FiltersData(body))
      && Js.Or(Js.Field(FiltersData(body), "availableQuizYears"), Js.Arr([])).Arr?)
    ensures r.Ok? ==> Sorting.SortedDesc(r.value, YearKey)
    ensures r.Ok? ==>
      multiset(r.value) == multiset(Js.Or(Js.Field(FiltersData(body), "availableQuizYears"), Js.Arr([])).items)
    ensures r.Ok? && !Js.Truthy(Js.Field(FiltersData(body), "availableQuizYears")) ==> r.value == []
  {
    var data := FiltersData(body);
    if Js.IsNullish(data) then Err(ReadError("availableQuizYears"))
    else
      var years := Js.Or(Js.Field(data, "availableQuizYears"), Js.Arr([]));
      if years.Arr? then Ok(Sorting.SortDesc(years.items, YearKey))
      else Err("years.sort is not a function")
  }

  /** Numeric years come out with non-increasing values. */
  lemma YearsNewestFirst(body: Js.Json, i: int, j: int)
    requires AvailableYears(body).Ok?
    requires 0 <= i < j < |AvailableYears(body).value|
    requires AvailableYears(body).value[i].Num? && AvailableYears(body).value[j].Num?
    ensures AvailableYears(body).value[i].n >= AvailableYears(body).value[j].n
  {
    var ys := AvailableYears(body).value;
    assert YearKey(ys[i]) >= YearKey(ys[j]);
  }
}

=== FILE: js.dfy ===
/** The untyped API payloads the front-end receives, with JavaScript's truthiness, the `||`
    operator and optional property access (`v?.key`), and the envelope unwrapping
    `data?.data?.data || data?.data || data` repeated throughout the services. */
module Js {

  /** A JSON-like value. Numbers are integers; `NaN` and fractions are not represented. */
  datatype Json =
    | Undefined
    | Null
    | Bool(b: bool)
    | Num(n: int)
    | Str(s: string)
    | Arr(items: seq<Json>)
    | Obj(fields: map<string, Json>)

  /** JavaScript truthiness: `undefined`, `null`, `false`, `0` and `''` are falsy; arrays and
      objects (even empty ones) are truthy. */
  predicate Truthy(v: Json)
  {
    match v
    case Undefined => false
    case Null => false
    case Bool(b) => b
    case Num(n) => n != 0
    case Str(s) => s != []
    case Arr(_) => true
    case Obj(_) => true
  }

  predicate IsNullish(v: Json)
  {
    v.Undefined? || v.Null?
  }

  /** `a || b` */
  function Or(a: Json, b: Json): Json
  {
    if Truthy(a) then a else b
  }

  /** `v?.key`: a missing key, or a value that is not an object, reads as `undefined`. */
  function Field(v: Json, key: string): Json
  {
    if v.Obj? && key in v.fields then v.fields[key] else Undefined
  }

  /** `{ data: x }` */
  function Envelope(x: Json): Json
  {
    Obj(map["data" := x])
  }

  /** `d?.data?.data || d?.data || d`: the first truthy of the doubly nested payload, the singly
      nested payload and the response itself. */
  function Unwrap(d: Json): (r: Json)
    ensures r == Field(Field(d, "data"), "data") || r == Field(d, "data") || r == d
    ensures Truthy(Field(Field(d, "data"), "data")) ==> r == Field(Field(d, "data"), "data")
    ensures !Truthy(Field(Field(d, "data"), "data")) && Truthy(Field(d, "data")) ==> r == Field(d, "data")
    ensures !Truthy(Field(Field(d, "data"), "data")) && !Truthy(Field(d, "data")) ==> r == d
  {
    Or(Or(Field(Field(d, "data"), "data"), Field(d, "data")), d)
  }

  /** A payload wrapped in two envelopes is recovered. */
  lemma UnwrapDoubleEnvelope(x: Json)
    requires Truthy(x)
    ensures Unwrap(Envelope(Envelope(x))) == x
  {
  }

  /** A payload wrapped in one envelope is recovered, unless it itself has a truthy `data` field,
      in which case that field is taken instead. */
  lemma UnwrapSingleEnvelope(x: Json)
    requires Truthy(x)
    ensures Unwrap(Envelope(x)) == if Truthy(Field(x, "data")) then Field(x, "data") else x
  {
  }

  /** A value without a truthy `data` field is returned as it is. */
  lemma UnwrapBare(x: Json)
    requires !Truthy(Field(x, "data"))
    ensures Unwrap(x) == x
  {
  }

  /** Unwrapping never turns a truthy response into a falsy one. */
  lemma UnwrapKeepsTruthy(d: Json)
    requires Truthy(d)
    ensures Truthy(Unwrap(d))
  {
  }
}

=== FILE: lists.dfy ===
/** Sequence operations shared by the components: `Array.prototype.filter`, counting,
    order-preserving partition, and the include/exclude toggle of an element. */
module Lists {

  /** `xs.filter(p)` */
  function Filter<T(!new)>(xs: seq<T>, p: T -> bool): (r: seq<T>)
    ensures |r| <= |xs|
    ensures forall i :: 0 <= i < |r| ==> p(r[i])
    ensures forall x {:trigger x in r} :: x in r ==> x in xs && p(x)
  {
    if xs == [] then []
    else (if p(xs[0]) then [xs[0]] else []) + Filter(xs[1..], p)
  }

  /** `xs.filter(x => !p(x))` */
  function Reject<T(!new)>(xs: seq<T>, p: T -> bool): (r: seq<T>)
    ensures |r| <= |xs|
    ensures forall i :: 0 <= i < |r| ==> !p(r[i])
    ensures forall x {:trigger x in r} :: x in r ==> x in xs && !p(x)
  {
    if xs == [] then []
    else (if p(xs[0]) then [] else [xs[0]]) + Reject(xs[1..], p)
  }

  /** `xs.flatMap(f)` */
  function FlatMap<T, U>(xs: seq<T>, f: T -> seq<U>): seq<U>
  {
    if xs == [] then [] else f(xs[0]) + FlatMap(xs[1..], f)
  }

  /** The images of a concatenation come part after part. */
  lemma {:induction false} FlatMapConcat<T, U>(a: seq<T>, b: seq<T>, f: T -> seq<U>)
    ensures FlatMap(a + b, f) == FlatMap(a, f) + FlatMap(b, f)
  {
    if a == [] {
      assert a + b == b;
    } else {
      assert (a + b)[0] == a[0];
      assert (a + b)[1..] == a[1..] + b;
      FlatMapConcat(a[1..], b, f);
    }
  }

  /** `xs.filter(p).length` */
  function Count<T(!new)>(xs: seq<T>, p: T -> bool): nat
  {
    |Filter(xs, p)|
  }

  lemma {:induction false} FilterConcat<T(!new)>(a: seq<T>, b: seq<T>, p: T -> bool)
    ensures Filter(a + b, p) == Filter(a, p) + Filter(b, p)
  {
    if a == [] {
      assert a + b == b;
    } else {
      assert (a + b)[0] == a[0] && (a + b)[1..] == a[1..] + b;
      FilterConcat(a[1..], b, p);
    }
  }

  lemma {:induction false} RejectConcat<T(!new)>(a: seq<T>, b: seq<T>, p: T -> bool)
    ensures Reject(a + b, p) == Reject(a, p) + Reject(b, p)
  {
    if a == [] {
      assert a + b == b;
    } else {
      assert (a + b)[0] == a[0] && (a + b)[1..] == a[1..] + b;
      RejectConcat(a[1..], b, p);
      var head := if p(a[0]) then [] else [a[0]];
      assert Reject(a + b, p) == head + (Reject(a[1..], p) + Reject(b, p));
      assert Reject(a, p) == head + Reject(a[1..], p);
    }
  }

  /** Filtering a sequence extended by one element. */
  lemma FilterSnoc<T(!new)>(xs: seq<T>, x: T, p: T -> bool)
    ensures Filter(xs + [x], p) == Filter(xs, p) + (if p(x) then [x] else [])
    ensures Reject(xs + [x], p) == Reject(xs, p) + (if p(x) then [] else [x])
  {
    FilterConcat(xs, [x], p);
    RejectConcat(xs, [x], p);
    assert [x][1..] == [];
  }

  /** Nothing survives a filter no element passes. */
  lemma {:induction false} FilterNone<T(!new)>(xs: seq<T>, p: T -> bool)
    requires forall i :: 0 <= i < |xs| ==> !p(xs[i])
    ensures Filter(xs, p) == []
  {
    if xs != [] {
      FilterNone(xs[1..], p);
    }
  }

  /** Everything survives a filter every element passes. */
  lemma {:induction false} FilterAll<T(!new)>(xs: seq<T>, p: T -> bool)
    requires forall i :: 0 <= i < |xs| ==> p(xs[i])
    ensures Filter(xs, p) == xs
  {
    if xs != [] {
      FilterAll(xs[1..], p);
      assert xs == [xs[0]] + xs[1..];
    }
  }

  /** An element that satisfies `p` survives the filter. */
  lemma {:induction false} FilterKeeps<T(!new)>(xs: seq<T>, p: T -> bool, i: int)
    requires 0 <= i < |xs| && p(xs[i])
    ensures xs[i] in Filter(xs, p)
  {
    if i > 0 {
      FilterKeeps(xs[1..], p, i - 1);
      assert xs[1..][i - 1] == xs[i];
    }
  }

  /** The filter keeps exactly the elements that pass `p`. */
  lemma FilterContains<T(!new)>(xs: seq<T>, p: T -> bool)
    ensures forall x {:trigger x in Filter(xs, p)} :: x in Filter(xs, p) <==> x in xs && p(x)
  {
    forall x | x in xs && p(x)
      ensures x in Filter(xs, p)
    {
      var i :| 0 <= i < |xs| && xs[i] == x;
      FilterKeeps(xs, p, i);
    }
  }

  /** `a` keeps some of the elements of `b`, in the order they have in `b`. */
  predicate IsSubsequence<T(==)>(a: seq<T>, b: seq<T>)
  {
    a == [] || (b != [] && ((a[0] == b[0] && IsSubsequence(a[1..], b[1..])) || IsSubsequence(a, b[1..])))
  }

  /** The filter keeps every copy of a kept element and no copy of another. */
  lemma {:induction false} FilterMultiplicity<T(!new)>(xs: seq<T>, p: T -> bool, x: T)
    ensures multiset(Filter(xs, p))[x] == if p(x) then multiset(xs)[x] else 0
  {
    if xs != [] {
      FilterMultiplicity(xs[1..], p, x);
      assert xs == [xs[0]] + xs[1..];
      assert Filter(xs, p) == (if p(xs[0]) then [xs[0]] else []) + Filter(xs[1..], p);
    }
  }

  /** Filtering keeps the order of the kept elements. */
  lemma {:induction false} FilterIsSubsequence<T(!new)>(xs: seq<T>, p: T -> bool)
    ensures IsSubsequence(Filter(xs, p), xs)
  {
    if xs != [] {
      FilterIsSubsequence(xs[1..], p);
      var r := Filter(xs, p);
      if p(xs[0]) {
        assert r[0] == xs[0] && r[1..] == Filter(xs[1..], p);
      } else {
        assert r == Filter(xs[1..], p);
      }
    }
  }

  /** Rejecting keeps the order of the kept elements. */
  lemma {:induction false} RejectIsSubsequence<T(!new)>(xs: seq<T>, p: T -> bool)
    ensures IsSubsequence(Reject(xs, p), xs)
  {
    if xs != [] {
      RejectIsSubsequence(xs[1..], p);
      var r := Reject(xs, p);
      if !p(xs[0]) {
        assert r[0] == xs[0] && r[1..] == Reject(xs[1..], p);
      } else {
        assert r == Reject(xs[1..], p);
      }
    }
  }

  /** Filtering by `p` and by its negation splits the sequence: every element lands in exactly
      one of the two parts, and nothing is lost or duplicated. */
  lemma {:induction false} PartitionIsComplete<T(!new)>(xs: seq<T>, p: T -> bool)
    ensures |Filter(xs, p)| + |Reject(xs, p)| == |xs|
    ensures multiset(Filter(xs, p)) + multiset(Reject(xs, p)) == multiset(xs)
  {
    if xs != [] {
      PartitionIsComplete(xs[1..], p);
      assert xs == [xs[0]] + xs[1..];
    }
  }

  /** Counting by `p` and by its negation adds up to the length. */
  lemma CountsAddUp<T(!new)>(xs: seq<T>, p: T -> bool)
    ensures Count(xs, p) + |Reject(xs, p)| == |xs|
  {
    PartitionIsComplete(xs, p);
  }

  /** Filtering by a stronger predicate keeps no more elements. */
  lemma {:induction false} CountMonotone<T(!new)>(xs: seq<T>, p: T -> bool, q: T -> bool)
    requires forall x :: x in xs && p(x) ==> q(x)
    ensures Count(xs, p) <= Count(xs, q)
  {
    if xs != [] {
      CountMonotone(xs[1..], p, q);
    }
  }

  /** `xs.filter(y => y !== x)` */
  function RemoveAll<T(==,!new)>(xs: seq<T>, x: T): (r: seq<T>)
    ensures x !in r
    ensures forall y :: y != x ==> (y in r <==> y in xs)
    ensures forall y :: y != x ==> multiset(r)[y] == multiset(xs)[y]
  {
    if xs == [] then []
    else
      assert xs == [xs[0]] + xs[1..];
      (if xs[0] == x then [] else [xs[0]]) + RemoveAll(xs[1..], x)
  }

  /** `xs.includes(x) ? xs.filter(y => y !== x) : [...xs, x]` */
  function ToggleMember<T(==,!new)>(xs: seq<T>, x: T): (r: seq<T>)
    ensures x in r <==> x !in xs
    ensures forall y :: y != x ==> (y in r <==> y in xs)
  {
    if x in xs then RemoveAll(xs, x) else xs + [x]
  }

  predicate NoDuplicates<T(==)>(xs: seq<T>)
  {
    forall i, j :: 0 <= i < j < |xs| ==> xs[i] != xs[j]
  }

  lemma {:induction false} RemoveAllKeepsNoDuplicates<T(!new)>(xs: seq<T>, x: T)
    requires NoDuplicates(xs)
    ensures NoDuplicates(RemoveAll(xs, x))
  {
    if xs != [] {
      RemoveAllKeepsNoDuplicates(xs[1..], x);
      var rest := RemoveAll(xs[1..], x);
      assert xs[0] !in xs[1..];
      assert xs[0] !in rest;
    }
  }

  /** Toggling keeps a duplicate-free list duplicate-free. */
  lemma ToggleKeepsNoDuplicates<T(!new)>(xs: seq<T>, x: T)
    requires NoDuplicates(xs)
    ensures NoDuplicates(ToggleMember(xs, x))
  {
    if x in xs {
      RemoveAllKeepsNoDuplicates(xs, x);
    }
  }

  /** Toggling twice restores the membership of every element, and on a duplicate-free list the
      same elements with the same multiplicities. The order is restored exactly when the element
      was absent or was the last one: a present element is removed and then re-appended at the end. */
  lemma ToggleTwice<T(!new)>(xs: seq<T>, x: T)
    requires NoDuplicates(xs)
    ensures multiset(ToggleMember(ToggleMember(xs, x), x)) == multiset(xs)
    ensures x !in xs ==> ToggleMember(ToggleMember(xs, x), x) == xs
    ensures x in xs && xs[|xs| - 1] == x ==> ToggleMember(ToggleMember(xs, x), x) == xs
  {
    if x in xs {
      OccursOnce(xs, x);
      ReAppendKeepsMultiset(xs, x);
      if xs[|xs| - 1] == x {
        ReAppendLast(xs, x);
      }
    } else {
      var once := xs + [x];
      RemoveAllAppend(xs, x);
      RemoveAllOfAbsent(xs, x);
    }
  }

  /** An element of a duplicate-free list occurs in it once. */
  lemma OccursOnce<T(!new)>(xs: seq<T>, x: T)
    requires NoDuplicates(xs) && x in xs
    ensures multiset(xs)[x] == 1
  {
    var k :| 0 <= k < |xs| && xs[k] == x;
    assert xs == xs[..k] + [x] + xs[k + 1..];
    assert x !in xs[..k] && x !in xs[k + 1..];
  }

  /** Removing an element that occurs once and appending it again keeps the multiset. */
  lemma ReAppendKeepsMultiset<T(!new)>(xs: seq<T>, x: T)
    requires multiset(xs)[x] == 1
    ensures multiset(RemoveAll(xs, x) + [x]) == multiset(xs)
  {
    var twice := RemoveAll(xs, x) + [x];
    forall y
      ensures multiset(twice)[y] == multiset(xs)[y]
    {
    }
  }

  /** Removing the last element of a duplicate-free list and appending it again restores the list. */
  lemma ReAppendLast<T(!new)>(xs: seq<T>, x: T)
    requires NoDuplicates(xs) && xs != [] && xs[|xs| - 1] == x
    ensures RemoveAll(xs, x) + [x] == xs
  {
    var front := xs[..|xs| - 1];
    assert xs == front + [x];
    assert x !in front;
    RemoveAllOfAbsent(front, x);
    RemoveAllAppend(front, x);
  }

  lemma {:induction false} RemoveAllOfAbsent<T(!new)>(xs: seq<T>, x: T)
    requires x !in xs
    ensures RemoveAll(xs, x) == xs
  {
    if xs != [] {
      RemoveAllOfAbsent(xs[1..], x);
    }
  }

  lemma {:induction false} RemoveAllAppend<T(!new)>(xs: seq<T>, x: T)
    ensures RemoveAll(xs + [x], x) == RemoveAll(xs, x)
  {
    if xs != [] {
      RemoveAllAppend(xs[1..], x);
      assert (xs + [x])[1..] == xs[1..] + [x];
    } else {
      assert RemoveAll([x], x) == [] + RemoveAll([x][1..], x);
    }
  }
}

=== FILE: profile_dropdown.dfy ===
/** The profile menu's avatar initials and plan caption. */
module ProfileDropdown {
  import opened Wrappers
  import Text
  import Lists
  import Badge

  /** `word.charAt(0)`: the first character, or nothing for an empty word. */
  function FirstChar(word: string): (r: string)
    ensures |r| <= 1
    ensures word != [] ==> r == [word[0]]
  {
    if word == [] then [] else [word[0]]
  }

  /** `words.map(w => w.charAt(0)).join('')` */
  function FirstChars(words: seq<string>): (r: string)
    ensures |r| <= |words|
  {
    if words == [] then [] else FirstChar(words[0]) + FirstChars(words[1..])
  }

  /** `fullName.split(' ').map(n => n.charAt(0)).join('').toUpperCase().slice(0, 2)` */
  function Initials(fullName: string): (r: string)
    ensures |r| <= 2
    ensures forall i :: 0 <= i < |r| ==> !Text.IsLowerAscii(r[i])
    ensures var all := Text.ToUpper(FirstChars(Text.Split(fullName, ' ')));
      |r| <= |all| && r == all[..|r|] && (|r| == 2 || r == all)
  {
    var all := Text.ToUpper(FirstChars(Text.Split(fullName, ' ')));
    if |all| <= 2 then all else all[..2]
  }

  /** A first and a last name give their two capitalised first letters. */
  lemma InitialsOfTwoNames(first: string, last: string)
    requires first != [] && last != [] && ' ' !in first && ' ' !in last
    ensures Initials(first + " " + last) == [Text.UpperChar(first[0]), Text.UpperChar(last[0])]
  {
    Text.SplitPrefixPiece(first, last, ' ');
    Text.SplitOfSeparatorFree(last, ' ');
    assert first + " " + last == first + [' '] + last;
    var words := [first, last];
    assert Text.Split(first + " " + last, ' ') == words;
    assert FirstChars(words) == [first[0]] + FirstChars([last]);
    assert FirstChars([last]) == [last[0]] + FirstChars([]);
  }

  /** A name without spaces gives its own capitalised first letter. */
  lemma InitialsOfOneName(name: string)
    requires name != [] && ' ' !in name
    ensures Initials(name) == [Text.UpperChar(name[0])]
  {
    Text.SplitOfSeparatorFree(name, ' ');
    assert FirstChars([name]) == [name[0]] + FirstChars([]);
  }

  datatype ProfileSubscription = ProfileSubscription(id: int, status: string)

  predicate IsActiveStatus(s: ProfileSubscription) { s.status == "ACTIVE" }

  datatype PlanCaption = PlanCaption(text: string, variant: Badge.Variant)

  /** `getSubscriptionStatus()` for the profile's subscriptions (absent when not loaded). */
  function PlanStatus(subs: Option<seq<ProfileSubscription>>): (r: PlanCaption)
    ensures subs.None? || subs.value == [] <==> r == PlanCaption("No Active Plan", Badge.Secondary)
    ensures r.text == "Active Plan" <==> subs.Some? && exists s :: s in subs.value && IsActiveStatus(s)
    ensures r.text == "Inactive Plan" <==>
      subs.Some? && subs.value != [] && forall s :: s in subs.value ==> !IsActiveStatus(s)
    ensures r.text == "Active Plan" <==> r.variant == Badge.Default
    ensures r.text == "Inactive Plan" <==> r.variant == Badge.Destructive
  {
    if subs.None? || subs.value == [] then PlanCaption("No Active Plan", Badge.Secondary)
    else
      ActiveCountIffSomeActive(subs.value);
      if Lists.Count(subs.value, IsActiveStatus) > 0 then PlanCaption("Active Plan", Badge.Default)
      else PlanCaption("Inactive Plan", Badge.Destructive)
  }

  lemma ActiveCountIffSomeActive(subs: seq<ProfileSubscription>)
    ensures Lists.Count(subs, IsActiveStatus) > 0 <==> exists s :: s in subs && IsActiveStatus(s)
  {
    var active := Lists.Filter(subs, IsActiveStatus);
    if |active| > 0 {
      assert active[0] in active;
    }
    if exists s :: s in subs && IsActiveStatus(s) {
      var s :| s in subs && IsActiveStatus(s);
      var i :| 0 <= i < |subs| && subs[i] == s;
      Lists.FilterKeeps(subs, IsActiveStatus, i);
    }
  }

  /** The caption does not depend on the order of the subscriptions. */
  lemma PlanStatusIgnoresOrder(a: seq<ProfileSubscription>, b: seq<ProfileSubscription>)
    requires multiset(a) == multiset(b)
    ensures PlanStatus(Some(a)) == PlanStatus(Some(b))
  {
    assert forall s :: s in a <==> s in b by {
      forall s ensures s in a <==> s in b {
        assert s in a <==> s in multiset(a);
        assert s in b <==> s in multiset(b);
      }
    }
    assert a == [] <==> b == [] by {
      assert |a| == |multiset(a)| && |b| == |multiset(b)|;
    }
  }
}

=== FILE: question_display.dfy ===
/** The pure helpers of the question screen: the `m:ss` clock, the question-type decision, the
    normalisation of an API question into the shape the screen renders, and the type captions. */
module QuestionDisplay {
  import opened Wrappers
  import opened Text
  import Lists

  // ---------------------------------------------------------------------------------------
  // The m:ss clock

  /** JavaScript's `a % b` for a positive divisor: the remainder takes the sign of `a`. */
  function JsRem(a: int, b: int): (r: int)
    requires b > 0
    ensures a >= 0 ==> 0 <= r < b
    ensures a < 0 ==> -b < r <= 0
    ensures a >= 0 ==> r == a - (a / b) * b
  {
    if a >= 0 then a % b else -((-a) % b)
  }

  /** `${Math.floor(s / 60)}:${(s % 60).toString().padStart(2, '0')}` */
  function FormatTime(seconds: int): (r: string)
    ensures ':' in r
    ensures seconds >= 0 ==> r == NatToString(seconds / 60) + [':'] + PadStart2(NatToString(seconds % 60))
  {
    var text := IntToString(seconds / 60) + [':'] + PadStart2(IntToString(JsRem(seconds, 60)));
    assert text[|IntToString(seconds / 60)|] == ':';
    text
  }

  /** The value of a two-digit seconds field. */
  function TwoDigits(d: string): nat
    requires |d| == 2 && AllDigits(d)
  {
    DigitValue(d[0]) * 10 + DigitValue(d[1])
  }

  /** Reads an `m:ss` clock back as a number of seconds: minutes in decimal, a colon, and two
      digits of seconds below 60. */
  function ParseTime(t: string): (r: Option<nat>)
    ensures r.Some? ==> ':' in t
  {
    var parts := Split(t, ':');
    if |parts| == 2 && |parts[1]| == 2 && AllDigits(parts[1]) && ParseNat(parts[0]).Some?
       && TwoDigits(parts[1]) < 60
    then
      JoinSplit(t, ':');
      assert t == parts[0] + [':'] + parts[1];
      Some(ParseNat(parts[0]).value * 60 + TwoDigits(parts[1]))
    else None
  }

  /** The seconds field of a non-negative clock is two digits with the right value. */
  lemma SecondsField(x: nat)
    requires x < 60
    ensures |PadStart2(NatToString(x))| == 2 && AllDigits(PadStart2(NatToString(x)))
    ensures TwoDigits(PadStart2(NatToString(x))) == x
  {
    var d := PadStart2(NatToString(x));
    if x < 10 {
      assert NatToString(x) == [DigitChar(x)];
      assert d == ['0', DigitChar(x)];
    } else {
      assert NatToString(x / 10) == [DigitChar(x / 10)];
      assert d == NatToString(x) == [DigitChar(x / 10), DigitChar(x % 10)];
    }
  }

  /** A clock made of decimal minutes, a colon and a valid seconds field reads back. */
  lemma ParseClock(m: string, d: string, minutes: nat, seconds: nat)
    requires ParseNat(m) == Some(minutes)
    requires |d| == 2 && AllDigits(d) && TwoDigits(d) == seconds < 60
    ensures ParseTime(m + [':'] + d) == Some(minutes * 60 + seconds)
  {
    assert ':' !in m by {
      assert forall i :: 0 <= i < |m| ==> IsDigit(m[i]);
    }
    assert ':' !in d by {
      assert IsDigit(d[0]) && IsDigit(d[1]);
    }
    SplitPrefixPiece(m, d, ':');
    SplitOfSeparatorFree(d, ':');
  }

  /** Formatting a non-negative number of seconds and parsing the clock back gives the number. */
  lemma FormatTimeRoundTrip(seconds: nat)
    ensures ParseTime(FormatTime(seconds)) == Some(seconds)
  {
    var minutes, rest := seconds / 60, seconds % 60;
    var clock := NatToString(minutes) + [':'] + PadStart2(NatToString(rest));
    calc {
      ParseTime(FormatTime(seconds));
      ParseTime(clock);
      { ClockRoundTrip(minutes, rest); }
      Some(minutes * 60 + rest);
      { MinutesAndSeconds(seconds); }
      Some(seconds);
    }
  }

  lemma MinutesAndSeconds(seconds: nat)
    ensures (seconds / 60) * 60 + seconds % 60 == seconds
  {
  }

  /** The clock of `minutes` and `rest` seconds reads back as their number of seconds. */
  lemma ClockRoundTrip(minutes: nat, rest: nat)
    requires rest < 60
    ensures ParseTime(NatToString(minutes) + [':'] + PadStart2(NatToString(rest))) == Some(minutes * 60 + rest)
  {
    SecondsField(rest);
    ParseNatToString(minutes);
    ParseClock(NatToString(minutes), PadStart2(NatToString(rest)), minutes, rest);
  }

  // ---------------------------------------------------------------------------------------
  // Questions as the API delivers them, and as the screen renders them

  datatype Answer = Answer(id: int, answerText: string, isCorrect: bool, explanation: Option<string>)

  /** An answer option as the screen renders it. */
  datatype OptionView = OptionView(id: string, text: string, isCorrect: bool, explanation: Option<string>)

  /** The fields of an API question the screen reads. A missing field and a falsy one (an empty
      string) are both `None` or empty; a present `answers` is an array. */
  datatype ApiQuestion = ApiQuestion(
    id: int,
    content: Option<string>,
    questionText: Option<string>,
    title: Option<string>,
    answers: Option<seq<Answer>>,
    options: Option<seq<OptionView>>,
    difficulty: Option<string>,
    source: Option<string>,
    tags: Option<seq<string>>,
    questionType: Option<string>)

  /** The normalised question the screen renders. */
  datatype DisplayQuestion = DisplayQuestion(
    content: Option<string>,
    options: seq<OptionView>,
    title: string,
    difficulty: string,
    source: string,
    tags: seq<string>,
    questionType: string)

  /** A string field is truthy: present and not empty. */
  predicate Given(s: Option<string>)
  {
    s.Some? && s.value != []
  }

  /** `a || b` on optional strings. */
  function OrElse(a: Option<string>, b: Option<string>): (r: Option<string>)
    ensures Given(a) ==> r == a
    ensures !Given(a) ==> r == b
  {
    if Given(a) then a else b
  }

  /** `a || fallback` with a non-empty fallback. */
  function OrDefault(a: Option<string>, fallback: string): (r: string)
    requires fallback != []
    ensures r != []
    ensures Given(a) ==> r == a.value
    ensures !Given(a) ==> r == fallback
  {
    if Given(a) then a.value else fallback
  }

  /** `{ id: String(answer.id), text: answer.answerText, isCorrect, explanation }` */
  function ToOption(a: Answer): OptionView
  {
    OptionView(IntToString(a.id), a.answerText, a.isCorrect, a.explanation)
  }

  function ToOptions(answers: seq<Answer>): (r: seq<OptionView>)
    ensures |r| == |answers|
    ensures forall i :: 0 <= i < |r| ==> r[i] == ToOption(answers[i])
  {
    if answers == [] then [] else [ToOption(answers[0])] + ToOptions(answers[1..])
  }

  /** `transformQuestion(question)` */
  function Transform(q: ApiQuestion): (r: DisplayQuestion)
    ensures q.answers.Some? ==> |r.options| == |q.answers.value|
    ensures q.answers.Some? ==> forall i :: 0 <= i < |r.options| ==>
      && r.options[i].text == q.answers.value[i].answerText
      && r.options[i].isCorrect == q.answers.value[i].isCorrect
      && r.options[i].explanation == q.answers.value[i].explanation
    ensures q.answers.None? && q.options.Some? ==> r.options == q.options.value
    ensures q.answers.None? && q.options.None? ==> r.options == []
    ensures r.title != [] && r.difficulty != [] && r.source != [] && r.questionType != []
    ensures Given(q.title) ==> r.title == q.title.value
    ensures !Given(q.title) && Given(q.questionText) ==> r.title == q.questionText.value
    ensures !Given(q.title) && !Given(q.questionText) ==> r.title == "Question " + IntToString(q.id)
    ensures Given(q.content) ==> r.content == q.content
    ensures !Given(q.content) ==> r.content == q.questionText
    ensures !Given(q.difficulty) ==> r.difficulty == "intermediate"
    ensures !Given(q.source) ==> r.source == "API"
    ensures !Given(q.questionType) ==> r.questionType == "QCS"
    ensures q.tags.None? ==> r.tags == []
    ensures Given(q.difficulty) ==> r.difficulty == q.difficulty.value
    ensures Given(q.source) ==> r.source == q.source.value
    ensures Given(q.questionType) ==> r.questionType == q.questionType.value
    ensures q.tags.Some? ==> r.tags == q.tags.value
  {
    DisplayQuestion(
      OrElse(q.content, q.questionText),
      if q.answers.Some? then ToOptions(q.answers.value) else q.options.GetOr([]),
      if Given(q.title) then q.title.value
      else if Given(q.questionText) then q.questionText.value
      else "Question " + IntToString(q.id),
      OrDefault(q.difficulty, "intermediate"),
      OrDefault(q.source, "API"),
      q.tags.GetOr([]),
      OrDefault(q.questionType, "QCS"))
  }

  /** An option id read back as a number is the id of the answer it came from, so the option a
      student picks can be traced to its answer. */
  lemma OptionIdsRoundTrip(q: ApiQuestion, i: int)
    requires q.answers.Some? && 0 <= i < |q.answers.value| && q.answers.value[i].id >= 0
    ensures ParseNat(Transform(q).options[i].id) == Some(q.answers.value[i].id)
  {
    ParseNatToString(q.answers.value[i].id);
  }

  /** Option ids are pairwise distinct when the answer ids are. */
  lemma OptionIdsDistinct(q: ApiQuestion, i: int, j: int)
    requires q.answers.Some? && 0 <= i < |q.answers.value| && 0 <= j < |q.answers.value|
    requires q.answers.value[i].id >= 0 && q.answers.value[j].id >= 0
    requires q.answers.value[i].id != q.answers.value[j].id
    ensures Transform(q).options[i].id != Transform(q).options[j].id
  {
    OptionIdsRoundTrip(q, i);
    OptionIdsRoundTrip(q, j);
  }

  // ---------------------------------------------------------------------------------------
  // Question type

  predicate IsCorrect(a: Answer) { a.isCorrect }

  /** `getQuestionType(question)` */
  function QuestionType(q: ApiQuestion): (r: string)
    ensures Given(q.questionType) ==> r == q.questionType.value
    ensures !Given(q.questionType) ==> r == "QCM" || r == "QCS"
  {
    if Given(q.questionType) then q.questionType.value
    else if q.answers.Some? then
      (if Lists.Count(q.answers.value, IsCorrect) > 1 then "QCM" else "QCS")
    else "QCS"
  }

  /** Without an explicit type, a question is multiple-choice exactly when it has an answers
      array with at least two correct answers. */
  lemma InferredTypeIsMultipleIffTwoCorrect(q: ApiQuestion)
    requires !Given(q.questionType)
    ensures QuestionType(q) == "QCM" <==>
      q.answers.Some? && exists i, j :: 0 <= i < j < |q.answers.value|
                                        && q.answers.value[i].isCorrect && q.answers.value[j].isCorrect
  {
    if q.answers.Some? {
      var xs := q.answers.value;
      var correct := Lists.Filter(xs, IsCorrect);
      if |correct| > 1 {
        TwoInFilterAreTwoInList(xs);
      } else if exists i, j :: 0 <= i < j < |xs| && xs[i].isCorrect && xs[j].isCorrect {
        var i, j :| 0 <= i < j < |xs| && xs[i].isCorrect && xs[j].isCorrect;
        TwoInListAreTwoInFilter(xs, i, j);
      }
    }
  }

  lemma {:induction false} TwoInFilterAreTwoInList(xs: seq<Answer>)
    requires |Lists.Filter(xs, IsCorrect)| > 1
    ensures exists i, j :: 0 <= i < j < |xs| && xs[i].isCorrect && xs[j].isCorrect
  {
    var rest := Lists.Filter(xs[1..], IsCorrect);
    if xs[0].isCorrect {
      assert |rest| >= 1 && rest[0] in rest;
      assert rest[0] in xs[1..];
      var k :| 0 <= k < |xs[1..]| && xs[1..][k] == rest[0];
      assert xs[1 + k].isCorrect;
    } else {
      assert Lists.Filter(xs, IsCorrect) == rest;
      TwoInFilterAreTwoInList(xs[1..]);
      var i, j :| 0 <= i < j < |xs[1..]| && xs[1..][i].isCorrect && xs[1..][j].isCorrect;
      assert xs[i + 1].isCorrect && xs[j + 1].isCorrect;
    }
  }

  lemma {:induction false} TwoInListAreTwoInFilter(xs: seq<Answer>, i: int, j: int)
    requires 0 <= i < j < |xs| && xs[i].isCorrect && xs[j].isCorrect
    ensures |Lists.Filter(xs, IsCorrect)| > 1
  {
    var rest := Lists.Filter(xs[1..], IsCorrect);
    if i == 0 {
      assert xs[1..][j - 1] == xs[j];
      Lists.FilterKeeps(xs[1..], IsCorrect, j - 1);
    } else {
      TwoInListAreTwoInFilter(xs[1..], i - 1, j - 1);
    }
  }

  /** The caption of a question type. */
  datatype TypeInfo = TypeInfo(name: string, description: string, icon: string)

  const GenericInfo: TypeInfo :=
    TypeInfo("Question", "Type de question", "\U{2753}")

  predicate IsKnownType(t: string)
  {
    t == "QCM" || t == "QCS" || t == "QROC" || t == "CAS"
  }

  /** `getQuestionTypeInfo(type)` */
  function QuestionTypeInfo(t: string): (r: TypeInfo)
    ensures r == GenericInfo <==> !IsKnownType(t)
    ensures IsKnownType(t) ==> r.name != "Question"
  {
    match t
    case "QCM" => TypeInfo("Questions \U{e0} Choix Multiples", "Plusieurs r\U{e9}ponses correctes possibles", "\U{2611}\U{fe0f}")
    case "QCS" => TypeInfo("Questions \U{e0} Choix Simple", "Une seule r\U{e9}ponse correcte", "\U{26aa}")
    case "QROC" => TypeInfo("Questions \U{e0} R\U{e9}ponse Ouverte Courte", "R\U{e9}ponse libre courte", "\U{270f}\U{fe0f}")
    case "CAS" => TypeInfo("Cas Cliniques", "Cas clinique avec sous-questions", "\U{1f3e5}")
    case _ => GenericInfo
  }

  /** The four known types have four different captions. */
  lemma KnownTypeInfosDistinct(a: string, b: string)
    requires IsKnownType(a) && IsKnownType(b) && a != b
    ensures QuestionTypeInfo(a).name != QuestionTypeInfo(b).name
  {
  }

  /** A type inferred from the answers always has a specific caption. */
  lemma InferredTypeHasSpecificInfo(q: ApiQuestion)
    requires !Given(q.questionType)
    ensures QuestionTypeInfo(QuestionType(q)) != GenericInfo
  {
  }
}

=== FILE: quiz_api_hook.dfy ===
/** The quiz API hook: the normalisation of the sessions answer, and the select options derived
    from the quiz filters tree (unit → module → course). */
module QuizApiHook {
  import opened Wrappers
  import Js
  import Text
  import Lists

  // ---------------------------------------------------------------------------------------
  // Quiz sessions

  /** The service's answer: its success flag, payload and error text. */
  datatype Response = Response(success: bool, data: Js.Json, error: Option<string>)

  /** A request answers, or throws: `Some(message)` for an `Error`, `None` for anything else. */
  datatype Fetch = Answered(response: Response) | Threw(errorMessage: Option<string>)

  const FetchFailed: string := "Failed to fetch quiz sessions"

  /** The hook's state once the request has settled. */
  datatype SessionsState = SessionsState(sessions: Option<seq<Js.Json>>, pagination: Js.Json, error: Option<string>)

  /** `responseData?.sessions || responseData?.data || responseData` */
  function SessionsArray(responseData: Js.Json): Js.Json
  {
    Js.Or(Js.Or(Js.Field(responseData, "sessions"), Js.Field(responseData, "data")), responseData)
  }

  /** The state after `fetchSessions()`: on success the sessions array (or none when the payload
      holds no array) and the pagination (or `null`); on failure the error message and no
      sessions. */
  function Sessions(f: Fetch): (r: SessionsState)
    ensures r.sessions.Some? <==> r.error.None?
    ensures r.sessions.Some? <==> f.Answered? && f.response.success
    ensures r.sessions.None? ==> r.pagination == Js.Null
    ensures r.sessions.Some? ==>
      var found := SessionsArray(Js.Unwrap(f.response.data));
      r.sessions.value == (if found.Arr? then found.items else [])
    ensures r.sessions.Some? ==>
      var p := Js.Field(Js.Unwrap(f.response.data), "pagination");
      r.pagination == (if Js.Truthy(p) then p else Js.Null)
    ensures f.Answered? && !f.response.success ==> r.error.value != []
    ensures f.Threw? && f.errorMessage.None? ==> r.error == Some(FetchFailed)
    ensures f.Threw? && f.errorMessage.Some? ==> r.error == f.errorMessage
  {
    match f
    case Threw(m) => SessionsState(None, Js.Null, Some(m.GetOr(FetchFailed)))
    case Answered(resp) =>
      if resp.success then
        var responseData := Js.Unwrap(resp.data);
        var found := SessionsArray(responseData);
        SessionsState(Some(if found.Arr? then found.items else []),
                      Js.Or(Js.Field(responseData, "pagination"), Js.Null), None)
      else
        var message := if resp.error.Some? && resp.error.value != [] then resp.error.value else FetchFailed;
        SessionsState(None, Js.Null, Some(message))
  }

  /** The sessions are found under `sessions` inside the envelopes, with their pagination. */
  lemma SessionsInEnvelope(items: seq<Js.Json>, pagination: Js.Json)
    requires Js.Truthy(pagination)
    ensures var page := Js.Obj(map["sessions" := Js.Arr(items), "pagination" := pagination]);
      Sessions(Answered(Response(true, Js.Envelope(Js.Envelope(page)), None)))
        == SessionsState(Some(items), pagination, None)
  {
    var page := Js.Obj(map["sessions" := Js.Arr(items), "pagination" := pagination]);
    Js.UnwrapDoubleEnvelope(page);
  }

  /** A bare array payload is itself the list of sessions, with no pagination. */
  lemma SessionsOfBareArray(items: seq<Js.Json>)
    ensures Sessions(Answered(Response(true, Js.Arr(items), None))) == SessionsState(Some(items), Js.Null, None)
  {
    Js.UnwrapBare(Js.Arr(items));
  }

  /** A payload in which no array is found yields an empty list, not an error. */
  lemma SessionsOfNonArray(data: Js.Json)
    requires !SessionsArray(Js.Unwrap(data)).Arr?
    ensures Sessions(Answered(Response(true, data, None))).sessions == Some([])
  {
  }

  // ---------------------------------------------------------------------------------------
  // Filter options

  datatype Course = Course(id: int, name: string, questionCount: int)

  datatype QuizModule = QuizModule(id: int, name: string, courses: Option<seq<Course>>)

  datatype Unit = Unit(id: int, name: string, year: string, modules: Option<seq<QuizModule>>)

  datatype QuizFilters = QuizFilters(availableYears: Option<seq<string>>, unites: Option<seq<Unit>>)

  /** A course together with the names of its module and unit and the unit's year. */
  datatype FlatCourse = FlatCourse(course: Course, moduleName: string, unitName: string, year: string)

  /** `xs?.forEach(...)` and `xs?.map(...) || []`: a missing list reads as empty. */
  function Items<T>(xs: Option<seq<T>>): seq<T>
  {
    if xs.Some? then xs.value else []
  }

  /** The courses of module `m` of unit `u`. */
  function ModuleCourses(u: Unit, m: QuizModule): (r: seq<FlatCourse>)
    ensures |r| == |Items(m.courses)|
    ensures forall i :: 0 <= i < |r| ==>
      r[i] == FlatCourse(Items(m.courses)[i], m.name, u.name, u.year)
  {
    var cs := Items(m.courses);
    seq(|cs|, i requires 0 <= i < |cs| => FlatCourse(cs[i], m.name, u.name, u.year))
  }

  /** The courses of the modules `ms` of unit `u`, module after module. */
  function ModulesCourses(u: Unit, ms: seq<QuizModule>): (r: seq<FlatCourse>)
    ensures forall f :: f in r ==>
      f.unitName == u.name && f.year == u.year
      && exists m :: m in ms && f.moduleName == m.name && f.course in Items(m.courses)
  {
    if ms == [] then []
    else ModuleCourses(u, ms[0]) + ModulesCourses(u, ms[1..])
  }

  /** Every course of every module is listed. */
  lemma {:induction false} ModulesCoursesComplete(u: Unit, ms: seq<QuizModule>)
    ensures forall m, c :: m in ms && c in Items(m.courses) ==> FlatCourse(c, m.name, u.name, u.year) in ModulesCourses(u, ms)
  {
    if ms != [] {
      ModulesCoursesComplete(u, ms[1..]);
      var head := ModuleCourses(u, ms[0]);
      assert ModulesCourses(u, ms) == head + ModulesCourses(u, ms[1..]);
      forall c | c in Items(ms[0].courses) ensures FlatCourse(c, ms[0].name, u.name, u.year) in head {
        var i :| 0 <= i < |Items(ms[0].courses)| && Items(ms[0].courses)[i] == c;
        assert head[i] == FlatCourse(c, ms[0].name, u.name, u.year);
      }
    }
  }

  /** The courses of one unit are `flatMap` over its modules. */
  lemma {:induction false} ModulesCoursesIsFlatMap(u: Unit, ms: seq<QuizModule>)
    ensures ModulesCourses(u, ms) == Lists.FlatMap(ms, (m: QuizModule) => ModuleCourses(u, m))
  {
    if ms != [] {
      ModulesCoursesIsFlatMap(u, ms[1..]);
    }
  }

  /** The modules' courses come module after module: a concatenation of modules concatenates. */
  lemma ModulesCoursesConcat(u: Unit, a: seq<QuizModule>, b: seq<QuizModule>)
    ensures ModulesCourses(u, a + b) == ModulesCourses(u, a) + ModulesCourses(u, b)
  {
    ModulesCoursesIsFlatMap(u, a + b);
    ModulesCoursesIsFlatMap(u, a);
    ModulesCoursesIsFlatMap(u, b);
    Lists.FlatMapConcat(a, b, (m: QuizModule) => ModuleCourses(u, m));
  }

  /** `allCourses`: every course of every module of every unit, unit after unit. */
  function AllCourses(us: seq<Unit>): (r: seq<FlatCourse>)
    ensures forall f :: f in r ==>
      exists u :: u in us && f.unitName == u.name && f.year == u.year
        && exists m :: m in Items(u.modules) && f.moduleName == m.name && f.course in Items(m.courses)
    ensures forall u, m, c :: u in us && m in Items(u.modules) && c in Items(m.courses) ==>
      FlatCourse(c, m.name, u.name, u.year) in r
  {
    if us == [] then []
    else
      ModulesCoursesComplete(us[0], Items(us[0].modules));
      ModulesCourses(us[0], Items(us[0].modules)) + AllCourses(us[1..])
  }

  /** The units' courses come unit after unit: flattening a concatenation concatenates. */
  lemma {:induction false} AllCoursesConcat(a: seq<Unit>, b: seq<Unit>)
    ensures AllCourses(a + b) == AllCourses(a) + AllCourses(b)
  {
    if a == [] {
      assert a + b == b;
    } else {
      assert (a + b)[0] == a[0];
      assert (a + b)[1..] == a[1..] + b;
      AllCoursesConcat(a[1..], b);
    }
  }

  /** A unit with a single module lists exactly that module's courses, in order. */
  lemma AllCoursesOfOneModule(u: Unit, m: QuizModule)
    requires u.modules == Some([m])
    ensures |AllCourses([u])| == |Items(m.courses)|
    ensures forall i :: 0 <= i < |Items(m.courses)| ==>
      AllCourses([u])[i] == FlatCourse(Items(m.courses)[i], m.name, u.name, u.year)
  {
    assert [m][1..] == [];
    assert [u][1..] == [];
    assert ModulesCourses(u, [m]) == ModuleCourses(u, m) + [];
    assert AllCourses([u]) == ModulesCourses(u, [m]) + [];
  }

  /** The number of courses the tree lists. */
  function CourseCount(us: seq<Unit>): nat
  {
    if us == [] then 0 else ModuleCourseCount(Items(us[0].modules)) + CourseCount(us[1..])
  }

  function ModuleCourseCount(ms: seq<QuizModule>): nat
  {
    if ms == [] then 0 else |Items(ms[0].courses)| + ModuleCourseCount(ms[1..])
  }

  lemma {:induction false} ModulesCoursesLength(u: Unit, ms: seq<QuizModule>)
    ensures |ModulesCourses(u, ms)| == ModuleCourseCount(ms)
  {
    if ms != [] {
      ModulesCoursesLength(u, ms[1..]);
    }
  }

  /** There is one course entry per course listed in the tree. */
  lemma {:induction false} AllCoursesLength(us: seq<Unit>)
    ensures |AllCourses(us)| == CourseCount(us)
  {
    if us != [] {
      ModulesCoursesLength(us[0], Items(us[0].modules));
      AllCoursesLength(us[1..]);
    }
  }

  /** An option of a select: its value and its `label`, here `caption` (`label` is a Dafny keyword). */
  datatype YearLevel = YearLevel(value: string, caption: string)

  datatype CourseOption = CourseOption(value: string, caption: string, moduleName: string, unitName: string, questionCount: int)

  datatype UnitOption = UnitOption(value: string, caption: string, year: string)

  datatype ModuleOption = ModuleOption(value: string, caption: string, unitId: int, unitName: string)

  datatype Difficulty = Difficulty(value: string, caption: string)

  datatype FilterOptions = FilterOptions(
    yearLevels: seq<YearLevel>, courses: seq<CourseOption>, units: seq<UnitOption>,
    modules: seq<ModuleOption>, difficulties: seq<Difficulty>)

  const Difficulties: seq<Difficulty> :=
    [Difficulty("EASY", "Easy"), Difficulty("MEDIUM", "Medium"), Difficulty("HARD", "Hard")]

  /** `Year <y>` for each year, in order. */
  function YearLevels(years: seq<string>): (r: seq<YearLevel>)
    ensures |r| == |years|
    ensures forall i :: 0 <= i < |r| ==> r[i].value == years[i] && r[i].caption == "Year " + years[i]
  {
    seq(|years|, i requires 0 <= i < |years| => YearLevel(years[i], "Year " + years[i]))
  }

  /** `${course.name} (${course.moduleName})` */
  function CourseLabel(f: FlatCourse): (r: string)
    ensures |r| == |f.course.name| + |f.moduleName| + 3
    ensures r[..|f.course.name|] == f.course.name && r[|f.course.name|..|f.course.name| + 2] == " ("
    ensures r[|r| - |f.moduleName| - 1..|r| - 1] == f.moduleName && r[|r| - 1] == ')'
  {
    f.course.name + " (" + f.moduleName + ")"
  }

  function CourseOptions(flat: seq<FlatCourse>): (r: seq<CourseOption>)
    ensures |r| == |flat|
    ensures forall i :: 0 <= i < |r| ==>
      r[i] == CourseOption(Text.IntToString(flat[i].course.id), CourseLabel(flat[i]),
                           flat[i].moduleName, flat[i].unitName, flat[i].course.questionCount)
  {
    seq(|flat|, i requires 0 <= i < |flat| =>
      CourseOption(Text.IntToString(flat[i].course.id), CourseLabel(flat[i]),
                   flat[i].moduleName, flat[i].unitName, flat[i].course.questionCount))
  }

  function UnitOptions(us: seq<Unit>): (r: seq<UnitOption>)
    ensures |r| == |us|
    ensures forall i :: 0 <= i < |r| ==> r[i] == UnitOption(Text.IntToString(us[i].id), us[i].name, us[i].year)
  {
    seq(|us|, i requires 0 <= i < |us| => UnitOption(Text.IntToString(us[i].id), us[i].name, us[i].year))
  }

  /** The options of the modules `ms` of unit `u`. */
  function UnitModuleOptions(u: Unit, ms: seq<QuizModule>): (r: seq<ModuleOption>)
    ensures |r| == |ms|
    ensures forall i :: 0 <= i < |r| ==>
      r[i] == ModuleOption(Text.IntToString(ms[i].id), ms[i].name, u.id, u.name)
  {
    seq(|ms|, i requires 0 <= i < |ms| => ModuleOption(Text.IntToString(ms[i].id), ms[i].name, u.id, u.name))
  }

  /** The options of the modules of unit `u` (none when it has no module list). */
  function UnitModules(u: Unit): seq<ModuleOption>
  {
    UnitModuleOptions(u, Items(u.modules))
  }

  /** `unites.flatMap(unit => unit.modules?.map(...) || [])` */
  function ModuleOptions(us: seq<Unit>): seq<ModuleOption>
  {
    Lists.FlatMap(us, UnitModules)
  }

  /** Every module option carries the id and name of a unit of the tree. */
  lemma {:induction false} ModuleOptionsComeFromUnits(us: seq<Unit>)
    ensures forall o :: o in ModuleOptions(us) ==>
      exists u :: u in us && o.unitId == u.id && o.unitName == u.name
  {
    if us != [] {
      ModuleOptionsComeFromUnits(us[1..]);
      var head := UnitModules(us[0]);
      assert ModuleOptions(us) == head + ModuleOptions(us[1..]);
      forall o | o in ModuleOptions(us)
        ensures exists u :: u in us && o.unitId == u.id && o.unitName == u.name
      {
        if o in head {
          var i :| 0 <= i < |head| && head[i] == o;
          assert us[0] in us;
        } else {
          assert o in ModuleOptions(us[1..]);
          var u :| u in us[1..] && o.unitId == u.id && o.unitName == u.name;
          assert u in us;
        }
      }
    }
  }

  /** Each module keeps its place: the module options of a concatenation concatenate. */
  lemma ModuleOptionsConcat(a: seq<Unit>, b: seq<Unit>)
    ensures ModuleOptions(a + b) == ModuleOptions(a) + ModuleOptions(b)
  {
    Lists.FlatMapConcat(a, b, UnitModules);
  }

  /** `getFilterOptions(filters)` */
  function Options(filters: Option<QuizFilters>): (r: Option<FilterOptions>)
    ensures filters.None? <==> r.None?
    ensures r.Some? ==>
      var us := Items(filters.value.unites);
      r.value.yearLevels == YearLevels(Items(filters.value.availableYears))
      && r.value.courses == CourseOptions(AllCourses(us))
      && r.value.units == UnitOptions(us)
      && r.value.modules == ModuleOptions(us)
      && r.value.difficulties == Difficulties
  {
    match filters
    case None => None
    case Some(f) =>
      var us := Items(f.unites);
      Some(FilterOptions(YearLevels(Items(f.availableYears)), CourseOptions(AllCourses(us)),
                         UnitOptions(us), ModuleOptions(us), Difficulties))
  }

  /** There is one course option per course of the tree, and every option names a module and
      unit of the tree. */
  lemma CourseOptionsCoverTree(f: QuizFilters)
    ensures |Options(Some(f)).value.courses| == CourseCount(Items(f.unites))
    ensures forall i :: 0 <= i < |Options(Some(f)).value.courses| ==>
      exists u :: (u in Items(f.unites) && Options(Some(f)).value.courses[i].unitName == u.name
        && exists m :: m in Items(u.modules) && Options(Some(f)).value.courses[i].moduleName == m.name)
  {
    var us := Items(f.unites);
    AllCoursesLength(us);
    var flat := AllCourses(us);
    forall i | 0 <= i < |flat|
      ensures exists u :: (u in us && Options(Some(f)).value.courses[i].unitName == u.name
        && exists m :: m in Items(u.modules) && Options(Some(f)).value.courses[i].moduleName == m.name)
    {
      assert flat[i] in flat;
    }
  }

  datatype Topic = Topic(id: int, name: string, courseId: int)

  /** `getTopicsForCourse(filters, courseId)`: the API sends no topics, so there are none. */
  function TopicsForCourse(filters: Option<QuizFilters>, courseId: int): (r: seq<Topic>)
    ensures |r| == 0
  {
    []
  }
}

=== FILE: quiz_completion.dfy ===
/** The summary the completion screen derives from the quiz state: how many questions have a
    locally stored answer, the completion percentage, the time captions, and when the final
    submission may be sent. */
module QuizCompletion {
  import opened Wrappers
  import QuizReducer
  import QuestionDisplay
  import Text

  /** `Object.keys(localAnswers).length` */
  function AnsweredCount(localAnswers: map<string, QuizReducer.UserAnswer>): (r: nat)
    ensures r == |localAnswers.Keys|
    ensures r == 0 <==> localAnswers == map[]
  {
    if localAnswers == map[] then 0
    else
      var k :| k in localAnswers;
      assert k in localAnswers.Keys;
      |localAnswers.Keys|
  }

  /** Storing an answer counts one more answered question exactly when the question had none. */
  lemma AnsweredCountAfterStore(localAnswers: map<string, QuizReducer.UserAnswer>, id: string, a: QuizReducer.UserAnswer)
    ensures id in localAnswers ==> AnsweredCount(localAnswers[id := a]) == AnsweredCount(localAnswers)
    ensures id !in localAnswers ==> AnsweredCount(localAnswers[id := a]) == AnsweredCount(localAnswers) + 1
  {
    var m := localAnswers[id := a];
    if id in localAnswers {
      assert m.Keys == localAnswers.Keys;
    } else {
      assert m.Keys == localAnswers.Keys + {id};
    }
  }

  /** `session.totalQuestions || session.questions?.length || 0` */
  function TotalQuestions(session: QuizReducer.Session): (r: int)
    ensures session.totalQuestions != 0 ==> r == session.totalQuestions
    ensures session.totalQuestions == 0 && session.questions.Some? ==> r == |session.questions.value|
    ensures session.totalQuestions == 0 && session.questions.None? ==> r == 0
  {
    if session.totalQuestions != 0 then session.totalQuestions
    else if session.questions.Some? && |session.questions.value| != 0 then |session.questions.value|
    else 0
  }

  /** `total > 0 ? (answered / total) * 100 : 0` */
  function CompletionPercentage(answered: nat, total: int): (r: real)
    ensures total <= 0 ==> r == 0.0
    ensures total > 0 ==> r * total as real == answered as real * 100.0
    ensures answered <= total ==> 0.0 <= r <= 100.0
    ensures total > 0 && answered == total ==> r == 100.0
  {
    if total > 0 then (answered as real / total as real) * 100.0 else 0.0
  }

  /** `Math.round(totalTime / total)`: the nearest integer, halves rounded up. */
  function AverageSeconds(totalTime: int, total: int): (r: int)
    requires total > 0
    ensures -total <= 2 * (totalTime - r * total) < total
    ensures totalTime >= 0 ==> r >= 0
  {
    var r := (2 * totalTime + total) / (2 * total);
    assert r * (2 * total) <= 2 * totalTime + total < (r + 1) * (2 * total);
    r
  }

  /** The caption under the total time: the rounded per-question average, or `0:00`. */
  function AverageCaption(totalTime: int, total: int): (r: string)
    ensures ':' in r
    ensures total <= 0 ==> r == "0:00"
    ensures total > 0 && totalTime >= 0 ==>
      QuestionDisplay.ParseTime(r) == Some(AverageSeconds(totalTime, total))
  {
    if total <= 0 then "0:00"
    else if totalTime < 0 then QuestionDisplay.FormatTime(AverageSeconds(totalTime, total))
    else
      QuestionDisplay.FormatTimeRoundTrip(AverageSeconds(totalTime, total));
      QuestionDisplay.FormatTime(AverageSeconds(totalTime, total))
  }

  /** Whatever the total, the caption reads back as a clock: the rounded average, or zero. */
  lemma AverageCaptionReadsBack(totalTime: nat, total: int)
    ensures total > 0 ==> QuestionDisplay.ParseTime(AverageCaption(totalTime, total)) == Some(AverageSeconds(totalTime, total))
    ensures total <= 0 ==> AverageCaption(totalTime, total) == QuestionDisplay.FormatTime(0)
  {
    if total > 0 {
      QuestionDisplay.FormatTimeRoundTrip(AverageSeconds(totalTime, total));
    } else {
      assert Text.NatToString(0) == "0";
      assert Text.PadStart2("0") == "00";
    }
  }

  datatype Summary = Summary(
    answered: nat,
    total: int,
    percentage: real,
    allAnswered: bool,
    totalTimeCaption: string,
    averageCaption: string,
    submitDisabled: bool)

  /** The completion screen's figures for a quiz state: the answered count is the number of
      questions with a locally stored answer, the total is the session's, every question counts
      as answered exactly when the two agree, and the captions read back as the total time and the
      rounded average. */
  function Summarise(s: QuizReducer.State): (r: Summary)
    ensures r.answered == |s.localAnswers.Keys| && r.total == TotalQuestions(s.session)
    ensures r.allAnswered <==> |s.localAnswers.Keys| == TotalQuestions(s.session)
    ensures r.submitDisabled <==> s.pendingSubmission || s.localAnswers == map[]
    ensures r.percentage == CompletionPercentage(r.answered, r.total)
    ensures r.answered <= r.total ==> 0.0 <= r.percentage <= 100.0
    ensures r.totalTimeCaption == QuestionDisplay.FormatTime(s.timer.totalTime)
    ensures s.timer.totalTime >= 0 ==> QuestionDisplay.ParseTime(r.totalTimeCaption) == Some(s.timer.totalTime)
    ensures r.averageCaption == AverageCaption(s.timer.totalTime, r.total)
    ensures r.total <= 0 ==> r.averageCaption == "0:00"
    ensures r.total > 0 && s.timer.totalTime >= 0 ==>
      QuestionDisplay.ParseTime(r.averageCaption) == Some(AverageSeconds(s.timer.totalTime, r.total))
  {
    var answered := AnsweredCount(s.localAnswers);
    var total := TotalQuestions(s.session);
    var r := Summary(answered, total, CompletionPercentage(answered, total), answered == total,
                     QuestionDisplay.FormatTime(s.timer.totalTime), AverageCaption(s.timer.totalTime, total),
                     s.pendingSubmission || answered == 0);
    if s.timer.totalTime >= 0 then QuestionDisplay.FormatTimeRoundTrip(s.timer.totalTime); r else r
  }

  /** Recording an answer with client storage on adds at most one locally stored answer and
      leaves at least one, so the final submission is then blocked only by a pending one. */
  lemma SubmitAnswerEnablesSubmission(s: QuizReducer.State, p: QuizReducer.AnswerPatch, toApi: bool, now: int)
    requires s.currentQuestion.Some? && s.clientStorageEnabled
    ensures var t := QuizReducer.Step(s, QuizReducer.SubmitAnswer(p, toApi), now);
      && Summarise(s).answered <= Summarise(t).answered <= Summarise(s).answered + 1
      && (Summarise(t).submitDisabled <==> t.pendingSubmission)
  {
    var t := QuizReducer.Step(s, QuizReducer.SubmitAnswer(p, toApi), now);
    var id := s.currentQuestion.value.id;
    QuizReducer.SubmitAnswerRecords(s, p, toApi, now);
    assert t.localAnswers.Keys == s.localAnswers.Keys + {id};
    assert id in t.localAnswers;
    if id in s.localAnswers {
      assert t.localAnswers.Keys == s.localAnswers.Keys;
    } else {
      assert |t.localAnswers.Keys| == |s.localAnswers.Keys| + 1;
    }
  }
}

=== FILE: quiz_reducer.dfy ===
/** The quiz session state machine: the reducer behind the quiz-taking screen. Every action is a
    pure transition `Step(state, action, now)`; `now` stands for the `new Date()` timestamps the
    reducer writes into answer records. */
module QuizReducer {
  import opened Wrappers
  import Lists

  /** The three flags a student can put on a question. */
  datatype Flag = Difficult | ReviewLater | ReportError

  /** A question of the session. The reducer reads only its id, which, being used as an object
      key, is its string form. */
  datatype Question = Question(id: string, text: string)

  /** The answer record kept per question id. `isBookmarked` is false when the source leaves it
      undefined (both are falsy). */
  datatype UserAnswer = UserAnswer(
    questionId: string,
    timeSpent: int,
    timestamp: int,
    selectedOptions: Option<seq<string>>,
    textAnswer: Option<string>,
    isBookmarked: bool,
    notes: Option<string>,
    flags: Option<seq<Flag>>)

  /** The `answer` object carried by SUBMIT_ANSWER. It is spread over the default fields, so any
      field it carries wins; the fields it lacks are absent from the stored record. */
  datatype AnswerPatch = AnswerPatch(
    questionId: Option<string>,
    timeSpent: Option<int>,
    timestamp: Option<int>,
    selectedOptions: Option<seq<string>>,
    textAnswer: Option<string>,
    isBookmarked: bool,
    notes: Option<string>,
    flags: Option<seq<Flag>>)

  datatype Session = Session(
    currentQuestionIndex: int,
    totalQuestions: int,
    questions: Option<seq<Question>>,
    userAnswers: map<string, UserAnswer>,
    showAnswers: bool,
    status: string)

  datatype Timer = Timer(totalTime: int, questionTime: int, isPaused: bool, isRunning: bool)

  datatype State = State(
    session: Session,
    timer: Timer,
    currentQuestion: Option<Question>,
    isAnswerRevealed: bool,
    showExplanation: bool,
    sidebarOpen: bool,
    apiSessionId: Option<int>,
    submittingAnswer: bool,
    lastSubmissionError: Option<string>,
    autoSave: bool,
    clientStorageEnabled: bool,
    pendingSubmission: bool,
    localAnswers: map<string, UserAnswer>)

  datatype Action =
    | NextQuestion
    | PreviousQuestion
    | GoToQuestion(questionIndex: int)
    | SubmitAnswer(answer: AnswerPatch, submitToApi: bool)
    | AnswerSubmitted(success: bool, error: Option<string>)
    | RevealAnswer
    | ToggleExplanation
    | PauseQuiz
    | ResumeQuiz
    | UpdateTimer(totalTime: int, questionTime: int)
    | ToggleSidebar
    | BookmarkQuestion(questionId: string)
    | AddNote(questionId: string, note: string)
    | FlagQuestion(questionId: string, flag: Flag)
    | CompleteQuiz
    | SetAutoSave(enabled: bool)
    | ClearSubmissionError
    | LoadLocalAnswers(answers: map<string, UserAnswer>)
    | SaveLocalAnswer(saved: UserAnswer)
    | SetPendingSubmission(pending: bool)
    | Unrecognised(tag: string)

  const SubmissionFailed: string := "Submission failed"

  /** `questions?.[i] || null`: missing list, out-of-range index (negative included) give null. */
  function QuestionAt(questions: Option<seq<Question>>, i: int): Option<Question>
  {
    if questions.Some? && 0 <= i < |questions.value| then Some(questions.value[i]) else None
  }

  /** The common effect of a successful navigation to index `i`. */
  function MoveTo(s: State, i: int): State
  {
    s.(session := s.session.(currentQuestionIndex := i),
       currentQuestion := QuestionAt(s.session.questions, i),
       isAnswerRevealed := false,
       showExplanation := false,
       timer := s.timer.(questionTime := 0))
  }

  /** The record a question gets when it is first annotated. */
  function BlankAnswer(id: string, now: int): UserAnswer
  {
    UserAnswer(id, 0, now, None, None, false, None, None)
  }

  /** `userAnswers[id] || { questionId: id, timeSpent: 0, timestamp: now }` */
  function AnswerOrBlank(s: State, id: string, now: int): UserAnswer
  {
    if id in s.session.userAnswers then s.session.userAnswers[id] else BlankAnswer(id, now)
  }

  /** `{ questionId, timeSpent, timestamp, ...answer }` */
  function MakeAnswer(id: string, questionTime: int, now: int, p: AnswerPatch): UserAnswer
  {
    UserAnswer(p.questionId.GetOr(id), p.timeSpent.GetOr(questionTime), p.timestamp.GetOr(now),
               p.selectedOptions, p.textAnswer, p.isBookmarked, p.notes, p.flags)
  }

  function WithAnswer(s: State, id: string, a: UserAnswer): State
  {
    s.(session := s.session.(userAnswers := s.session.userAnswers[id := a]))
  }

  /** `error || 'Submission failed'` */
  function FailureMessage(error: Option<string>): string
  {
    if error.Some? && error.value != [] then error.value else SubmissionFailed
  }

  /** `apiQuizReducer(state, action)`. No action changes the number or list of questions, an
      in-range index stays in range, and only the navigation actions move the index, from an
      in-range index always to a position inside the session. */
  function Step(s: State, a: Action, now: int): (r: State)
    ensures r.session.totalQuestions == s.session.totalQuestions
    ensures r.session.questions == s.session.questions
    ensures IndexInRange(s) ==> IndexInRange(r)
    ensures r.session.currentQuestionIndex != s.session.currentQuestionIndex ==> IsNavigation(a)
    ensures IndexInRange(s) && r.session.currentQuestionIndex != s.session.currentQuestionIndex ==>
      0 <= r.session.currentQuestionIndex < s.session.totalQuestions
  {
    match a
    case NextQuestion =>
      if s.session.currentQuestionIndex < s.session.totalQuestions - 1
      then MoveTo(s, s.session.currentQuestionIndex + 1) else s
    case PreviousQuestion =>
      if s.session.currentQuestionIndex > 0
      then MoveTo(s, s.session.currentQuestionIndex - 1) else s
    case GoToQuestion(i) =>
      if 0 <= i < s.session.totalQuestions then MoveTo(s, i) else s
    case SubmitAnswer(p, toApi) =>
      if s.currentQuestion.None? then s
      else
        var id := s.currentQuestion.value.id;
        var answer := MakeAnswer(id, s.timer.questionTime, now, p);
        WithAnswer(s, id, answer).(
          localAnswers := if s.clientStorageEnabled then s.localAnswers[id := answer] else s.localAnswers,
          isAnswerRevealed := s.session.showAnswers,
          submittingAnswer := toApi,
          lastSubmissionError := None)
    case AnswerSubmitted(success, error) =>
      s.(submittingAnswer := false,
         lastSubmissionError := if success then None else Some(FailureMessage(error)))
    case RevealAnswer => s.(isAnswerRevealed := true)
    case ToggleExplanation => s.(showExplanation := !s.showExplanation)
    case PauseQuiz =>
      s.(session := s.session.(status := "paused"),
         timer := s.timer.(isPaused := true, isRunning := false))
    case ResumeQuiz =>
      s.(session := s.session.(status := "active"),
         timer := s.timer.(isPaused := false, isRunning := true))
    case UpdateTimer(total, question) =>
      s.(timer := s.timer.(totalTime := total, questionTime := question))
    case ToggleSidebar => s.(sidebarOpen := !s.sidebarOpen)
    case BookmarkQuestion(id) =>
      var prior := AnswerOrBlank(s, id, now);
      WithAnswer(s, id, prior.(isBookmarked := !prior.isBookmarked))
    case AddNote(id, note) =>
      WithAnswer(s, id, AnswerOrBlank(s, id, now).(notes := Some(note)))
    case FlagQuestion(id, flag) =>
      var prior := AnswerOrBlank(s, id, now);
      WithAnswer(s, id, prior.(flags := Some(Lists.ToggleMember(prior.flags.GetOr([]), flag))))
    case CompleteQuiz =>
      s.(session := s.session.(status := "completed"),
         timer := s.timer.(isRunning := false, isPaused := false))
    case SetAutoSave(enabled) => s.(autoSave := enabled)
    case ClearSubmissionError => s.(lastSubmissionError := None)
    case LoadLocalAnswers(answers) => s.(localAnswers := answers)
    case SaveLocalAnswer(saved) => s.(localAnswers := s.localAnswers[saved.questionId := saved])
    case SetPendingSubmission(pending) => s.(pendingSubmission := pending)
    case Unrecognised(_) => s
  }

  // ---------------------------------------------------------------------------------------
  // Navigation

  /** The current index lies in `0..totalQuestions-1` (or is 0 for an empty session). */
  predicate IndexInRange(s: State)
  {
    0 <= s.session.currentQuestionIndex
    && (s.session.currentQuestionIndex < s.session.totalQuestions || s.session.currentQuestionIndex == 0)
  }

  predicate IsNavigation(a: Action)
  {
    a.NextQuestion? || a.PreviousQuestion? || a.GoToQuestion?
  }

  /** `t` is `s` after moving to index `i`: the question at `i` becomes current, the reveal and
      explanation flags drop, the per-question clock restarts, and nothing else changes. */
  predicate MovedTo(s: State, t: State, i: int)
  {
    && t.session.currentQuestionIndex == i
    && t.currentQuestion == QuestionAt(s.session.questions, i)
    && !t.isAnswerRevealed && !t.showExplanation
    && t.timer.questionTime == 0
    && t.timer.totalTime == s.timer.totalTime
    && t.timer.isPaused == s.timer.isPaused && t.timer.isRunning == s.timer.isRunning
    && t.session.totalQuestions == s.session.totalQuestions
    && t.session.questions == s.session.questions
    && t.session.userAnswers == s.session.userAnswers
    && t.session.status == s.session.status
    && t.session.showAnswers == s.session.showAnswers
    && t.localAnswers == s.localAnswers
    && t.sidebarOpen == s.sidebarOpen
    && t.submittingAnswer == s.submittingAnswer
    && t.lastSubmissionError == s.lastSubmissionError
    && t.pendingSubmission == s.pendingSubmission
  }

  lemma MoveToMoves(s: State, i: int)
    ensures MovedTo(s, MoveTo(s, i), i)
  {
  }

  /** NEXT moves one question forward unless the current one is the last. */
  lemma NextQuestionStep(s: State, now: int)
    ensures var n := s.session.currentQuestionIndex; var t := Step(s, NextQuestion, now);
      if n < s.session.totalQuestions - 1 then MovedTo(s, t, n + 1) else t == s
  {
    MoveToMoves(s, s.session.currentQuestionIndex + 1);
  }

  /** PREVIOUS moves one question back unless the current one is the first. */
  lemma PreviousQuestionStep(s: State, now: int)
    ensures var n := s.session.currentQuestionIndex; var t := Step(s, PreviousQuestion, now);
      if n > 0 then MovedTo(s, t, n - 1) else t == s
  {
    MoveToMoves(s, s.session.currentQuestionIndex - 1);
  }

  /** GO_TO moves exactly when the target index lies inside the session. */
  lemma GoToQuestionStep(s: State, i: int, now: int)
    ensures var t := Step(s, GoToQuestion(i), now);
      if 0 <= i < s.session.totalQuestions then MovedTo(s, t, i) else t == s
  {
    MoveToMoves(s, i);
  }

  // ---------------------------------------------------------------------------------------
  // Answers

  /** `m2` is `m1` with key `k` set and every other key untouched. */
  ghost predicate OnlyKeyChanged<V>(m1: map<string, V>, m2: map<string, V>, k: string)
  {
    && k in m2
    && (forall j :: j != k ==> (j in m2 <==> j in m1))
    && (forall j :: j != k && j in m1 ==> m2[j] == m1[j])
  }

  /** Without a current question SUBMIT_ANSWER changes nothing. */
  lemma SubmitWithoutQuestionIsNoOp(s: State, p: AnswerPatch, toApi: bool, now: int)
    requires s.currentQuestion.None?
    ensures Step(s, SubmitAnswer(p, toApi), now) == s
  {
  }

  /** SUBMIT_ANSWER stores the answer under the current question's id: the record takes its
      content from the action (defaulting id, elapsed time and timestamp), so an earlier bookmark,
      note or flag on that question survives only if the action carries it again. The local copy
      changes only with client storage on, the reveal flag follows `showAnswers`, and the last
      submission error is cleared. Navigation does not move. */
  lemma SubmitAnswerRecords(s: State, p: AnswerPatch, toApi: bool, now: int)
    requires s.currentQuestion.Some?
    ensures var t := Step(s, SubmitAnswer(p, toApi), now);
      var id := s.currentQuestion.value.id;
      var stored := t.session.userAnswers[id];
      && OnlyKeyChanged(s.session.userAnswers, t.session.userAnswers, id)
      && stored.questionId == (if p.questionId.Some? then p.questionId.value else id)
      && stored.timeSpent == (if p.timeSpent.Some? then p.timeSpent.value else s.timer.questionTime)
      && stored.timestamp == (if p.timestamp.Some? then p.timestamp.value else now)
      && stored.selectedOptions == p.selectedOptions && stored.textAnswer == p.textAnswer
      && stored.isBookmarked == p.isBookmarked && stored.notes == p.notes && stored.flags == p.flags
      && (s.clientStorageEnabled ==> OnlyKeyChanged(s.localAnswers, t.localAnswers, id)
                                     && t.localAnswers[id] == stored)
      && (!s.clientStorageEnabled ==> t.localAnswers == s.localAnswers)
      && t.isAnswerRevealed == s.session.showAnswers
      && t.submittingAnswer == toApi
      && t.lastSubmissionError.None?
      && t.session.currentQuestionIndex == s.session.currentQuestionIndex
      && t.currentQuestion == s.currentQuestion
  {
  }

  /** ANSWER_SUBMITTED always ends the pending submission; the error is cleared exactly on
      success and is otherwise a non-empty message: the given one, or the default. */
  lemma AnswerSubmittedOutcome(s: State, success: bool, error: Option<string>, now: int)
    ensures var t := Step(s, AnswerSubmitted(success, error), now);
      && !t.submittingAnswer
      && (t.lastSubmissionError.None? <==> success)
      && (!success ==> t.lastSubmissionError.value != [])
      && (!success && error.Some? && error.value != [] ==> t.lastSubmissionError == error)
      && (!success && (error.None? || error.value == []) ==> t.lastSubmissionError == Some(SubmissionFailed))
      && t.session == s.session && t.localAnswers == s.localAnswers
  {
  }

  /** Whether question `id` is bookmarked in `s` (a missing record is not). */
  predicate Bookmarked(s: State, id: string)
  {
    id in s.session.userAnswers && s.session.userAnswers[id].isBookmarked
  }

  /** BOOKMARK flips the bookmark of the named question, keeps that record's other
      annotations, and touches no other question. */
  lemma BookmarkFlips(s: State, id: string, now: int)
    ensures var t := Step(s, BookmarkQuestion(id), now);
      && OnlyKeyChanged(s.session.userAnswers, t.session.userAnswers, id)
      && (Bookmarked(t, id) <==> !Bookmarked(s, id))
      && (id in s.session.userAnswers ==>
            t.session.userAnswers[id] == s.session.userAnswers[id].(isBookmarked := !Bookmarked(s, id)))
      && t.localAnswers == s.localAnswers
  {
  }

  /** Bookmarking a question twice leaves it as bookmarked as it was. */
  lemma BookmarkTwice(s: State, id: string, now: int)
    ensures Bookmarked(Step(Step(s, BookmarkQuestion(id), now), BookmarkQuestion(id), now), id)
        <==> Bookmarked(s, id)
  {
    BookmarkFlips(s, id, now);
    BookmarkFlips(Step(s, BookmarkQuestion(id), now), id, now);
  }

  /** ADD_NOTE sets the note of the named question only. */
  lemma AddNoteSets(s: State, id: string, note: string, now: int)
    ensures var t := Step(s, AddNote(id, note), now);
      && OnlyKeyChanged(s.session.userAnswers, t.session.userAnswers, id)
      && t.session.userAnswers[id].notes == Some(note)
      && (id in s.session.userAnswers ==>
            t.session.userAnswers[id] == s.session.userAnswers[id].(notes := Some(note)))
  {
  }

  /** The flags recorded for question `id` (none when there is no record or no list). */
  function FlagsOf(s: State, id: string): seq<Flag>
  {
    if id in s.session.userAnswers then s.session.userAnswers[id].flags.GetOr([]) else []
  }

  /** FLAG toggles one flag on the named question: it is removed when present and appended when
      absent, the other flags keep their membership, and no other question changes. */
  lemma FlagToggles(s: State, id: string, flag: Flag, now: int)
    ensures var t := Step(s, FlagQuestion(id, flag), now);
      && OnlyKeyChanged(s.session.userAnswers, t.session.userAnswers, id)
      && (flag in FlagsOf(t, id) <==> flag !in FlagsOf(s, id))
      && (forall f :: f != flag ==> (f in FlagsOf(t, id) <==> f in FlagsOf(s, id)))
      && (flag !in FlagsOf(s, id) ==> FlagsOf(t, id) == FlagsOf(s, id) + [flag])
      && t.session.userAnswers[id].isBookmarked == Bookmarked(s, id)
  {
  }

  /** Flagging twice with the same flag restores a duplicate-free flag list up to order, and
      exactly when the flag was absent. */
  lemma FlagTwice(s: State, id: string, flag: Flag, now: int)
    requires Lists.NoDuplicates(FlagsOf(s, id))
    ensures var t := Step(Step(s, FlagQuestion(id, flag), now), FlagQuestion(id, flag), now);
      && multiset(FlagsOf(t, id)) == multiset(FlagsOf(s, id))
      && (flag !in FlagsOf(s, id) ==> FlagsOf(t, id) == FlagsOf(s, id))
  {
    var once := Step(s, FlagQuestion(id, flag), now);
    FlagStepToggles(s, id, flag, now);
    FlagStepToggles(once, id, flag, now);
    Lists.ToggleTwice(FlagsOf(s, id), flag);
  }

  lemma FlagStepToggles(s: State, id: string, flag: Flag, now: int)
    ensures FlagsOf(Step(s, FlagQuestion(id, flag), now), id) == Lists.ToggleMember(FlagsOf(s, id), flag)
  {
  }

  // ---------------------------------------------------------------------------------------
  // Display toggles, timer and the default case

  /** TOGGLE_EXPLANATION and TOGGLE_SIDEBAR undo themselves, and an unrecognised action
      returns the state unchanged. */
  lemma TogglesAreInvolutions(s: State, tag: string, now: int)
    ensures Step(Step(s, ToggleExplanation, now), ToggleExplanation, now) == s
    ensures Step(Step(s, ToggleSidebar, now), ToggleSidebar, now) == s
    ensures Step(s, ToggleExplanation, now).showExplanation != s.showExplanation
    ensures Step(s, ToggleSidebar, now).sidebarOpen != s.sidebarOpen
    ensures Step(s, Unrecognised(tag), now) == s
  {
  }

  /** PAUSE, RESUME and COMPLETE set the timer flags and the session status together, leave the
      clocks alone, and after any of them the timer runs exactly when it is not paused and the
      session is active. */
  lemma TimerControls(s: State, now: int)
    ensures var t := Step(s, PauseQuiz, now);
      t.timer.isPaused && !t.timer.isRunning && t.session.status == "paused"
    ensures var t := Step(s, ResumeQuiz, now);
      !t.timer.isPaused && t.timer.isRunning && t.session.status == "active"
    ensures var t := Step(s, CompleteQuiz, now);
      !t.timer.isPaused && !t.timer.isRunning && t.session.status == "completed"
    ensures forall a :: a in {PauseQuiz, ResumeQuiz, CompleteQuiz} ==>
      var t := Step(s, a, now);
      && t.timer.totalTime == s.timer.totalTime && t.timer.questionTime == s.timer.questionTime
      && (t.timer.isRunning <==> t.session.status == "active")
      && t.session.userAnswers == s.session.userAnswers
  {
  }

  /** Only SUBMIT_ANSWER and the three annotation actions write answer records, and only
      SUBMIT_ANSWER and the two local-storage actions write the local copy. */
  lemma AnswerStoreFrame(s: State, a: Action, now: int)
    ensures !(a.SubmitAnswer? || a.BookmarkQuestion? || a.AddNote? || a.FlagQuestion?) ==>
      Step(s, a, now).session.userAnswers == s.session.userAnswers
    ensures !(a.SubmitAnswer? || a.LoadLocalAnswers? || a.SaveLocalAnswer?) ==>
      Step(s, a, now).localAnswers == s.localAnswers
  {
    UserAnswersFrame(s, a, now);
    LocalAnswersFrame(s, a, now);
  }

  lemma UserAnswersFrame(s: State, a: Action, now: int)
    ensures !(a.SubmitAnswer? || a.BookmarkQuestion? || a.AddNote? || a.FlagQuestion?) ==>
      Step(s, a, now).session.userAnswers == s.session.userAnswers
  {
  }

  lemma LocalAnswersFrame(s: State, a: Action, now: int)
    ensures !(a.SubmitAnswer? || a.LoadLocalAnswers? || a.SaveLocalAnswer?) ==>
      Step(s, a, now).localAnswers == s.localAnswers
  {
  }

  // ---------------------------------------------------------------------------------------
  // Payload of the final submission

  /** An answer as kept in client storage until the quiz is submitted. */
  datatype StoredAnswer = StoredAnswer(
    questionId: int, selectedAnswerId: Option<int>, textAnswer: Option<string>, timeSpent: int)

  /** The answer shape sent to the bulk-submission endpoint. */
  datatype ApiAnswer = ApiAnswer(questionId: int, selectedAnswerId: Option<int>, timeSpent: int)

  /** `answer.selectedAnswerId` is truthy: present and not 0. */
  predicate HasSelection(a: StoredAnswer)
  {
    a.selectedAnswerId.Some? && a.selectedAnswerId.value != 0
  }

  function ToApiAnswer(a: StoredAnswer): ApiAnswer
  {
    ApiAnswer(a.questionId, a.selectedAnswerId, a.timeSpent)
  }

  /** `answers.map(a => ({questionId, selectedAnswerId, timeSpent})).filter(a => a.selectedAnswerId)` */
  function SubmissionPayload(answers: seq<StoredAnswer>): (r: seq<ApiAnswer>)
    ensures |r| == Lists.Count(answers, HasSelection)
    ensures forall i :: 0 <= i < |r| ==> r[i].selectedAnswerId.Some? && r[i].selectedAnswerId.value != 0
  {
    if answers == [] then []
    else
      var head := if HasSelection(answers[0]) then [ToApiAnswer(answers[0])] else [];
      head + SubmissionPayload(answers[1..])
  }

  function ProjectAll(answers: seq<StoredAnswer>): (r: seq<ApiAnswer>)
    ensures |r| == |answers|
    ensures forall i :: 0 <= i < |r| ==> r[i] == ToApiAnswer(answers[i])
  {
    if answers == [] then [] else [ToApiAnswer(answers[0])] + ProjectAll(answers[1..])
  }

  /** The payload is exactly the projections of the answers with a selection, in storage order;
      text-only and unselected answers are dropped. */
  lemma {:induction false} SubmissionPayloadIsSelectedProjection(answers: seq<StoredAnswer>)
    ensures SubmissionPayload(answers) == ProjectAll(Lists.Filter(answers, HasSelection))
  {
    if answers != [] {
      SubmissionPayloadIsSelectedProjection(answers[1..]);
      var rest := Lists.Filter(answers[1..], HasSelection);
      if HasSelection(answers[0]) {
        assert Lists.Filter(answers, HasSelection) == [answers[0]] + rest;
        assert ProjectAll([answers[0]] + rest) == [ToApiAnswer(answers[0])] + ProjectAll(rest);
      } else {
        assert Lists.Filter(answers, HasSelection) == rest;
      }
    }
  }
}

=== FILE: report_dialog.dfy ===
/** The dialog in which a student reports a problem with a question: the form, its two guards
    (the submit handler's and the submit button's), the reset on close and the Cancel button
    that skips it, and the question preview. */
module ReportDialog {
  import opened Wrappers
  import opened Text

  datatype Form = Form(open: bool, reportType: string, description: string)

  /** What is sent for a question: the problem type and the trimmed description. */
  datatype Report = Report(reportType: string, description: string)

  /** The payload `handleSubmit` sends, or `None` when its guard
      `!reportType || !description.trim()` stops it. */
  function Payload(f: Form): (r: Option<Report>)
    ensures r.None? <==> f.reportType == [] || IsBlank(f.description)
    ensures r.Some? ==> r.value.reportType == f.reportType && r.value.description != []
    ensures r.Some? ==> r.value.description == Trim(f.description)
  {
    if f.reportType == [] || IsBlank(f.description) then None
    else Some(Report(f.reportType, Trim(f.description)))
  }

  /** The description sent is the typed one without its surrounding white space: what is cut
      off at either end is white space, and what is left starts and ends with a visible
      character. */
  lemma SentDescriptionIsTrimmed(f: Form)
    requires Payload(f).Some?
    ensures var d, s := Payload(f).value.description, f.description;
      && (exists i, j ::
            && 0 <= i <= j <= |s| && d == s[i..j]
            && (forall k :: 0 <= k < i ==> IsWhitespace(s[k]))
            && (forall k :: j <= k < |s| ==> IsWhitespace(s[k])))
      && !IsWhitespace(d[0]) && !IsWhitespace(d[|d| - 1])
  {
    TrimStripsWhitespace(f.description);
  }

  /** The form after `handleSubmit`: unchanged when the guard stops it or the request fails;
      closed and cleared after a successful request. */
  function AfterSubmit(f: Form, requestSucceeded: bool): (r: Form)
    ensures Payload(f).None? || !requestSucceeded ==> r == f
    ensures Payload(f).Some? && requestSucceeded ==> !r.open && r.reportType == [] && r.description == []
  {
    if Payload(f).Some? && requestSucceeded then Form(false, [], []) else f
  }

  /** `handleOpenChange(newOpen)`: closing clears the form, opening keeps it. */
  function OpenChange(f: Form, newOpen: bool): (r: Form)
    ensures r.open == newOpen
    ensures !newOpen ==> r.reportType == [] && r.description == []
    ensures newOpen ==> r.reportType == f.reportType && r.description == f.description
  {
    if newOpen then f.(open := true) else Form(false, [], [])
  }

  /** The Cancel button as written: `setOpen(false)` closes the dialog without going through
      `handleOpenChange`, so the type and description stay in the form. */
  function Cancel(f: Form): (r: Form)
    ensures !r.open
    ensures r.reportType == f.reportType && r.description == f.description
  {
    f.(open := false)
  }

  /** A draft survives Cancel: reopening the dialog and submitting sends what was typed before
      the dialog was cancelled. */
  lemma CancelKeepsDraft(f: Form)
    ensures Payload(Cancel(f)) == Payload(f)
    ensures Payload(OpenChange(Cancel(f), true)) == Payload(f)
    ensures var g := Form(true, "WRONG_ANSWER", "wrong");
      Payload(OpenChange(Cancel(g), true)) == Some(Report("WRONG_ANSWER", "wrong"))
  {
    var d := "wrong";
    assert LeadingSpace(d) == 0;
    assert TrailingSpace(d) == 0;
    assert Trim(d) == d;
  }

  /** Cancel with the reset every other close performs: the same as closing through
      `handleOpenChange`. */
  function CancelCorrected(f: Form): (r: Form)
    ensures !r.open && r.reportType == [] && r.description == []
  {
    OpenChange(f, false)
  }

  /** A form that was closed or successfully sent has nothing to send until it is filled again. */
  lemma ClearedFormSendsNothing(f: Form, requestSucceeded: bool)
    ensures Payload(OpenChange(f, false)).None?
    ensures Payload(CancelCorrected(f)).None?
    ensures Payload(OpenChange(CancelCorrected(f), true)).None?
    ensures Payload(f).Some? && requestSucceeded ==> Payload(AfterSubmit(f, requestSucceeded)).None?
  {
  }

  /** The submit button: enabled when nothing is being sent, a type is chosen and the trimmed
      description is at least 10 UTF-16 code units long. */
  predicate SubmitEnabled(f: Form, submitting: bool): (b: bool)
    ensures b ==> !submitting && Payload(f).Some?
    ensures b <==> !submitting && Payload(f).Some? && Utf16Length(Payload(f).value.description) >= 10
  {
    !submitting && f.reportType != [] && !IsBlank(f.description) && Utf16Length(Trim(f.description)) >= 10
  }

  /** The button is stricter than the handler: whenever it can be pressed, the handler sends a
      report whose description is at least 10 code units, so at least 5 characters, long. */
  lemma EnabledButtonSends(f: Form, submitting: bool)
    requires SubmitEnabled(f, submitting)
    ensures Payload(f).Some? && Utf16Length(Payload(f).value.description) >= 10
    ensures |Payload(f).value.description| >= 5
  {
  }

  /** The length counts code units: five characters outside the Basic Multilingual Plane are
      ten units and enable the button. */
  lemma AstralDescriptionEnablesButton(f: Form)
    requires f.reportType != [] && f.description == "\U{1f3e5}\U{1f3e5}\U{1f3e5}\U{1f3e5}\U{1f3e5}"
    ensures SubmitEnabled(f, false)
    ensures |Trim(f.description)| == 5
  {
    var d := f.description;
    assert LeadingSpace(d) == 0;
    assert TrailingSpace(d) == 0;
    assert Trim(d) == d;
    NotBlankWithVisibleChar(d, 0);
    Utf16LengthOfAstral(d);
  }

  /** A description of fewer than 10 visible characters keeps the button disabled even though
      the handler would send it. */
  lemma ShortDescriptionDisablesButton(f: Form, submitting: bool)
    requires f.reportType != [] && f.description == "too short"
    ensures Payload(f).Some?
    ensures !SubmitEnabled(f, submitting)
  {
    var d := f.description;
    assert !IsWhitespace(d[0]);
    NotBlankWithVisibleChar(d, 0);
    assert InBmp(d);
    Utf16LengthOfBmp(d);
    TrimNeverLengthens(d);
  }

  const PreviewLimit: nat := 200

  /** The preview of the question text: its first 200 characters followed by `...` when it is
      longer, the text itself when it is not empty, a fixed notice otherwise. */
  function Preview(questionText: Option<string>): (r: string)
    ensures r != []
    ensures |r| <= PreviewLimit + 3
    ensures questionText.Some? && |questionText.value| > PreviewLimit ==>
      |r| == PreviewLimit + 3 && r[..PreviewLimit] == questionText.value[..PreviewLimit]
      && r[PreviewLimit..] == "..."
    ensures questionText.Some? && 0 < |questionText.value| <= PreviewLimit ==> r == questionText.value
    ensures questionText.None? || questionText.value == [] ==> r == "Question text not available"
  {
    if questionText.Some? && |questionText.value| > PreviewLimit then
      questionText.value[..PreviewLimit] + "..."
    else if questionText.Some? && questionText.value != [] then questionText.value
    else "Question text not available"
  }
}

=== FILE: sorting.dfy ===
/** `xs.sort((a, b) => key(b) - key(a))`: a stable sort into non-increasing key order. */
module Sorting {

  predicate SortedDesc<T>(s: seq<T>, key: T -> int)
  {
    forall i, j :: 0 <= i < j < |s| ==> key(s[i]) >= key(s[j])
  }

  /** Places `x` in front of the first element whose key is not larger, so elements that were
      already in place keep their relative order. */
  function Insert<T>(x: T, s: seq<T>, key: T -> int): (r: seq<T>)
    requires SortedDesc(s, key)
    ensures SortedDesc(r, key)
    ensures multiset(r) == multiset(s) + multiset{x}
    ensures |r| == |s| + 1
    ensures r[0] == x || (s != [] && r[0] == s[0])
  {
    if s == [] || key(x) >= key(s[0]) then
      PrependSorted(x, s, key);
      [x] + s
    else
      var rest := Insert(x, s[1..], key);
      PrependSorted(s[0], rest, key);
      assert s == [s[0]] + s[1..];
      [s[0]] + rest
  }

  /** An element no smaller than the head of a sorted sequence can go in front of it. */
  lemma PrependSorted<T>(h: T, s: seq<T>, key: T -> int)
    requires SortedDesc(s, key) && (s == [] || key(h) >= key(s[0]))
    ensures SortedDesc([h] + s, key)
  {
  }

  /** The elements of `s` whose key is `k`, in their order in `s`. */
  function WithKey<T>(s: seq<T>, key: T -> int, k: int): seq<T>
  {
    if s == [] then [] else (if key(s[0]) == k then [s[0]] else []) + WithKey(s[1..], key, k)
  }

  /** Inserting `x` puts it in front of every element with the same key and keeps their order. */
  lemma {:induction false} InsertWithKey<T>(x: T, s: seq<T>, key: T -> int, k: int)
    requires SortedDesc(s, key)
    ensures WithKey(Insert(x, s, key), key, k) == (if key(x) == k then [x] else []) + WithKey(s, key, k)
  {
    var r := Insert(x, s, key);
    if s == [] || key(x) >= key(s[0]) {
      assert r == [x] + s;
      assert r[0] == x && r[1..] == s;
    } else {
      var rest := Insert(x, s[1..], key);
      assert r == [s[0]] + rest;
      assert r[1..] == rest;
      InsertWithKey(x, s[1..], key, k);
      var head := if key(s[0]) == k then [s[0]] else [];
      assert WithKey(r, key, k) == head + WithKey(rest, key, k);
      assert WithKey(s, key, k) == head + WithKey(s[1..], key, k);
      if key(x) == k {
        assert head == [];
        assert WithKey(r, key, k) == [x] + WithKey(s[1..], key, k);
        assert WithKey(s, key, k) == WithKey(s[1..], key, k);
      } else {
        assert WithKey(r, key, k) == head + WithKey(s[1..], key, k);
      }
    }
  }

  /** Sorting is stable: the elements sharing a key come out in their input order. */
  lemma {:induction false} SortDescIsStable<T>(xs: seq<T>, key: T -> int, k: int)
    ensures WithKey(SortDesc(xs, key), key, k) == WithKey(xs, key, k)
  {
    if xs != [] {
      SortDescIsStable(xs[1..], key, k);
      InsertWithKey(xs[0], SortDesc(xs[1..], key), key, k);
    }
  }

  /** The sorted permutation of `xs`; `SortDescIsStable` shows it keeps equal keys in order. */
  function SortDesc<T>(xs: seq<T>, key: T -> int): (r: seq<T>)
    ensures SortedDesc(r, key)
    ensures multiset(r) == multiset(xs)
    ensures |r| == |xs|
  {
    if xs == [] then []
    else
      assert xs == [xs[0]] + xs[1..];
      Insert(xs[0], SortDesc(xs[1..], key), key)
  }
}

=== FILE: study_streak.dfy ===
/** The study-streak card: the message and colour bands of the current streak, this week's
    session count against the goal of five sessions, and the countdown to the next bonus. */
module StudyStreak {

  datatype WeekStat = WeekStat(week: string, sessionsCompleted: int)

  const WeeklyGoal: int := 5

  /** `getStreakMessage(streak)` */
  function StreakMessage(streak: int): (r: string)
    ensures streak == 0 <==> r == "Start your streak today!"
    ensures streak == 1 <==> r == "Great start! Keep it going"
    ensures streak >= 30 <==> r == "Incredible dedication!"
    ensures 7 <= streak < 30 <==> r == "Excellent consistency!"
    ensures (streak < 7 && streak != 0 && streak != 1) <==> r == "Building momentum!"
  {
    if streak == 0 then "Start your streak today!"
    else if streak == 1 then "Great start! Keep it going"
    else if streak < 7 then "Building momentum!"
    else if streak < 30 then "Excellent consistency!"
    else "Incredible dedication!"
  }

  /** `getStreakColor(streak)` */
  function StreakColor(streak: int): (r: string)
    ensures streak == 0 <==> r == "text-muted-foreground"
    ensures streak >= 30 <==> r == "text-chart-5"
    ensures (streak < 7 && streak != 0) <==> r == "text-chart-3"
    ensures 7 <= streak < 30 <==> r == "text-chart-2"
  {
    if streak == 0 then "text-muted-foreground"
    else if streak < 7 then "text-chart-3"
    else if streak < 30 then "text-chart-2"
    else "text-chart-5"
  }

  /** The colour bands are coarser than the message bands: two streaks with the same message
      have the same colour. */
  lemma SameMessageSameColor(a: int, b: int)
    requires StreakMessage(a) == StreakMessage(b)
    ensures StreakColor(a) == StreakColor(b)
  {
  }

  /** Both bandings are constant from 30 days on. */
  lemma BandsSettleAtThirty(a: int, b: int)
    requires a >= 30 && b >= 30
    ensures StreakMessage(a) == StreakMessage(b) && StreakColor(a) == StreakColor(b)
  {
  }

  /** `weeklyStats.length > 0 ? weeklyStats[weeklyStats.length - 1].sessionsCompleted : 0` */
  function ThisWeekSessions(weeklyStats: seq<WeekStat>): (r: int)
    ensures weeklyStats == [] ==> r == 0
    ensures weeklyStats != [] ==> r == weeklyStats[|weeklyStats| - 1].sessionsCompleted
  {
    if |weeklyStats| > 0 then weeklyStats[|weeklyStats| - 1].sessionsCompleted else 0
  }

  /** `Math.min((sessions / 5) * 100, 100)`, also the analytics page's weekly goal. */
  function WeeklyProgress(sessions: int): (r: real)
    ensures r <= 100.0
    ensures sessions >= WeeklyGoal ==> r == 100.0
    ensures sessions < WeeklyGoal ==> r == sessions as real * 20.0
    ensures sessions >= 0 ==> r >= 0.0
  {
    var p := (sessions as real / WeeklyGoal as real) * 100.0;
    if p < 100.0 then p else 100.0
  }

  /** More sessions never show less progress. */
  lemma WeeklyProgressMonotone(a: int, b: int)
    requires a <= b
    ensures WeeklyProgress(a) <= WeeklyProgress(b)
  {
  }

  /** The streak-bonus banner: hidden without a streak, otherwise the days left to the weekly
      (7-day) or monthly (30-day) bonus, or the champion message from 30 days on. */
  datatype Bonus = Hidden | WeeklyBonus(daysLeft: int) | MonthlyBonus(daysLeft: int) | Champion

  function BonusBanner(streak: int): (r: Bonus)
    ensures streak <= 0 <==> r.Hidden?
    ensures r.WeeklyBonus? ==> r.daysLeft > 0 && streak + r.daysLeft == 7
    ensures r.MonthlyBonus? ==> r.daysLeft > 0 && streak + r.daysLeft == 30
    ensures streak >= 30 <==> r.Champion?
  {
    if streak <= 0 then Hidden
    else if streak < 7 then WeeklyBonus(7 - streak)
    else if streak < 30 then MonthlyBonus(30 - streak)
    else Champion
  }

  /** A positive streak is always working towards the nearest bonus it has not reached. */
  lemma BonusIsNearestMilestone(streak: int)
    requires 0 < streak < 30
    ensures var b := BonusBanner(streak);
      (b.WeeklyBonus? || b.MonthlyBonus?) && streak + b.daysLeft == (if streak < 7 then 7 else 30)
  {
  }

  /** `streak === 1 ? 'day' : 'days'` */
  function DayWord(streak: int): (r: string)
    ensures r == "day" <==> streak == 1
    ensures r == "day" || r == "days"
  {
    if streak == 1 then "day" else "days"
  }
}

=== FILE: subscription_card.dfy ===
/** The subscription card of the student dashboard. `daysLeft` is the whole number of days from
    now to the expiry date (a calendar difference the caller computes); everything on the card is
    decided from it and from the subscription's two flags. */
module SubscriptionCard {
  import opened Wrappers

  datatype CardSubscription = CardSubscription(pack: string, isActive: bool, isFree: bool)

  const TotalDays: int := 365

  predicate IsExpired(daysLeft: int) { daysLeft <= 0 }

  predicate IsExpiringSoon(daysLeft: int) { 0 < daysLeft <= 30 }

  /** A subscription is never both expired and expiring soon. */
  lemma ExpiryStatesExclusive(daysLeft: int)
    ensures !(IsExpired(daysLeft) && IsExpiringSoon(daysLeft))
    ensures !IsExpired(daysLeft) && !IsExpiringSoon(daysLeft) <==> daysLeft > 30
  {
  }

  /** `max(0, min(100, (365 - daysLeft) / 365 * 100))`: the share of a year already used. */
  function Progress(daysLeft: int): (r: real)
    ensures 0.0 <= r <= 100.0
    ensures daysLeft >= TotalDays ==> r == 0.0
    ensures daysLeft <= 0 ==> r == 100.0
    ensures 0 <= daysLeft <= TotalDays ==> r * TotalDays as real == (TotalDays - daysLeft) as real * 100.0
  {
    var p := ((TotalDays - daysLeft) as real / TotalDays as real) * 100.0;
    var capped := if p < 100.0 then p else 100.0;
    if capped > 0.0 then capped else 0.0
  }

  /** Fewer days left never shows less progress. */
  lemma ProgressMonotone(a: int, b: int)
    requires a <= b
    ensures Progress(b) <= Progress(a)
  {
  }

  datatype Tone = Destructive | Warning | Success

  datatype Icon = AlertTriangle | Clock | Shield

  /** `getStatusColor()` */
  function StatusColor(daysLeft: int): (r: Tone)
    ensures r == Destructive <==> IsExpired(daysLeft)
    ensures r == Warning <==> IsExpiringSoon(daysLeft)
  {
    if IsExpired(daysLeft) then Destructive else if IsExpiringSoon(daysLeft) then Warning else Success
  }

  /** `getStatusIcon()` */
  function StatusIcon(daysLeft: int): (r: Icon)
    ensures r == AlertTriangle <==> IsExpired(daysLeft)
    ensures r == Clock <==> IsExpiringSoon(daysLeft)
  {
    if IsExpired(daysLeft) then AlertTriangle else if IsExpiringSoon(daysLeft) then Clock else Shield
  }

  function IconOfTone(t: Tone): Icon
  {
    match t
    case Destructive => AlertTriangle
    case Warning => Clock
    case Success => Shield
  }

  /** The icon follows the colour: both are chosen by the same priority. */
  lemma IconFollowsColor(daysLeft: int)
    ensures StatusIcon(daysLeft) == IconOfTone(StatusColor(daysLeft))
  {
  }

  /** The label of the main button. */
  function ButtonLabel(sub: CardSubscription, daysLeft: int): (r: string)
    ensures IsExpired(daysLeft) || IsExpiringSoon(daysLeft) <==> r == "Renew Now"
    ensures r == "Upgrade Plan" <==> !IsExpired(daysLeft) && !IsExpiringSoon(daysLeft) && sub.isFree
    ensures r == "Manage Plan" <==> daysLeft > 30 && !sub.isFree
  {
    if IsExpired(daysLeft) || IsExpiringSoon(daysLeft) then "Renew Now"
    else if sub.isFree then "Upgrade Plan"
    else "Manage Plan"
  }

  /** The status banners under the figures, one flag per banner. */
  datatype Banners = Banners(expiringSoon: bool, expired: bool, allAccess: bool, freePlan: bool)

  /** The "All Access Active" guard as written: active, not expiring soon, not free. */
  predicate AllAccessAsWritten(sub: CardSubscription, daysLeft: int)
  {
    sub.isActive && !IsExpiringSoon(daysLeft) && !sub.isFree
  }

  /** The banners as the card decides them: one flag per banner, each with its own guard. */
  function WrittenBanners(sub: CardSubscription, daysLeft: int): (r: Banners)
    ensures r.expiringSoon <==> 0 < daysLeft <= 30
    ensures r.expired <==> daysLeft <= 0
    ensures r.allAccess <==> sub.isActive && !sub.isFree && !(0 < daysLeft <= 30)
    ensures r.freePlan <==> sub.isActive && sub.isFree
    ensures !(r.expiringSoon && r.expired) && !(r.expiringSoon && r.allAccess) && !(r.allAccess && r.freePlan)
  {
    Banners(IsExpiringSoon(daysLeft), IsExpired(daysLeft), AllAccessAsWritten(sub, daysLeft), sub.isActive && sub.isFree)
  }

  /** The written guard lets the banner appear next to "Subscription Expired": an active paid
      subscription whose expiry falls later today has zero whole days left, and the card shows
      both banners. */
  lemma AllAccessShownWhenExpired()
    ensures var sub := CardSubscription("Annual Pack", true, false);
      && AllAccessAsWritten(sub, 0) && IsExpired(0)
      && Render(Some(sub), 0).banners.expired && Render(Some(sub), 0).banners.allAccess
  {
  }

  /** The guard with the expired case excluded. */
  predicate AllAccess(sub: CardSubscription, daysLeft: int)
  {
    sub.isActive && !IsExpired(daysLeft) && !IsExpiringSoon(daysLeft) && !sub.isFree
  }

  function StatusBanners(sub: CardSubscription, daysLeft: int): (r: Banners)
    ensures r.allAccess ==> sub.isActive && !r.freePlan && !r.expired && !r.expiringSoon
    ensures r.freePlan ==> sub.isActive && !r.allAccess
    ensures r.expired ==> !r.expiringSoon && !r.allAccess
    ensures r.allAccess <==> sub.isActive && !sub.isFree && daysLeft > 30
  {
    Banners(IsExpiringSoon(daysLeft), IsExpired(daysLeft), AllAccess(sub, daysLeft), sub.isActive && sub.isFree)
  }

  /** The corrected guard differs from the written one exactly on expired subscriptions. */
  lemma AllAccessCorrectionOnlyWhenExpired(sub: CardSubscription, daysLeft: int)
    ensures AllAccess(sub, daysLeft) != AllAccessAsWritten(sub, daysLeft) <==>
      AllAccessAsWritten(sub, daysLeft) && IsExpired(daysLeft)
  {
  }

  /** What the card shows: the empty-state card without a subscription, else its status. */
  datatype View =
    | NoSubscription(title: string, action: string)
    | Status(color: Tone, icon: Icon, progress: real, banners: Banners, button: string)

  function Render(sub: Option<CardSubscription>, daysLeft: int): (r: View)
    ensures sub.None? <==> r.NoSubscription?
    ensures r.Status? ==> r.icon == IconOfTone(r.color) && 0.0 <= r.progress <= 100.0
    ensures r.Status? ==> (r.button == "Renew Now" <==> r.color != Success)
    ensures r.Status? ==> (r.banners.expired <==> r.color == Destructive)
    ensures r.Status? ==> (r.banners.expiringSoon <==> r.color == Warning)
    ensures r.Status? ==> (r.banners.allAccess <==> sub.value.isActive && !sub.value.isFree && r.color != Warning)
  {
    match sub
    case None => NoSubscription("No Active Subscription", "View Subscription Plans")
    case Some(s) =>
      Status(StatusColor(daysLeft), StatusIcon(daysLeft), Progress(daysLeft), WrittenBanners(s, daysLeft),
             ButtonLabel(s, daysLeft))
  }

  /** The card with the corrected "All Access Active" guard: it never shows next to
      "Subscription Expired", and it differs from the card as written exactly when the written
      guard admits an expired subscription. */
  function RenderCorrected(sub: Option<CardSubscription>, daysLeft: int): (r: View)
    ensures sub.None? <==> r.NoSubscription?
    ensures r.Status? ==> !(r.banners.expired && r.banners.allAccess)
    ensures r != Render(sub, daysLeft) <==> sub.Some? && AllAccessAsWritten(sub.value, daysLeft) && IsExpired(daysLeft)
  {
    var v := Render(sub, daysLeft);
    if v.Status? then
      AllAccessCorrectionOnlyWhenExpired(sub.value, daysLeft);
      v.(banners := StatusBanners(sub.value, daysLeft))
    else v
  }
}

=== FILE: subscription_hook.dfy ===
/** The subscription utilities of the subscription hook: whether a subscription is in force, its
    status, the days until it expires, its type label and its list of benefits. Dates are integer
    milliseconds and the current time is an input. */
module SubscriptionHook {
  import Text

  const DayMillis: int := 1000 * 60 * 60 * 24

  datatype UserSubscription = UserSubscription(isActive: bool, expiryDate: int, subscriptionType: string)

  datatype Status = Active | Expired | Trial | Cancelled

  /** `Math.ceil(a / b)` for a positive divisor. */
  function CeilDiv(a: int, b: int): (r: int)
    requires b > 0
    ensures (r - 1) * b < a <= r * b
  {
    -((-a) / b)
  }

  /** `isSubscriptionActive(subscription)`: in force exactly while at least a started day is
      left. */
  predicate IsSubscriptionActive(sub: UserSubscription, now: int): (b: bool)
    ensures b <==> sub.isActive && DaysUntilExpiry(sub, now) > 0
  {
    sub.isActive && sub.expiryDate > now
  }

  /** `Math.ceil((expiry - now) / day)` */
  function DaysDiff(sub: UserSubscription, now: int): int
  {
    CeilDiv(sub.expiryDate - now, DayMillis)
  }

  /** `getSubscriptionStatus(subscription)` */
  function SubscriptionStatus(sub: UserSubscription, now: int): (r: Status)
    ensures !sub.isActive <==> r == Cancelled
    ensures r == Expired <==> sub.isActive && sub.expiryDate <= now
    ensures r == Trial ==> sub.subscriptionType == "trial"
  {
    if !sub.isActive then Cancelled
    else if sub.expiryDate <= now then Expired
    else if DaysDiff(sub, now) <= 7 && sub.subscriptionType == "trial" then Trial
    else Active
  }

  /** `getDaysUntilExpiry(subscription)`: whole days left, a started day counting as one. */
  function DaysUntilExpiry(sub: UserSubscription, now: int): (r: nat)
    ensures r == 0 <==> sub.expiryDate <= now
    ensures r > 0 ==> (r - 1) * DayMillis < sub.expiryDate - now <= r * DayMillis
  {
    var d := DaysDiff(sub, now);
    if d > 0 then d else 0
  }

  /** The status is active or trial exactly when the subscription is in force. */
  lemma StatusAgreesWithActive(sub: UserSubscription, now: int)
    ensures SubscriptionStatus(sub, now) in {Active, Trial} <==> IsSubscriptionActive(sub, now)
  {
  }

  /** A trial is reported exactly for an in-force trial subscription with at most seven days to
      go, counted as the days-until-expiry figure counts them. */
  lemma TrialIffLastWeekOfTrial(sub: UserSubscription, now: int)
    ensures SubscriptionStatus(sub, now) == Trial <==>
      IsSubscriptionActive(sub, now) && sub.subscriptionType == "trial" && DaysUntilExpiry(sub, now) <= 7
  {
  }

  /** An expiry a whole number of days away is that many days away. */
  lemma DaysUntilExpiryOfWholeDays(sub: UserSubscription, now: int, days: nat)
    requires sub.expiryDate == now + days * DayMillis
    ensures DaysUntilExpiry(sub, now) == days
  {
    assert (-(days * DayMillis)) / DayMillis == -(days as int);
  }

  predicate IsKnownType(t: string)
  {
    t == "year_pack" || t == "residency_pack" || t == "premium" || t == "basic" || t == "trial"
  }

  /** `type.charAt(0).toUpperCase() + type.slice(1)` */
  function Capitalise(t: string): (r: string)
    ensures |r| == |t|
    ensures t != [] ==> r[0] == Text.UpperChar(t[0]) && r[1..] == t[1..]
  {
    if t == [] then [] else Text.ToUpper(t[..1]) + t[1..]
  }

  /** `getSubscriptionTypeLabel(type)` */
  function TypeLabel(t: string): (r: string)
    ensures t == "year_pack" ==> r == "Annual Pack"
    ensures t == "residency_pack" ==> r == "Residency Pack"
    ensures t == "premium" ==> r == "Premium"
    ensures t == "basic" ==> r == "Basic"
    ensures t == "trial" ==> r == "Free Trial"
    ensures !IsKnownType(t) ==> r == Capitalise(t)
  {
    match t
    case "year_pack" => "Annual Pack"
    case "residency_pack" => "Residency Pack"
    case "premium" => "Premium"
    case "basic" => "Basic"
    case "trial" => "Free Trial"
    case _ => Capitalise(t)
  }

  /** Only the empty type has an empty label, and an unknown type keeps all but its first
      character. */
  lemma TypeLabelEmptyOnlyForEmpty(t: string)
    ensures TypeLabel(t) == [] <==> t == []
    ensures !IsKnownType(t) && t != [] ==> TypeLabel(t)[1..] == t[1..]
  {
  }

  /** An unknown type whose spelling is already capitalised can show the label of a known one:
      `Premium` reads the same as `premium`. */
  lemma CapitalisedUnknownTypeCollides()
    ensures !IsKnownType("Premium") && TypeLabel("Premium") == TypeLabel("premium")
  {
    assert Text.UpperChar('P') == 'P';
    assert TypeLabel("Premium") == Text.ToUpper("P") + "remium";
  }

  const DefaultBenefits: seq<string> := ["Access to selected content"]

  /** `getSubscriptionBenefits(type)` */
  function Benefits(t: string): (r: seq<string>)
    ensures |r| >= 1
    ensures (t == "year_pack" || t == "residency_pack" || t == "premium") ==> |r| == 5
    ensures t == "basic" ==> |r| == 3
    ensures r == DefaultBenefits <==> !(t == "year_pack" || t == "residency_pack" || t == "premium" || t == "basic")
  {
    match t
    case "year_pack" =>
      ["Access to all study packs", "Unlimited quiz attempts", "Progress tracking", "Download resources", "Priority support"]
    case "residency_pack" =>
      ["Residency exam preparation", "Specialized content", "Mock exams", "Performance analytics", "Expert guidance"]
    case "premium" =>
      ["All premium content", "Advanced analytics", "Personalized recommendations", "Offline access", "24/7 support"]
    case "basic" =>
      ["Basic study materials", "Limited quiz attempts", "Basic progress tracking"]
    case _ => DefaultBenefits
  }

  /** A trial has a label of its own but the default list of benefits. */
  lemma TrialHasDefaultBenefits()
    ensures Benefits("trial") == DefaultBenefits && TypeLabel("trial") == "Free Trial"
  {
  }
}

=== FILE: subscriptions_page.dfy ===
/** The subscriptions page: loading the list out of the response envelope, splitting it into
    current and past subscriptions, and each card's active flag, progress and badges. Dates are
    integer milliseconds. */
module SubscriptionsPage {
  import opened Wrappers
  import Lists
  import Js
  import Badge
  import SubscriptionHook

  // ---------------------------------------------------------------------------------------
  // Loading

  /** The service's answer: its success flag, payload and error text. */
  datatype Response = Response(success: bool, data: Js.Json, error: Option<string>)

  /** A request either answers or throws. */
  datatype Fetch = Answered(response: Response) | Threw(message: string)

  const LoadFailed: string := "Failed to load subscription data"
  const RequestFailed: string := "Failed to load subscriptions"

  /** `response.data.data?.data || response.data.data || response.data || []`, kept only when it
      is a non-empty array. */
  function SubscriptionItems(data: Js.Json): (r: seq<Js.Json>)
    ensures Js.Unwrap(data).Arr? ==> r == Js.Unwrap(data).items
    ensures !Js.Unwrap(data).Arr? ==> r == []
  {
    var payload := Js.Or(Js.Unwrap(data), Js.Arr([]));
    if payload.Arr? && |payload.items| > 0 then payload.items else []
  }

  /** `loadSubscriptions()`: the list, or the error message shown instead. A successful load
      keeps the items of the unwrapped payload when it is an array and is empty otherwise. */
  function Load(f: Fetch): (r: Result<seq<Js.Json>>)
    ensures r.Err? ==> r.message != []
    ensures f.Answered? ==> (r.Ok? <==> f.response.success && Js.Truthy(f.response.data))
    ensures f.Answered? && r.Ok? && Js.Unwrap(f.response.data).Arr? ==>
      r.value == Js.Unwrap(f.response.data).items
    ensures f.Answered? && r.Ok? && !Js.Unwrap(f.response.data).Arr? ==> r.value == []
    ensures f.Threw? ==> r == Err(if f.message != [] then f.message else RequestFailed)
    ensures f.Answered? && r.Err? && f.response.error.Some? && f.response.error.value != [] ==>
      r.message == f.response.error.value
    ensures f.Answered? && r.Err? && (f.response.error.None? || f.response.error.value == []) ==>
      r.message == LoadFailed
  {
    match f
    case Threw(m) => Err(if m != [] then m else RequestFailed)
    case Answered(resp) =>
      if resp.success && Js.Truthy(resp.data) then Ok(SubscriptionItems(resp.data))
      else Err(if resp.error.Some? && resp.error.value != [] then resp.error.value else LoadFailed)
  }

  /** The list is found at any depth of the envelope, and the `|| []` fallback never decides:
      a truthy payload unwraps to a truthy value. */
  lemma LoadFindsListInEnvelope(items: seq<Js.Json>)
    requires items != []
    ensures Load(Answered(Response(true, Js.Arr(items), None))) == Ok(items)
    ensures Load(Answered(Response(true, Js.Envelope(Js.Arr(items)), None))) == Ok(items)
    ensures Load(Answered(Response(true, Js.Envelope(Js.Envelope(Js.Arr(items))), None))) == Ok(items)
  {
    Js.UnwrapBare(Js.Arr(items));
    Js.UnwrapSingleEnvelope(Js.Arr(items));
    Js.UnwrapDoubleEnvelope(Js.Arr(items));
  }

  /** A successful answer whose payload is not an array, or is an empty one, gives no
      subscriptions rather than an error. */
  lemma NonArrayPayloadGivesEmptyList(data: Js.Json)
    requires Js.Truthy(data) && !Js.Unwrap(data).Arr?
    ensures Load(Answered(Response(true, data, None))) == Ok([])
  {
  }

  // ---------------------------------------------------------------------------------------
  // The list and its cards

  datatype Subscription = Subscription(
    id: int, status: string, isActive: bool, daysRemaining: Option<int>,
    startDate: int, endDate: int, packType: string)

  predicate IsCurrent(s: Subscription) { s.status == "ACTIVE" }

  /** The current subscriptions, then the past ones. */
  function Current(subs: seq<Subscription>): seq<Subscription> { Lists.Filter(subs, IsCurrent) }

  function Past(subs: seq<Subscription>): seq<Subscription> { Lists.Reject(subs, IsCurrent) }

  /** The two lists split the subscriptions: each one lands in exactly one list, in its original
      order, and none is lost or repeated. */
  lemma SplitIsPartition(subs: seq<Subscription>)
    ensures forall i :: 0 <= i < |Current(subs)| ==> Current(subs)[i].status == "ACTIVE"
    ensures forall i :: 0 <= i < |Past(subs)| ==> Past(subs)[i].status != "ACTIVE"
    ensures multiset(Current(subs)) + multiset(Past(subs)) == multiset(subs)
    ensures Lists.IsSubsequence(Current(subs), subs)
    ensures Lists.IsSubsequence(Past(subs), subs)
  {
    Lists.PartitionIsComplete(subs, IsCurrent);
    Lists.FilterIsSubsequence(subs, IsCurrent);
    Lists.RejectIsSubsequence(subs, IsCurrent);
  }

  /** `subscription.status === 'ACTIVE' && subscription.isActive` */
  predicate CardIsActive(s: Subscription)
  {
    s.status == "ACTIVE" && s.isActive
  }

  /** A JavaScript number: the progress division can meet a zero-day subscription. */
  datatype JsNumber = Finite(value: real) | PosInfinity | NegInfinity | NaN

  /** `Math.min(100, x)` */
  function Min100(x: JsNumber): (r: JsNumber)
    ensures r.Finite? ==> r.value <= 100.0
    ensures x.Finite? && x.value <= 100.0 ==> r == x
    ensures (x.Finite? && x.value >= 100.0) || x.PosInfinity? ==> r == Finite(100.0)
    ensures x.NegInfinity? || x.NaN? ==> r == x
  {
    match x
    case Finite(v) => if v < 100.0 then x else Finite(100.0)
    case PosInfinity => Finite(100.0)
    case NegInfinity => NegInfinity
    case NaN => NaN
  }

  /** `(totalDays - daysRemaining) / totalDays * 100` */
  function UsedShare(totalDays: int, daysRemaining: int): JsNumber
  {
    var used := totalDays - daysRemaining;
    if totalDays != 0 then Finite((used as real / totalDays as real) * 100.0)
    else if used > 0 then PosInfinity
    else if used < 0 then NegInfinity
    else NaN
  }

  /** `Math.ceil((end - start) / day)` */
  function TotalDays(s: Subscription): int
  {
    SubscriptionHook.CeilDiv(s.endDate - s.startDate, SubscriptionHook.DayMillis)
  }

  /** `subscription.daysRemaining || 0` */
  function DaysRemaining(s: Subscription): int
  {
    if s.daysRemaining.Some? then s.daysRemaining.value else 0
  }

  /** The card's progress: full for an inactive card, else the used share of its days. */
  function CardProgress(s: Subscription): (r: JsNumber)
    ensures !CardIsActive(s) ==> r == Finite(100.0)
    ensures r.Finite? ==> r.value <= 100.0
    ensures CardIsActive(s) && TotalDays(s) > 0 && 0 <= DaysRemaining(s) <= TotalDays(s) ==>
      r.Finite? && 0.0 <= r.value <= 100.0
      && r.value * TotalDays(s) as real == (TotalDays(s) - DaysRemaining(s)) as real * 100.0
  {
    if CardIsActive(s) then Min100(UsedShare(TotalDays(s), DaysRemaining(s))) else Finite(100.0)
  }

  /** An active card whose start and end dates coincide and that reports no remaining days
      shows a progress that is not a number. */
  lemma SameDayCardHasNoProgress(s: Subscription)
    requires CardIsActive(s) && s.endDate == s.startDate && DaysRemaining(s) == 0
    ensures CardProgress(s) == NaN
  {
  }

  /** `getStatusVariant(status, isActive)` */
  function StatusVariant(status: string, isActive: bool): (r: Badge.Variant)
    ensures !isActive ==> r == Badge.Secondary
    ensures isActive ==> (r == Badge.Default <==> status == "ACTIVE")
    ensures isActive ==> (r == Badge.Destructive <==> status == "EXPIRED")
    ensures isActive ==> (r == Badge.Outline <==> status == "CANCELLED")
  {
    if !isActive then Badge.Secondary
    else match status
      case "ACTIVE" => Badge.Default
      case "EXPIRED" => Badge.Destructive
      case "CANCELLED" => Badge.Outline
      case _ => Badge.Secondary
  }

  /** The card passes its own active flag, so only a current card gets the default badge and
      expired or cancelled cards always show the neutral one. */
  lemma CardStatusBadge(s: Subscription)
    ensures StatusVariant(s.status, CardIsActive(s)) == Badge.Default <==> CardIsActive(s)
    ensures s.status != "ACTIVE" ==> StatusVariant(s.status, CardIsActive(s)) == Badge.Secondary
  {
  }

  /** `getTypeVariant(type)` */
  function TypeVariant(t: string): (r: Badge.Variant)
    ensures r == Badge.Default <==> t == "YEAR"
    ensures r == Badge.Secondary <==> t == "RESIDENCY"
    ensures r == Badge.Default || r == Badge.Secondary || r == Badge.Outline
  {
    match t
    case "YEAR" => Badge.Default
    case "RESIDENCY" => Badge.Secondary
    case _ => Badge.Outline
  }
}

=== FILE: text.dfy ===
/** The JavaScript string operations the components rely on, over `seq<char>`:
    ASCII case mapping, `trim`, number formatting and parsing, `split` and `join`. */
module Text {
  import opened Wrappers

  predicate IsLowerAscii(c: char) { 'a' <= c <= 'z' }

  predicate IsUpperAscii(c: char) { 'A' <= c <= 'Z' }

  /** `toUpperCase` on one character, for the ASCII letters. */
  function UpperChar(c: char): (r: char)
    ensures !IsLowerAscii(r)
    ensures IsLowerAscii(c) ==> IsUpperAscii(r)
    ensures !IsLowerAscii(c) ==> r == c
  {
    if IsLowerAscii(c) then (c as int - 32) as char else c
  }

  /** `toLowerCase` on one character, for the ASCII letters. */
  function LowerChar(c: char): (r: char)
    ensures !IsUpperAscii(r)
    ensures IsUpperAscii(c) ==> IsLowerAscii(r)
    ensures !IsUpperAscii(c) ==> r == c
  {
    if IsUpperAscii(c) then (c as int + 32) as char else c
  }

  function ToUpper(s: string): (r: string)
    ensures |r| == |s|
    ensures forall i :: 0 <= i < |s| ==> r[i] == UpperChar(s[i])
  {
    if s == [] then [] else [UpperChar(s[0])] + ToUpper(s[1..])
  }

  function ToLower(s: string): (r: string)
    ensures |r| == |s|
    ensures forall i :: 0 <= i < |s| ==> r[i] == LowerChar(s[i])
  {
    if s == [] then [] else [LowerChar(s[0])] + ToLower(s[1..])
  }

  /** A string without ASCII upper-case letters comes back unchanged from upper- then lower-casing. */
  lemma LowerOfUpper(s: string)
    requires forall i :: 0 <= i < |s| ==> !IsUpperAscii(s[i])
    ensures ToLower(ToUpper(s)) == s
  {
    var r := ToLower(ToUpper(s));
    forall i | 0 <= i < |s|
      ensures r[i] == s[i]
    {
      LowerOfUpperChar(s[i]);
    }
  }

  lemma LowerOfUpperChar(c: char)
    requires !IsUpperAscii(c)
    ensures LowerChar(UpperChar(c)) == c
  {
  }

  /** Upper-casing ignores the case of the input: the comparison `x?.toUpperCase() === 'HIGH'`
      accepts every spelling. */
  lemma UpperOfLower(s: string)
    ensures ToUpper(ToLower(s)) == ToUpper(s)
  {
    var a := ToUpper(ToLower(s));
    var b := ToUpper(s);
    forall i | 0 <= i < |s|
      ensures a[i] == b[i]
    {
      if IsUpperAscii(s[i]) {
        assert ToLower(s)[i] == (s[i] as int + 32) as char;
      } else if IsLowerAscii(s[i]) {
        assert ToLower(s)[i] == s[i];
      }
    }
  }

  /** Lower-casing ignores the case of the input, so a lower-cased search term matches the same
      names whatever its spelling. */
  lemma LowerOfUpperIsLower(s: string)
    ensures ToLower(ToUpper(s)) == ToLower(s)
  {
    var a := ToLower(ToUpper(s));
    var b := ToLower(s);
    forall i | 0 <= i < |s|
      ensures a[i] == b[i]
    {
      if IsLowerAscii(s[i]) {
        assert ToUpper(s)[i] == (s[i] as int - 32) as char;
      } else if IsUpperAscii(s[i]) {
        assert ToUpper(s)[i] == s[i];
      }
    }
  }

  /** Upper-casing twice is upper-casing once. */
  lemma ToUpperIdempotent(s: string)
    ensures ToUpper(ToUpper(s)) == ToUpper(s)
  {
    UpperOfLower(ToUpper(s));
    var a := ToUpper(ToUpper(s));
    assert forall i :: 0 <= i < |s| ==> a[i] == ToUpper(s)[i];
  }

  /** The characters `String.prototype.trim` removes: the ECMAScript WhiteSpace and
      LineTerminator code points. */
  predicate IsWhitespace(c: char)
  {
    var n := c as int;
    n == 0x09 || n == 0x0A || n == 0x0B || n == 0x0C || n == 0x0D || n == 0x20
    || n == 0xA0 || n == 0x1680 || (0x2000 <= n <= 0x200A) || n == 0x2028 || n == 0x2029
    || n == 0x202F || n == 0x205F || n == 0x3000 || n == 0xFEFF
  }

  /** The number of white-space characters `s` starts with. */
  function LeadingSpace(s: string): (k: nat)
    ensures k <= |s|
    ensures forall i :: 0 <= i < k ==> IsWhitespace(s[i])
    ensures k == |s| || !IsWhitespace(s[k])
  {
    if s == [] || !IsWhitespace(s[0]) then 0 else 1 + LeadingSpace(s[1..])
  }

  /** The number of white-space characters `s` ends with. */
  function TrailingSpace(s: string): (k: nat)
    ensures k <= |s|
    ensures forall i :: |s| - k <= i < |s| ==> IsWhitespace(s[i])
    ensures k == |s| || !IsWhitespace(s[|s| - 1 - k])
  {
    if s == [] || !IsWhitespace(s[|s| - 1]) then 0 else 1 + TrailingSpace(s[..|s| - 1])
  }

  /** `s.trimStart()` */
  function TrimStart(s: string): (r: string)
    ensures |r| <= |s| && r == s[|s| - |r|..]
    ensures forall i :: 0 <= i < |s| - |r| ==> IsWhitespace(s[i])
    ensures r == [] || !IsWhitespace(r[0])
  {
    s[LeadingSpace(s)..]
  }

  /** `s.trimEnd()` */
  function TrimEnd(s: string): (r: string)
    ensures |r| <= |s| && r == s[..|r|]
    ensures forall i :: |r| <= i < |s| ==> IsWhitespace(s[i])
    ensures r == [] || !IsWhitespace(r[|r| - 1])
  {
    s[..|s| - TrailingSpace(s)]
  }

  /** `s.trim()` */
  function Trim(s: string): string
  {
    TrimEnd(TrimStart(s))
  }

  /** `!s.trim()`: the string is empty after trimming. */
  predicate IsBlank(s: string)
  {
    Trim(s) == []
  }

  /** Trimming the start of an all-white-space string leaves nothing. */
  lemma TrimStartOfWhitespace(s: string)
    requires forall i :: 0 <= i < |s| ==> IsWhitespace(s[i])
    ensures TrimStart(s) == []
  {
  }

  /** A string with a character other than white space is not blank. */
  lemma NotBlankWithVisibleChar(s: string, j: int)
    requires 0 <= j < |s| && !IsWhitespace(s[j])
    ensures !IsBlank(s)
  {
    var t := TrimStart(s);
    assert j >= |s| - |t|;
    assert |t| > 0;
    var u := TrimEnd(t);
    assert !IsWhitespace(t[0]);
    assert |u| > 0;
  }

  /** A string is blank exactly when every character is white space. */
  lemma BlankIffAllWhitespace(s: string)
    ensures IsBlank(s) <==> forall i :: 0 <= i < |s| ==> IsWhitespace(s[i])
  {
    if forall i :: 0 <= i < |s| ==> IsWhitespace(s[i]) {
      TrimStartOfWhitespace(s);
    } else {
      var j :| 0 <= j < |s| && !IsWhitespace(s[j]);
      NotBlankWithVisibleChar(s, j);
    }
  }

  /** The trimmed string is a contiguous piece of the input without white space at either end. */
  lemma TrimIsInnerSlice(s: string)
    ensures exists i, j :: 0 <= i <= j <= |s| && Trim(s) == s[i..j]
    ensures Trim(s) == [] || (!IsWhitespace(Trim(s)[0]) && !IsWhitespace(Trim(s)[|Trim(s)| - 1]))
  {
    var t := TrimStart(s);
    var u := TrimEnd(t);
    var i := |s| - |t|;
    assert u == s[i..i + |u|];
    if u != [] {
      assert u[0] == t[0];
    }
  }

  /** Trimming removes a white-space prefix and a white-space suffix and nothing else, and what
      is left starts and ends with a visible character. */
  lemma TrimStripsWhitespace(s: string)
    ensures exists i, j ::
      && 0 <= i <= j <= |s| && Trim(s) == s[i..j]
      && (forall k :: 0 <= k < i ==> IsWhitespace(s[k]))
      && (forall k :: j <= k < |s| ==> IsWhitespace(s[k]))
    ensures Trim(s) == [] || (!IsWhitespace(Trim(s)[0]) && !IsWhitespace(Trim(s)[|Trim(s)| - 1]))
  {
    TrimIsInnerSlice(s);
    var t := TrimStart(s);
    var u := TrimEnd(t);
    var i := |s| - |t|;
    var j := i + |u|;
    assert u == s[i..j];
    forall k | j <= k < |s|
      ensures IsWhitespace(s[k])
    {
      assert s[k] == t[k - i];
    }
  }

  /** `s.length`: JavaScript counts UTF-16 code units, two for a character outside the Basic
      Multilingual Plane. */
  function Utf16Length(s: string): (n: nat)
    ensures |s| <= n <= 2 * |s|
  {
    if s == [] then 0 else (if s[0] as int >= 0x10000 then 2 else 1) + Utf16Length(s[1..])
  }

  /** Every character of `s` lies in the Basic Multilingual Plane. */
  predicate InBmp(s: string)
  {
    forall i :: 0 <= i < |s| ==> s[i] as int < 0x10000
  }

  /** Without characters beyond the Basic Multilingual Plane, JavaScript's length is the number
      of characters. */
  lemma {:induction false} Utf16LengthOfBmp(s: string)
    requires InBmp(s)
    ensures Utf16Length(s) == |s|
  {
    if s != [] {
      assert InBmp(s[1..]) by {
        forall i | 0 <= i < |s[1..]| ensures s[1..][i] as int < 0x10000 {
          assert s[1..][i] == s[i + 1];
        }
      }
      Utf16LengthOfBmp(s[1..]);
    }
  }

  /** JavaScript's length of a concatenation is the sum of the lengths. */
  lemma {:induction false} Utf16LengthConcat(a: string, b: string)
    ensures Utf16Length(a + b) == Utf16Length(a) + Utf16Length(b)
  {
    if a == [] {
      assert a + b == b;
    } else {
      assert (a + b)[0] == a[0] && (a + b)[1..] == a[1..] + b;
      Utf16LengthConcat(a[1..], b);
    }
  }

  /** Trimming never makes a string longer, in code units. */
  lemma TrimNeverLengthens(s: string)
    ensures Utf16Length(Trim(s)) <= Utf16Length(s)
  {
    var t := TrimStart(s);
    var u := TrimEnd(t);
    assert s == s[..|s| - |t|] + t;
    assert t == u + t[|u|..];
    Utf16LengthConcat(s[..|s| - |t|], t);
    Utf16LengthConcat(u, t[|u|..]);
  }

  /** Characters beyond the Basic Multilingual Plane count twice. */
  lemma {:induction false} Utf16LengthOfAstral(s: string)
    requires forall i :: 0 <= i < |s| ==> s[i] as int >= 0x10000
    ensures Utf16Length(s) == 2 * |s|
  {
    if s != [] {
      assert forall i :: 0 <= i < |s[1..]| ==> s[1..][i] == s[i + 1];
      Utf16LengthOfAstral(s[1..]);
    }
  }

  predicate IsDigit(c: char) { '0' <= c <= '9' }

  predicate AllDigits(s: string) { forall i :: 0 <= i < |s| ==> IsDigit(s[i]) }

  function DigitChar(d: nat): (c: char)
    requires d < 10
    ensures IsDigit(c)
  {
    ('0' as int + d) as char
  }

  function DigitValue(c: char): nat
    requires IsDigit(c)
  {
    c as int - '0' as int
  }

  /** The decimal rendering of a natural number (`n.toString()`). */
  function NatToString(n: nat): (r: string)
    ensures |r| >= 1 && AllDigits(r)
    ensures n < 10 <==> |r| == 1
  {
    if n < 10 then [DigitChar(n)] else NatToString(n / 10) + [DigitChar(n % 10)]
  }

  /** The value of a non-empty run of decimal digits. */
  function DigitsValue(s: string): nat
    requires AllDigits(s)
  {
    if s == [] then 0 else DigitsValue(s[..|s| - 1]) * 10 + DigitValue(s[|s| - 1])
  }

  /** Reading a string of decimal digits back as a number; `None` when it is not one. */
  function ParseNat(s: string): Option<nat>
  {
    if s != [] && AllDigits(s) then Some(DigitsValue(s)) else None
  }

  /** Printing a number and reading it back gives the number. */
  lemma {:induction false} ParseNatToString(n: nat)
    ensures ParseNat(NatToString(n)) == Some(n)
  {
    var r := NatToString(n);
    if n < 10 {
      assert r == [DigitChar(n)];
      assert r[..0] == [];
      assert DigitsValue(r) == DigitsValue(r[..0]) * 10 + DigitValue(r[0]);
      assert DigitValue(DigitChar(n)) == n;
    } else {
      assert DigitValue(DigitChar(n % 10)) == n % 10;
      ParseNatToString(n / 10);
      assert r[..|r| - 1] == NatToString(n / 10);
    }
  }

  /** `String(i)` for an integer. */
  function IntToString(i: int): (r: string)
    ensures r != []
  {
    if i < 0 then "-" + NatToString(-i) else NatToString(i)
  }

  /** A printed integer starts with a minus sign exactly when it is negative. */
  lemma IntToStringSign(i: int)
    ensures IntToString(i)[0] == '-' <==> i < 0
  {
    if i >= 0 {
      assert IsDigit(NatToString(i)[0]);
    }
  }

  /** Different integers print differently. */
  lemma IntToStringInjective(a: int, b: int)
    requires IntToString(a) == IntToString(b)
    ensures a == b
  {
    IntToStringSign(a);
    IntToStringSign(b);
    if a >= 0 {
      ParseNatToString(a);
      ParseNatToString(b);
    } else {
      assert NatToString(-a) == IntToString(a)[1..];
      assert NatToString(-b) == IntToString(b)[1..];
      ParseNatToString(-a);
      ParseNatToString(-b);
    }
  }

  /** A digit of base 16 (`0-9`, `a-f`, `A-F`) or, when `hex` is false, of base 10. */
  predicate IsRadixDigit(c: char, hex: bool)
  {
    IsDigit(c) || (hex && ('a' <= c <= 'f' || 'A' <= c <= 'F'))
  }

  function RadixDigitValue(c: char, hex: bool): (v: nat)
    requires IsRadixDigit(c, hex)
    ensures v < if hex then 16 else 10
  {
    if IsDigit(c) then DigitValue(c)
    else if 'a' <= c <= 'f' then c as int - 'a' as int + 10
    else c as int - 'A' as int + 10
  }

  /** The longest prefix of `s` made of digits of the radix. */
  function LeadingDigits(s: string, hex: bool): (r: string)
    ensures forall i :: 0 <= i < |r| ==> IsRadixDigit(r[i], hex)
  {
    if s == [] || !IsRadixDigit(s[0], hex) then []
    else [s[0]] + LeadingDigits(s[1..], hex)
  }

  /** The leading digits are the longest prefix made of digits of the radix. */
  lemma {:induction false} LeadingDigitsIsLongestRun(s: string, hex: bool)
    ensures var r := LeadingDigits(s, hex); |r| <= |s| && r == s[..|r|]
    ensures var r := LeadingDigits(s, hex); |r| < |s| ==> !IsRadixDigit(s[|r|], hex)
  {
    if s != [] && IsRadixDigit(s[0], hex) {
      LeadingDigitsIsLongestRun(s[1..], hex);
      assert s == [s[0]] + s[1..];
    }
  }

  /** The value of a run of digits of the radix. */
  function RadixValue(s: string, hex: bool): nat
    requires forall i :: 0 <= i < |s| ==> IsRadixDigit(s[i], hex)
  {
    if s == [] then 0
    else RadixValue(s[..|s| - 1], hex) * (if hex then 16 else 10) + RadixDigitValue(s[|s| - 1], hex)
  }

  /** The number at the start of an unsigned `body`: a `0x` or `0X` prefix selects base 16,
      then as many digits as follow are read; `None` when there is no digit. */
  function ParseUnsigned(body: string): (r: Option<int>)
    ensures r.Some? ==> r.value >= 0
  {
    var hex := |body| >= 2 && body[0] == '0' && (body[1] == 'x' || body[1] == 'X');
    var digits := LeadingDigits(if hex then body[2..] else body, hex);
    if digits == [] then None else Some(RadixValue(digits, hex))
  }

  /** `parseInt(s)` without a radix: leading white space is skipped, then an optional sign, then
      the unsigned number; `None` stands for `NaN`, the result when there is no digit. */
  function ParseInt(s: string): (r: Option<int>)
    ensures r.None? <==> ParseUnsigned(UnsignedPart(s)).None?
  {
    ApplySign(TrimStart(s), ParseUnsigned(UnsignedPart(s)))
  }

  /** Negates the unsigned value when the trimmed text starts with a minus sign. */
  function ApplySign(t: string, u: Option<int>): (r: Option<int>)
    ensures r.None? <==> u.None?
  {
    if u.Some? && t != [] && t[0] == '-' then Some(-u.value) else u
  }

  /** What follows the leading white space and the sign. */
  function UnsignedPart(s: string): (r: string)
    ensures |r| <= |s|
  {
    var t := TrimStart(s);
    if t != [] && (t[0] == '-' || t[0] == '+') then t[1..] else t
  }

  /** Decimal digits have the same value read either way. */
  lemma {:induction false} DecimalRadixValue(s: string)
    requires AllDigits(s)
    ensures RadixValue(s, false) == DigitsValue(s)
  {
    if s != [] {
      DecimalRadixValue(s[..|s| - 1]);
    }
  }

  /** A string that starts with a visible character is its own `trimStart()`. */
  lemma TrimStartOfVisible(s: string)
    requires s != [] && !IsWhitespace(s[0])
    ensures TrimStart(s) == s
  {
  }

  /** The digits of a number followed by anything that is not a digit are read as they are. */
  lemma {:induction false} LeadingDigitsOfNumber(d: string, rest: string)
    requires AllDigits(d)
    requires rest == [] || !IsDigit(rest[0])
    ensures LeadingDigits(d + rest, false) == d
  {
    if d == [] {
      assert d + rest == rest;
    } else {
      assert (d + rest)[1..] == d[1..] + rest;
      LeadingDigitsOfNumber(d[1..], rest);
      assert d == [d[0]] + d[1..];
    }
  }

  /** A printed natural number followed by text that neither continues it nor turns it into
      a hexadecimal prefix is read back. */
  lemma ParseUnsignedOfNatToString(n: nat, rest: string)
    requires rest == [] || (!IsDigit(rest[0]) && rest[0] != 'x' && rest[0] != 'X')
    ensures ParseUnsigned(NatToString(n) + rest) == Some(n)
  {
    var d := NatToString(n);
    var body := d + rest;
    if |d| >= 2 {
      assert body[1] == d[1];
    } else if rest != [] {
      assert body[1] == rest[0];
    }
    LeadingDigitsOfNumber(d, rest);
    DecimalRadixValue(d);
    ParseNatToString(n);
  }

  /** `parseInt` reads back a printed integer, whatever non-digit text follows it (other than an
      `x` right after a lone `0`, which would start a hexadecimal number). */
  lemma ParseIntOfIntToString(i: int, rest: string)
    requires rest == [] || (!IsDigit(rest[0]) && rest[0] != 'x' && rest[0] != 'X')
    ensures ParseInt(IntToString(i) + rest) == Some(i)
  {
    if i < 0 {
      ParseIntOfNegativeToString(i, rest);
    } else {
      ParseIntOfNatToString(i, rest);
    }
  }

  lemma ParseIntOfNatToString(n: nat, rest: string)
    requires rest == [] || (!IsDigit(rest[0]) && rest[0] != 'x' && rest[0] != 'X')
    ensures ParseInt(NatToString(n) + rest) == Some(n)
  {
    ParseUnsignedOfNatToString(n, rest);
    ParseIntOfDigits(NatToString(n) + rest, n);
  }

  lemma ParseIntOfNegativeToString(i: int, rest: string)
    requires i < 0
    requires rest == [] || (!IsDigit(rest[0]) && rest[0] != 'x' && rest[0] != 'X')
    ensures ParseInt(IntToString(i) + rest) == Some(i)
  {
    var digits := NatToString(-i) + rest;
    calc {
      ParseInt(IntToString(i) + rest);
      { NegativeToStringSplits(i, rest); }
      ParseInt("-" + digits);
      { ParseIntOfMinusNatToString(digits, -i, rest); }
      Some(i);
    }
  }

  lemma NegativeToStringSplits(i: int, rest: string)
    requires i < 0
    ensures IntToString(i) + rest == "-" + (NatToString(-i) + rest)
  {
  }

  lemma ParseIntOfMinusNatToString(digits: string, n: int, rest: string)
    requires n > 0 && digits == NatToString(n) + rest
    requires rest == [] || (!IsDigit(rest[0]) && rest[0] != 'x' && rest[0] != 'X')
    ensures ParseInt("-" + digits) == Some(-n)
  {
    assert digits[0] == NatToString(n)[0];
    ParseUnsignedOfNatToString(n, rest);
    ParseIntOfNegative(digits, n);
  }

  /** Text that starts with a digit is read as its unsigned number. */
  lemma ParseIntOfDigits(s: string, n: int)
    requires s != [] && IsDigit(s[0]) && ParseUnsigned(s) == Some(n)
    ensures ParseInt(s) == Some(n)
  {
    TrimStartOfVisible(s);
    assert UnsignedPart(s) == s;
  }

  /** A minus sign followed by a digit negates the number that follows. */
  lemma ParseIntOfNegative(s: string, n: int)
    requires s != [] && IsDigit(s[0]) && ParseUnsigned(s) == Some(n)
    ensures ParseInt("-" + s) == Some(-n)
  {
    TrimStartOfVisible("-" + s);
    assert UnsignedPart("-" + s) == s;
  }

  /** `s.padStart(2, '0')` */
  function PadStart2(s: string): (r: string)
    ensures |r| == if |s| < 2 then 2 else |s|
    ensures r[|r| - |s|..] == s
    ensures forall i :: 0 <= i < |r| - |s| ==> r[i] == '0'
  {
    if |s| == 0 then "00" else if |s| == 1 then "0" + s else s
  }

  /** `s.split(c)` for a one-character separator: the pieces between the separators. */
  function Split(s: string, c: char): (r: seq<string>)
    ensures |r| >= 1
  {
    if s == [] then [[]]
    else
      var rest := Split(s[1..], c);
      if s[0] == c then [[]] + rest else [[s[0]] + rest[0]] + rest[1..]
  }

  /** `pieces.join(c)` */
  function Join(pieces: seq<string>, c: char): string
    requires |pieces| >= 1
  {
    if |pieces| == 1 then pieces[0] else pieces[0] + [c] + Join(pieces[1..], c)
  }

  predicate NoSeparator(pieces: seq<string>, c: char)
  {
    forall i :: 0 <= i < |pieces| ==> c !in pieces[i]
  }

  /** No piece of a split contains the separator. */
  lemma {:induction false} SplitPiecesHaveNoSeparator(s: string, c: char)
    ensures NoSeparator(Split(s, c), c)
  {
    if s != [] {
      SplitPiecesHaveNoSeparator(s[1..], c);
    }
  }

  /** Joining the pieces of a split restores the string. */
  lemma {:induction false} JoinSplit(s: string, c: char)
    ensures Join(Split(s, c), c) == s
  {
    if s != [] {
      JoinSplit(s[1..], c);
      var rest := Split(s[1..], c);
      if s[0] == c {
        assert s == [c] + s[1..];
      } else if |rest| == 1 {
        assert s == [s[0]] + s[1..];
      } else {
        assert Join(rest, c) == rest[0] + [c] + Join(rest[1..], c);
        assert s == [s[0]] + s[1..];
      }
    }
  }

  /** Splitting joined separator-free pieces gives the pieces back. */
  lemma {:induction false} SplitJoin(pieces: seq<string>, c: char)
    requires |pieces| >= 1 && NoSeparator(pieces, c)
    ensures Split(Join(pieces, c), c) == pieces
  {
    if |pieces| == 1 {
      SplitOfSeparatorFree(pieces[0], c);
    } else {
      SplitJoin(pieces[1..], c);
      SplitPrefixPiece(pieces[0], Join(pieces[1..], c), c);
    }
  }

  /** `s.split(c)[0]` is the part of `s` before its first `c`: a prefix that ends where `s` does
      or at a `c`. */
  lemma {:induction false} SplitFirstPiece(s: string, c: char)
    ensures var p := Split(s, c)[0];
      |p| <= |s| && p == s[..|p|] && (|p| < |s| ==> s[|p|] == c)
  {
    if s != [] && s[0] != c {
      SplitFirstPiece(s[1..], c);
      var q := Split(s[1..], c)[0];
      assert Split(s, c)[0] == [s[0]] + q;
      assert s == [s[0]] + s[1..];
    }
  }

  /** A string without the separator splits into itself. */
  lemma {:induction false} SplitOfSeparatorFree(s: string, c: char)
    requires c !in s
    ensures Split(s, c) == [s]
  {
    if s != [] {
      SplitOfSeparatorFree(s[1..], c);
      assert s == [s[0]] + s[1..];
    }
  }

  /** `(d + c + rest).split(c)` starts with `d` and continues with the split of `rest`. */
  lemma {:induction false} SplitPrefixPiece(d: string, rest: string, c: char)
    requires c !in d
    ensures Split(d + [c] + rest, c) == [d] + Split(rest, c)
  {
    if d == [] {
      assert ([c] + rest)[1..] == rest;
    } else {
      SplitPrefixPiece(d[1..], rest, c);
      assert (d + [c] + rest)[1..] == d[1..] + [c] + rest;
      assert [d[0]] + d[1..] == d;
    }
  }

  predicate StartsWith(s: string, prefix: string)
  {
    |prefix| <= |s| && s[..|prefix|] == prefix
  }

  /** `s.includes(t)` */
  predicate Includes(s: string, t: string)
  {
    StartsWith(s, t) || (s != [] && Includes(s[1..], t))
  }

  /** Every string includes the empty string. */
  lemma IncludesEmpty(s: string)
    ensures Includes(s, [])
  {
    assert s[..0] == [];
  }
}

=== FILE: workspace_filters.dfy ===
/** The list filters of the student workspace (notes, todos and reports share one update rule),
    the "Showing a to b of n" pagination caption, the report type and status captions, and the
    report form. */
module WorkspaceFilters {
  import opened Wrappers
  import Js
  import Text

  // ---------------------------------------------------------------------------------------
  // Filters

  /** A filter object: `search`, `page`, `limit` and the tab's own fields. */
  type Filters = map<string, Js.Json>

  const PageKey: string := "page"

  /** `updateNotesFilters`, `updateTodosFilters` and `updateReportsFilters`:
      `{ ...prev, ...patch, page: patch.page || 1 }`, so any change other than a page change
      goes back to the first page. */
  function UpdateFilters(prev: Filters, patch: Filters): (r: Filters)
    ensures r.Keys == prev.Keys + patch.Keys + {PageKey}
    ensures r[PageKey] == if PageKey in patch && Js.Truthy(patch[PageKey]) then patch[PageKey] else Js.Num(1)
    ensures forall k :: k in patch && k != PageKey ==> r[k] == patch[k]
    ensures forall k :: k in prev && k !in patch && k != PageKey ==> r[k] == prev[k]
  {
    (prev + patch)[PageKey := Js.Or(Js.Field(Js.Obj(patch), PageKey), Js.Num(1))]
  }

  /** Applying the same change twice is applying it once. */
  lemma UpdateFiltersIdempotent(prev: Filters, patch: Filters)
    ensures UpdateFilters(UpdateFilters(prev, patch), patch) == UpdateFilters(prev, patch)
  {
    var once := UpdateFilters(prev, patch);
    var twice := UpdateFilters(once, patch);
    assert twice.Keys == once.Keys;
    forall k | k in once
      ensures twice[k] == once[k]
    {
    }
  }

  /** A new search keeps the other filters and goes back to the first page. */
  lemma SearchResetsPage(prev: Filters, term: string)
    ensures UpdateFilters(prev, map["search" := Js.Str(term)])
            == prev["search" := Js.Str(term)][PageKey := Js.Num(1)]
  {
    var patch := map["search" := Js.Str(term)];
    var r := UpdateFilters(prev, patch);
    var expected := prev["search" := Js.Str(term)][PageKey := Js.Num(1)];
    assert r.Keys == expected.Keys;
    forall k | k in r
      ensures r[k] == expected[k]
    {
    }
  }

  /** The Previous and Next buttons change the page and nothing else (a page of 0 would be
      read as the first page by `|| 1`). */
  lemma PageStepKeepsFilters(prev: Filters, page: int)
    requires page != 0
    ensures UpdateFilters(prev, map[PageKey := Js.Num(page)]) == prev[PageKey := Js.Num(page)]
  {
    var patch := map[PageKey := Js.Num(page)];
    var r := UpdateFilters(prev, patch);
    var expected := prev[PageKey := Js.Num(page)];
    assert r.Keys == expected.Keys;
    forall k | k in r
      ensures r[k] == expected[k]
    {
    }
  }

  /** `apiTodosFilters`: the `all` priority is not sent to the API. */
  function ApiTodosFilters(f: Filters): (r: Filters)
    ensures r.Keys == f.Keys + {"priority"}
    ensures r["priority"] != Js.Str("all")
    ensures r["priority"].Undefined? <==> ("priority" !in f || f["priority"] in {Js.Undefined, Js.Str("all")})
    ensures forall k :: k in f && k != "priority" ==> r[k] == f[k]
  {
    var priority := Js.Field(Js.Obj(f), "priority");
    f["priority" := if priority == Js.Str("all") then Js.Undefined else priority]
  }

  /** Narrowing to one priority passes it through unchanged. */
  lemma ApiTodosFiltersKeepsPriority(f: Filters, priority: string)
    requires priority != "all"
    ensures ApiTodosFilters(f["priority" := Js.Str(priority)]) == f["priority" := Js.Str(priority)]
  {
  }

  // ---------------------------------------------------------------------------------------
  // Pagination caption

  datatype Pagination = Pagination(page: int, limit: int, total: int, totalPages: int)

  /** "Showing `first` to `last` of `total`" */
  datatype Range = Range(first: int, last: int)

  /** The caption under a list, shown only when there is more than one page. */
  function Showing(p: Pagination): (r: Option<Range>)
    ensures r.None? <==> p.totalPages <= 1
    ensures r.Some? ==> r.value.first - 1 == (p.page - 1) * p.limit
    ensures r.Some? ==> r.value.last <= p.total && r.value.last <= p.page * p.limit
    ensures r.Some? ==> r.value.last == p.total || r.value.last == p.page * p.limit
  {
    if p.totalPages <= 1 then None
    else Some(Range((p.page - 1) * p.limit + 1, if p.page * p.limit < p.total then p.page * p.limit else p.total))
  }

  /** On a page that holds items, the caption is a non-empty range of at most `limit` items
      within the total. */
  lemma ShowingIsWithinTotal(p: Pagination)
    requires p.totalPages > 1 && p.page >= 1 && p.limit >= 1
    requires (p.page - 1) * p.limit < p.total
    ensures 1 <= Showing(p).value.first <= Showing(p).value.last <= p.total
    ensures Showing(p).value.last - Showing(p).value.first < p.limit
  {
    assert (p.page - 1) * p.limit >= 0;
    assert p.page * p.limit == (p.page - 1) * p.limit + p.limit;
  }

  /** A full page ends just before the next page begins. */
  lemma ConsecutivePagesAdjoin(p: Pagination)
    requires p.totalPages > 1 && p.page * p.limit <= p.total
    ensures Showing(p.(page := p.page + 1)).value.first == Showing(p).value.last + 1
  {
    assert (p.page + 1 - 1) * p.limit == p.page * p.limit;
  }

  /** The last page ends at the total. */
  lemma LastPageEndsAtTotal(p: Pagination)
    requires p.totalPages > 1 && p.limit >= 1 && p.total >= 0
    requires p.page == (p.total + p.limit - 1) / p.limit
    ensures Showing(p).value.last == p.total
  {
    var q := (p.total + p.limit - 1) / p.limit;
    assert q * p.limit + (p.total + p.limit - 1) % p.limit == p.total + p.limit - 1;
  }

  // ---------------------------------------------------------------------------------------
  // Report captions

  /** `reportTypeConfig`: the caption of each report type. */
  const ReportTypeCaptions: map<string, string> := map[
    "INCORRECT_ANSWER" := "Incorrect Answer",
    "UNCLEAR_QUESTION" := "Unclear Question",
    "TECHNICAL_ERROR" := "Technical Error",
    "CONTENT_ERROR" := "Content Error",
    "OTHER" := "Other"]

  /** `statusConfig`: the caption of each report status. */
  const StatusCaptions: map<string, string> := map[
    "PENDING" := "Pending",
    "REVIEWED" := "Reviewed",
    "RESOLVED" := "Resolved",
    "REJECTED" := "Rejected"]

  /** `getReportTypeConfig(type).label`: an unknown type reads as `OTHER`. */
  function ReportTypeCaption(reportType: string): (r: string)
    ensures r in ReportTypeCaptions.Values
    ensures reportType !in ReportTypeCaptions ==> r == ReportTypeCaptions["OTHER"]
  {
    if reportType in ReportTypeCaptions then ReportTypeCaptions[reportType] else ReportTypeCaptions["OTHER"]
  }

  /** `getStatusConfig(status).label`: an unknown status reads as `PENDING`. */
  function StatusCaption(status: string): (r: string)
    ensures r in StatusCaptions.Values
    ensures status !in StatusCaptions ==> r == StatusCaptions["PENDING"]
  {
    if status in StatusCaptions then StatusCaptions[status] else StatusCaptions["PENDING"]
  }

  /** A known type keeps its own caption, and no two known types share one; so a caption other
      than "Other" names exactly one type. */
  lemma ReportTypeCaptionsIdentifyTypes(a: string, b: string)
    requires a in ReportTypeCaptions && b in ReportTypeCaptions
    ensures ReportTypeCaption(a) == ReportTypeCaptions[a]
    ensures ReportTypeCaption(a) == ReportTypeCaption(b) <==> a == b
  {
  }

  /** A known status keeps its own caption, and no two known statuses share one. */
  lemma StatusCaptionsIdentifyStatuses(a: string, b: string)
    requires a in StatusCaptions && b in StatusCaptions
    ensures StatusCaption(a) == StatusCaptions[a]
    ensures StatusCaption(a) == StatusCaption(b) <==> a == b
  {
  }

  // ---------------------------------------------------------------------------------------
  // The report form

  datatype ReportForm = ReportForm(questionId: string, reportType: string, description: string)

  const EmptyReportForm: ReportForm := ReportForm("", "", "")

  /** The arguments of `createReport`: the question id read with `parseInt` (`None` for `NaN`),
      the report type and the trimmed description. */
  datatype ReportSubmission = ReportSubmission(questionId: Option<int>, reportType: string, description: string)

  /** `handleCreateReport()`: nothing is sent while the question id or the description is blank
      or no report type is chosen. */
  function CreateReport(form: ReportForm): (r: Option<ReportSubmission>)
    ensures r.None? <==> Text.IsBlank(form.questionId) || form.reportType == [] || Text.IsBlank(form.description)
    ensures r.Some? ==> r.value.questionId == Text.ParseInt(form.questionId)
    ensures r.Some? ==> r.value.reportType == form.reportType
    ensures r.Some? ==> r.value.description == Text.Trim(form.description) && r.value.description != []
  {
    if Text.IsBlank(form.questionId) || form.reportType == [] || Text.IsBlank(form.description) then None
    else Some(ReportSubmission(Text.ParseInt(form.questionId), form.reportType, Text.Trim(form.description)))
  }

  /** A report about question `id`, typed as the number it is, is sent for that question, with a
      description that neither starts nor ends with white space. */
  lemma ReportIsForTypedQuestion(id: int, reportType: string, description: string)
    requires reportType != [] && !Text.IsBlank(description)
    ensures CreateReport(ReportForm(Text.IntToString(id), reportType, description)).Some?
    ensures CreateReport(ReportForm(Text.IntToString(id), reportType, description)).value.questionId == Some(id)
    ensures !Text.IsWhitespace(CreateReport(ReportForm(Text.IntToString(id), reportType, description)).value.description[0])
  {
    var s := Text.IntToString(id);
    Text.IntToStringSign(id);
    if id >= 0 {
      assert Text.IsDigit(s[0]);
    }
    Text.NotBlankWithVisibleChar(s, 0);
    Text.ParseIntOfIntToString(id, []);
    assert s + [] == s;
    Text.TrimIsInnerSlice(description);
  }
}

=== FILE: workspace_labels.dfy ===
/** The labels tab of the student workspace: the search box, the lookup by id, the "most active
    labels" panel with its counts, and the label form guards. */
module WorkspaceLabels {
  import opened Wrappers
  import Text
  import Lists
  import Sorting

  /** A label with `statistics.totalItems`, the number of items tagged with it. */
  datatype Label = Label(id: int, name: string, totalItems: int)

  // ---------------------------------------------------------------------------------------
  // Search

  /** `label.name.toLowerCase().includes(lowerTerm)` */
  function NameMatches(lowerTerm: string): Label -> bool
  {
    (l: Label) => Text.Includes(Text.ToLower(l.name), lowerTerm)
  }

  /** `filteredLabels`: the labels whose name contains the search term, ignoring case; no labels
      loaded gives none. */
  function SearchLabels(labels: Option<seq<Label>>, term: string): (r: seq<Label>)
    ensures labels.None? ==> r == []
    ensures labels.Some? ==> Lists.IsSubsequence(r, labels.value)
    ensures forall l :: l in r ==> Text.Includes(Text.ToLower(l.name), Text.ToLower(term))
  {
    match labels
    case None => []
    case Some(ls) =>
      Lists.FilterIsSubsequence(ls, NameMatches(Text.ToLower(term)));
      Lists.Filter(ls, NameMatches(Text.ToLower(term)))
  }

  /** Every label whose name contains the term is found. */
  lemma SearchFindsEveryMatch(labels: seq<Label>, term: string, i: int)
    requires 0 <= i < |labels|
    requires Text.Includes(Text.ToLower(labels[i].name), Text.ToLower(term))
    ensures labels[i] in SearchLabels(Some(labels), term)
  {
    Lists.FilterKeeps(labels, NameMatches(Text.ToLower(term)), i);
  }

  /** The search ignores the case of the term. */
  lemma SearchIgnoresCase(labels: Option<seq<Label>>, term: string)
    ensures SearchLabels(labels, Text.ToUpper(term)) == SearchLabels(labels, term)
  {
    Text.LowerOfUpperIsLower(term);
  }

  /** An empty search box shows every label. */
  lemma EmptySearchShowsAll(labels: seq<Label>)
    ensures SearchLabels(Some(labels), "") == labels
  {
    forall i | 0 <= i < |labels|
      ensures NameMatches("")(labels[i])
    {
      Text.IncludesEmpty(Text.ToLower(labels[i].name));
    }
    Lists.FilterAll(labels, NameMatches(""));
  }

  // ---------------------------------------------------------------------------------------
  // Lookup

  /** `labels.find(label => label.id === id)` */
  function FindById(labels: seq<Label>, id: int): (r: Option<Label>)
    ensures r.Some? ==> r.value in labels && r.value.id == id
    ensures r.None? <==> forall l :: l in labels ==> l.id != id
  {
    if labels == [] then None
    else if labels[0].id == id then Some(labels[0])
    else FindById(labels[1..], id)
  }

  /** `getLabelById(id)`: nothing while the labels are not loaded. */
  function LabelById(labels: Option<seq<Label>>, id: int): (r: Option<Label>)
    ensures r.Some? ==> labels.Some? && r.value in labels.value && r.value.id == id
    ensures r.None? <==> labels.None? || forall l :: l in labels.value ==> l.id != id
  {
    if labels.None? then None else FindById(labels.value, id)
  }

  /** The lookup gives the first label with the id. */
  lemma {:induction false} LabelByIdIsFirst(labels: seq<Label>, id: int, i: int)
    requires 0 <= i < |labels| && labels[i].id == id
    requires forall j :: 0 <= j < i ==> labels[j].id != id
    ensures LabelById(Some(labels), id) == Some(labels[i])
  {
    if i > 0 {
      LabelByIdIsFirst(labels[1..], id, i - 1);
    }
  }

  // ---------------------------------------------------------------------------------------
  // Most active labels

  /** The number of labels in the "most active" panel. */
  const MostActiveShown: nat := 5

  predicate IsActive(l: Label) { l.totalItems > 0 }

  predicate IsUnused(l: Label) { l.totalItems == 0 }

  function TotalItems(l: Label): int { l.totalItems }

  /** The used labels, most used first. */
  function ActiveByUse(labels: seq<Label>): (r: seq<Label>)
    ensures |r| == Lists.Count(labels, IsActive)
    ensures Sorting.SortedDesc(r, TotalItems)
    ensures forall l :: l in r ==> l in labels && IsActive(l)
    ensures multiset(r) == multiset(Lists.Filter(labels, IsActive))
    ensures forall k :: Sorting.WithKey(r, TotalItems, k) == Sorting.WithKey(Lists.Filter(labels, IsActive), TotalItems, k)
  {
    var active := Lists.Filter(labels, IsActive);
    var sorted := Sorting.SortDesc(active, TotalItems);
    assert forall l :: l in sorted ==> l in multiset(sorted);
    assert forall l :: l in multiset(active) ==> l in active;
    assert forall k :: Sorting.WithKey(sorted, TotalItems, k) == Sorting.WithKey(active, TotalItems, k) by {
      forall k
        ensures Sorting.WithKey(sorted, TotalItems, k) == Sorting.WithKey(active, TotalItems, k)
      {
        Sorting.SortDescIsStable(active, TotalItems, k);
      }
    }
    sorted
  }

  /** The "most active labels" panel: the used labels, most used first, at most five. */
  function MostActive(labels: seq<Label>): (r: seq<Label>)
    ensures |r| == if Lists.Count(labels, IsActive) < MostActiveShown then Lists.Count(labels, IsActive) else MostActiveShown
    ensures Sorting.SortedDesc(r, TotalItems)
    ensures forall l :: l in r ==> l in labels && IsActive(l)
    ensures r == ActiveByUse(labels)[..|r|]
  {
    var sorted := ActiveByUse(labels);
    if |sorted| < MostActiveShown then sorted
    else
      assert forall l :: l in sorted[..MostActiveShown] ==> l in sorted;
      sorted[..MostActiveShown]
  }

  /** No used label left out of the panel is used more than any label in it. */
  lemma MostActiveAreTheMostUsed(labels: seq<Label>, i: int, shown: Label)
    requires 0 <= i < |labels| && IsActive(labels[i]) && labels[i] !in MostActive(labels)
    requires shown in MostActive(labels)
    ensures labels[i].totalItems <= shown.totalItems
  {
    var sorted := ActiveByUse(labels);
    Lists.FilterKeeps(labels, IsActive, i);
    assert labels[i] in multiset(Lists.Filter(labels, IsActive));
    assert labels[i] in multiset(sorted);
    var j :| 0 <= j < |sorted| && sorted[j] == labels[i];
    var k :| 0 <= k < |MostActive(labels)| && MostActive(labels)[k] == shown;
    assert MostActive(labels) == sorted[..|MostActive(labels)|];
    assert k < j;
  }

  /** `labels.every(label => label.statistics.totalItems === 0)`, which shows the "no labels
      have been used yet" message. */
  predicate NoneUsed(labels: seq<Label>)
  {
    forall i :: 0 <= i < |labels| ==> IsUnused(labels[i])
  }

  predicate CountsNonNegative(labels: seq<Label>)
  {
    forall i :: 0 <= i < |labels| ==> labels[i].totalItems >= 0
  }

  /** With item counts that are never negative, the "no labels used" message shows exactly
      when the panel is empty. */
  lemma NoneUsedIffPanelEmpty(labels: seq<Label>)
    requires CountsNonNegative(labels)
    ensures NoneUsed(labels) <==> MostActive(labels) == []
  {
    if NoneUsed(labels) {
      Lists.FilterNone(labels, IsActive);
    } else {
      var i :| 0 <= i < |labels| && !IsUnused(labels[i]);
      Lists.FilterKeeps(labels, IsActive, i);
    }
  }

  /** With item counts that are never negative, the active and the unused labels together are
      all the labels. */
  lemma {:induction false} ActiveAndUnusedAddUp(labels: seq<Label>)
    requires CountsNonNegative(labels)
    ensures Lists.Count(labels, IsActive) + Lists.Count(labels, IsUnused) == |labels|
  {
    if labels != [] {
      ActiveAndUnusedAddUp(labels[1..]);
    }
  }

  // ---------------------------------------------------------------------------------------
  // The label form

  datatype LabelForm = LabelForm(name: string)

  const EmptyLabelForm: LabelForm := LabelForm("")

  /** `handleCreateLabel()`: the form is sent as it is, unless the name is blank. */
  function CreateLabel(form: LabelForm): (r: Option<LabelForm>)
    ensures r.None? <==> Text.IsBlank(form.name)
    ensures r.Some? ==> r.value == form
  {
    if Text.IsBlank(form.name) then None else Some(form)
  }

  datatype LabelUpdate = LabelUpdate(labelId: int, form: LabelForm)

  /** `handleEditLabel()`: nothing is sent without a label being edited or for a blank name. */
  function EditLabel(editing: Option<Label>, form: LabelForm): (r: Option<LabelUpdate>)
    ensures r.None? <==> editing.None? || Text.IsBlank(form.name)
    ensures r.Some? ==> r.value == LabelUpdate(editing.value.id, form)
  {
    if editing.None? || Text.IsBlank(form.name) then None
    else Some(LabelUpdate(editing.value.id, form))
  }

  /** `openEditLabelDialog(label)` */
  function OpenEditLabel(l: Label): (r: LabelForm)
    ensures r.name == l.name
  {
    LabelForm(l.name)
  }

  /** Saving a label opened for editing without changes sends its own name back. */
  lemma UnchangedEditKeepsName(l: Label)
    requires !Text.IsBlank(l.name)
    ensures EditLabel(Some(l), OpenEditLabel(l)) == Some(LabelUpdate(l.id, LabelForm(l.name)))
  {
  }
}

=== FILE: workspace_notes.dfy ===
/** The notes tab of the student workspace: grouping the notes by question or by day, the
    caption of a group, the expanded-question set, and the create and edit guards of the note
    form. */
module WorkspaceNotes {
  import opened Wrappers
  import Text
  import Lists

  datatype NoteQuestion = NoteQuestion(questionText: Option<string>)

  /** A note; `dayKey` stands for `new Date(note.createdAt).toDateString()`, which depends on the
      locale and time zone and is computed outside the model. */
  datatype Note = Note(id: int, questionId: Option<int>, question: Option<NoteQuestion>, noteText: string, dayKey: string)

  datatype GroupBy = ByQuestion | ByDate | NoGrouping

  /** One entry of the grouped-notes object, in the object's key order. */
  datatype Group = Group(key: string, notes: seq<Note>)

  const GeneralKey: string := "general"
  const UngroupedKey: string := "ungrouped"
  const QuestionPrefix: string := "question-"

  /** `note.questionId && note.question`: a question id of 0 counts as absent. */
  predicate HasQuestion(n: Note)
  {
    n.questionId.Some? && n.questionId.value != 0 && n.question.Some?
  }

  function QuestionKey(id: int): string
  {
    QuestionPrefix + Text.IntToString(id)
  }

  /** The group a note belongs to. */
  function GroupKey(n: Note, grouping: GroupBy): string
  {
    match grouping
    case ByQuestion => if HasQuestion(n) then QuestionKey(n.questionId.value) else GeneralKey
    case ByDate => n.dayKey
    case NoGrouping => UngroupedKey
  }

  /** Membership of the group with key `key`. */
  function InGroup(grouping: GroupBy, key: string): Note -> bool
  {
    n => GroupKey(n, grouping) == key
  }

  /** Each group holds exactly the notes of its key, in their original order, and is not
      empty. */
  predicate GroupsExact(gs: seq<Group>, notes: seq<Note>, grouping: GroupBy)
  {
    forall j :: 0 <= j < |gs| ==> gs[j].notes == Lists.Filter(notes, InGroup(grouping, gs[j].key)) && gs[j].notes != []
  }

  predicate KeysDistinct(gs: seq<Group>)
  {
    forall j, k :: 0 <= j < k < |gs| ==> gs[j].key != gs[k].key
  }

  /** Every note has a group. */
  predicate Covers(gs: seq<Group>, notes: seq<Note>, grouping: GroupBy)
  {
    forall n :: n in notes ==> exists j :: 0 <= j < |gs| && gs[j].key == GroupKey(n, grouping)
  }

  /** `gs` groups `notes`. */
  predicate IsGrouping(gs: seq<Group>, notes: seq<Note>, grouping: GroupBy)
  {
    GroupsExact(gs, notes, grouping) && KeysDistinct(gs) && Covers(gs, notes, grouping)
  }

  /** The position of the group with key `k`, or -1. */
  function IndexOfKey(gs: seq<Group>, k: string): (j: int)
    ensures -1 <= j < |gs|
    ensures j >= 0 ==> gs[j].key == k
    ensures j < 0 ==> forall m :: 0 <= m < |gs| ==> gs[m].key != k
  {
    if gs == [] then -1
    else if gs[0].key == k then 0
    else
      var j := IndexOfKey(gs[1..], k);
      if j < 0 then -1 else j + 1
  }

  /** Appends note `n` to the group of its key, or opens that group after the others. */
  function AddNote(gs: seq<Group>, n: Note, grouping: GroupBy): (r: seq<Group>)
    ensures |r| == |gs| || |r| == |gs| + 1
  {
    var k := GroupKey(n, grouping);
    var j := IndexOfKey(gs, k);
    if j < 0 then gs + [Group(k, [n])] else gs[j := Group(k, gs[j].notes + [n])]
  }

  lemma FilterAfterNote(seen: seq<Note>, n: Note, grouping: GroupBy)
    ensures forall key ::
      Lists.Filter(seen + [n], InGroup(grouping, key))
        == Lists.Filter(seen, InGroup(grouping, key)) + (if GroupKey(n, grouping) == key then [n] else [])
  {
    forall key
      ensures Lists.Filter(seen + [n], InGroup(grouping, key))
        == Lists.Filter(seen, InGroup(grouping, key)) + (if GroupKey(n, grouping) == key then [n] else [])
    {
      Lists.FilterSnoc(seen, n, InGroup(grouping, key));
    }
  }

  /** A note of a new key opens a group after the others. */
  lemma AddNoteOpensGroup(gs: seq<Group>, seen: seq<Note>, n: Note, grouping: GroupBy)
    requires IsGrouping(gs, seen, grouping)
    requires IndexOfKey(gs, GroupKey(n, grouping)) < 0
    ensures IsGrouping(gs + [Group(GroupKey(n, grouping), [n])], seen + [n], grouping)
  {
    var k := GroupKey(n, grouping);
    var r := gs + [Group(k, [n])];
    OpenedGroupExact(gs, seen, n, grouping);
    assert KeysDistinct(r);
    OpenedGroupCovers(gs, seen, n, grouping);
  }

  lemma OpenedGroupExact(gs: seq<Group>, seen: seq<Note>, n: Note, grouping: GroupBy)
    requires IsGrouping(gs, seen, grouping)
    requires IndexOfKey(gs, GroupKey(n, grouping)) < 0
    ensures GroupsExact(gs + [Group(GroupKey(n, grouping), [n])], seen + [n], grouping)
  {
    var k := GroupKey(n, grouping);
    var r := gs + [Group(k, [n])];
    FilterAfterNote(seen, n, grouping);
    forall i | 0 <= i < |seen|
      ensures !InGroup(grouping, k)(seen[i])
    {
      assert seen[i] in seen;
    }
    Lists.FilterNone(seen, InGroup(grouping, k));
    forall j | 0 <= j < |r|
      ensures r[j].notes == Lists.Filter(seen + [n], InGroup(grouping, r[j].key)) && r[j].notes != []
    {
      if j < |gs| {
        assert r[j] == gs[j];
      }
    }
  }

  lemma OpenedGroupCovers(gs: seq<Group>, seen: seq<Note>, n: Note, grouping: GroupBy)
    requires Covers(gs, seen, grouping)
    ensures Covers(gs + [Group(GroupKey(n, grouping), [n])], seen + [n], grouping)
  {
    var r := gs + [Group(GroupKey(n, grouping), [n])];
    forall m | m in seen + [n]
      ensures exists i :: 0 <= i < |r| && r[i].key == GroupKey(m, grouping)
    {
      if m in seen {
        var i :| 0 <= i < |gs| && gs[i].key == GroupKey(m, grouping);
        assert r[i].key == gs[i].key;
      } else {
        assert r[|gs|].key == GroupKey(m, grouping);
      }
    }
  }

  /** A note of a known key joins the end of its group. */
  lemma AddNoteJoinsGroup(gs: seq<Group>, seen: seq<Note>, n: Note, grouping: GroupBy)
    requires IsGrouping(gs, seen, grouping)
    requires IndexOfKey(gs, GroupKey(n, grouping)) >= 0
    ensures var j := IndexOfKey(gs, GroupKey(n, grouping));
      IsGrouping(gs[j := Group(GroupKey(n, grouping), gs[j].notes + [n])], seen + [n], grouping)
  {
    var k := GroupKey(n, grouping);
    var j := IndexOfKey(gs, k);
    JoinedGroupExact(gs, seen, n, grouping, j);
    JoinedGroupKeys(gs, j, Group(k, gs[j].notes + [n]));
    JoinedGroupCovers(gs, seen, n, grouping, j);
  }

  lemma JoinedGroupExact(gs: seq<Group>, seen: seq<Note>, n: Note, grouping: GroupBy, j: int)
    requires GroupsExact(gs, seen, grouping) && KeysDistinct(gs)
    requires 0 <= j < |gs| && gs[j].key == GroupKey(n, grouping)
    ensures GroupsExact(gs[j := Group(GroupKey(n, grouping), gs[j].notes + [n])], seen + [n], grouping)
  {
    var r := gs[j := Group(GroupKey(n, grouping), gs[j].notes + [n])];
    FilterAfterNote(seen, n, grouping);
    forall i | 0 <= i < |r|
      ensures r[i].notes == Lists.Filter(seen + [n], InGroup(grouping, r[i].key)) && r[i].notes != []
    {
      if i != j {
        assert r[i] == gs[i] && gs[i].key != gs[j].key;
      }
    }
  }

  /** Replacing a group by one of the same key keeps the keys distinct. */
  lemma JoinedGroupKeys(gs: seq<Group>, j: int, g: Group)
    requires KeysDistinct(gs) && 0 <= j < |gs| && g.key == gs[j].key
    ensures KeysDistinct(gs[j := g])
  {
    var r := gs[j := g];
    forall a, b | 0 <= a < b < |r| ensures r[a].key != r[b].key {
      assert r[a].key == gs[a].key && r[b].key == gs[b].key;
    }
  }

  lemma JoinedGroupCovers(gs: seq<Group>, seen: seq<Note>, n: Note, grouping: GroupBy, j: int)
    requires Covers(gs, seen, grouping)
    requires 0 <= j < |gs| && gs[j].key == GroupKey(n, grouping)
    ensures Covers(gs[j := Group(GroupKey(n, grouping), gs[j].notes + [n])], seen + [n], grouping)
  {
    var r := gs[j := Group(GroupKey(n, grouping), gs[j].notes + [n])];
    forall m | m in seen + [n]
      ensures exists i :: 0 <= i < |r| && r[i].key == GroupKey(m, grouping)
    {
      if m in seen {
        var i :| 0 <= i < |gs| && gs[i].key == GroupKey(m, grouping);
        assert r[i].key == gs[i].key;
      } else {
        assert r[j].key == GroupKey(m, grouping);
      }
    }
  }

  /** Adding the next note keeps the groups a grouping of the notes seen so far. */
  lemma AddNoteKeepsGrouping(gs: seq<Group>, seen: seq<Note>, n: Note, grouping: GroupBy)
    requires IsGrouping(gs, seen, grouping)
    ensures IsGrouping(AddNote(gs, n, grouping), seen + [n], grouping)
  {
    if IndexOfKey(gs, GroupKey(n, grouping)) < 0 {
      AddNoteOpensGroup(gs, seen, n, grouping);
    } else {
      AddNoteJoinsGroup(gs, seen, n, grouping);
    }
  }

  /** The groups after adding the notes one by one. */
  function GroupAll(notes: seq<Note>, grouping: GroupBy): seq<Group>
  {
    if notes == [] then []
    else AddNote(GroupAll(notes[..|notes| - 1], grouping), notes[|notes| - 1], grouping)
  }

  lemma {:induction false} GroupAllIsGrouping(notes: seq<Note>, grouping: GroupBy)
    ensures IsGrouping(GroupAll(notes, grouping), notes, grouping)
  {
    if notes != [] {
      var front := notes[..|notes| - 1];
      var last := notes[|notes| - 1];
      assert front + [last] == notes;
      GroupAllIsGrouping(front, grouping);
      AddNoteKeepsGrouping(GroupAll(front, grouping), front, last, grouping);
    }
  }

  /** The notes grouped by `grouping`, each group opened when its first note is met. */
  method GroupNotes(notes: seq<Note>, grouping: GroupBy) returns (gs: seq<Group>)
    ensures IsGrouping(gs, notes, grouping)
  {
    gs := [];
    for i := 0 to |notes|
      invariant gs == GroupAll(notes[..i], grouping)
    {
      assert notes[..i + 1][..i] == notes[..i];
      gs := AddNote(gs, notes[i], grouping);
    }
    assert notes[..|notes|] == notes;
    GroupAllIsGrouping(notes, grouping);
  }

  /** `groupedNotes`: without notes, or without grouping, a single `ungrouped` group. */
  method GroupedNotes(notes: Option<seq<Note>>, grouping: GroupBy) returns (gs: seq<Group>)
    ensures notes.None? || grouping == NoGrouping ==> gs == [Group(UngroupedKey, notes.GetOr([]))]
    ensures notes.Some? && grouping != NoGrouping ==> IsGrouping(gs, notes.value, grouping)
  {
    if notes.None? || grouping == NoGrouping {
      gs := [Group(UngroupedKey, notes.GetOr([]))];
    } else {
      gs := GroupNotes(notes.value, grouping);
    }
  }

  /** Every note is in exactly one group. */
  lemma NoteInExactlyOneGroup(gs: seq<Group>, notes: seq<Note>, grouping: GroupBy, i: int)
    requires IsGrouping(gs, notes, grouping) && 0 <= i < |notes|
    ensures exists j :: 0 <= j < |gs| && notes[i] in gs[j].notes
    ensures forall j, k :: 0 <= j < |gs| && 0 <= k < |gs| && notes[i] in gs[j].notes && notes[i] in gs[k].notes ==> j == k
  {
    var n := notes[i];
    assert n in notes;
    var j :| 0 <= j < |gs| && gs[j].key == GroupKey(n, grouping);
    Lists.FilterKeeps(notes, InGroup(grouping, gs[j].key), i);
    forall j1, k1 | 0 <= j1 < |gs| && 0 <= k1 < |gs| && n in gs[j1].notes && n in gs[k1].notes
      ensures j1 == k1
    {
      assert InGroup(grouping, gs[j1].key)(n) && InGroup(grouping, gs[k1].key)(n);
    }
  }

  /** Grouped by question, the `general` group holds exactly the notes without a question and
      every other group the notes of one question. */
  lemma QuestionGroupsShareQuestion(gs: seq<Group>, notes: seq<Note>, j: int)
    requires IsGrouping(gs, notes, ByQuestion) && 0 <= j < |gs|
    ensures gs[j].key == GeneralKey ==> forall n :: n in gs[j].notes ==> !HasQuestion(n)
    ensures gs[j].key != GeneralKey ==>
      exists q :: gs[j].key == QuestionKey(q) && forall n :: n in gs[j].notes ==> n.questionId == Some(q)
  {
    var g := gs[j];
    assert forall n :: n in g.notes ==> GroupKey(n, ByQuestion) == g.key;
    if g.key != GeneralKey {
      var first := g.notes[0];
      assert first in g.notes;
      var q := first.questionId.value;
      forall n | n in g.notes
        ensures n.questionId == Some(q)
      {
        assert QuestionPrefix + Text.IntToString(n.questionId.value) == QuestionPrefix + Text.IntToString(q);
        assert Text.IntToString(n.questionId.value) == (QuestionPrefix + Text.IntToString(q))[|QuestionPrefix|..];
        Text.IntToStringInjective(n.questionId.value, q);
      }
    }
  }

  // ---------------------------------------------------------------------------------------
  // Group captions

  /** The caption of a group: `id` is absent when the first note's id is. */
  datatype QuestionInfo = QuestionInfo(id: Option<int>, questionText: string, isGeneral: bool)

  const UnknownQuestion: string := "Unknown Question"

  /** `getQuestionInfo(groupKey, groupNotes)`; a question group without notes fails when it
      reads its first note. */
  function QuestionInfoOf(key: string, groupNotes: seq<Note>): (r: Result<QuestionInfo>)
    ensures r.Err? <==> key != GeneralKey && Text.StartsWith(key, QuestionPrefix) && groupNotes == []
    ensures r.Ok? ==> (r.value.isGeneral <==> key == GeneralKey)
    ensures r.Ok? && !Text.StartsWith(key, QuestionPrefix) ==> r.value.id == Some(0)
    ensures r.Ok? && key != GeneralKey && !Text.StartsWith(key, QuestionPrefix) ==> r.value.questionText == key
    ensures r.Ok? && key != GeneralKey && Text.StartsWith(key, QuestionPrefix) ==>
      r.value.id == groupNotes[0].questionId && r.value.questionText != []
    ensures key == GeneralKey ==> r == Ok(QuestionInfo(Some(0), "General Notes", true))
    ensures r.Ok? && key != GeneralKey && Text.StartsWith(key, QuestionPrefix) ==>
      var q := groupNotes[0].question;
      if q.Some? && q.value.questionText.Some? && q.value.questionText.value != []
      then r.value.questionText == q.value.questionText.value
      else r.value.questionText == UnknownQuestion
  {
    if key == GeneralKey then Ok(QuestionInfo(Some(0), "General Notes", true))
    else if Text.StartsWith(key, QuestionPrefix) then
      if groupNotes == [] then Err("Cannot read properties of undefined (reading 'questionId')")
      else
        var first := groupNotes[0];
        var text := if first.question.Some? && first.question.value.questionText.Some?
                       && first.question.value.questionText.value != []
                    then first.question.value.questionText.value else UnknownQuestion;
        Ok(QuestionInfo(first.questionId, text, false))
    else Ok(QuestionInfo(Some(0), key, false))
  }

  /** Every question group made by the grouping has a caption naming the question its notes
      share. */
  lemma QuestionGroupCaption(gs: seq<Group>, notes: seq<Note>, j: int)
    requires IsGrouping(gs, notes, ByQuestion) && 0 <= j < |gs| && gs[j].key != GeneralKey
    ensures QuestionInfoOf(gs[j].key, gs[j].notes).Ok?
    ensures var info := QuestionInfoOf(gs[j].key, gs[j].notes).value;
      !info.isGeneral && info.id.Some? && forall n :: n in gs[j].notes ==> n.questionId == info.id
  {
    QuestionGroupsShareQuestion(gs, notes, j);
    var q :| gs[j].key == QuestionKey(q) && forall n :: n in gs[j].notes ==> n.questionId == Some(q);
    assert gs[j].key[..|QuestionPrefix|] == QuestionPrefix;
    assert gs[j].notes[0] in gs[j].notes;
  }

  // ---------------------------------------------------------------------------------------
  // Expanded questions

  /** `toggleQuestionExpansion(questionId)` */
  function ToggleExpansion(expanded: set<int>, questionId: int): (r: set<int>)
    ensures questionId in r <==> questionId !in expanded
    ensures r - {questionId} == expanded - {questionId}
  {
    if questionId in expanded then expanded - {questionId} else expanded + {questionId}
  }

  /** Toggling the same question twice restores the set. */
  lemma {:induction false} ToggleExpansionTwice(expanded: set<int>, questionId: int)
    ensures ToggleExpansion(ToggleExpansion(expanded, questionId), questionId) == expanded
  {
    var twice := ToggleExpansion(ToggleExpansion(expanded, questionId), questionId);
    assert twice - {questionId} == expanded - {questionId};
    assert questionId in twice <==> questionId in expanded;
  }

  // ---------------------------------------------------------------------------------------
  // The note form

  datatype NoteForm = NoteForm(noteText: string, questionId: Option<int>, labelIds: seq<int>)

  const EmptyNoteForm: NoteForm := NoteForm("", None, [])

  datatype NoteRequest = NoteRequest(noteText: string, questionId: Option<int>, labelIds: seq<int>)

  datatype NoteUpdate = NoteUpdate(noteId: int, noteText: string, labelIds: seq<int>)

  /** `handleCreateNote()`: nothing is sent for a blank text; the text is sent untrimmed. */
  function CreateNote(form: NoteForm): (r: Option<NoteRequest>)
    ensures r.None? <==> Text.IsBlank(form.noteText)
    ensures r.Some? ==>
      r.value.noteText == form.noteText && r.value.questionId == form.questionId && r.value.labelIds == form.labelIds
  {
    if Text.IsBlank(form.noteText) then None
    else Some(NoteRequest(form.noteText, form.questionId, form.labelIds))
  }

  /** `handleEditNote()`: nothing is sent without a note being edited or for a blank text. */
  function EditNote(editing: Option<Note>, form: NoteForm): (r: Option<NoteUpdate>)
    ensures r.None? <==> editing.None? || Text.IsBlank(form.noteText)
    ensures r.Some? ==>
      r.value.noteId == editing.value.id && r.value.noteText == form.noteText && r.value.labelIds == form.labelIds
  {
    if editing.None? || Text.IsBlank(form.noteText) then None
    else Some(NoteUpdate(editing.value.id, form.noteText, form.labelIds))
  }

  /** `openEditNoteDialog(note)`: the form starts from the note with no label selected. */
  function OpenEditNote(note: Note): (r: NoteForm)
    ensures r.noteText == note.noteText && r.questionId == note.questionId && r.labelIds == []
  {
    NoteForm(note.noteText, note.questionId, [])
  }

  /** Saving an edited note without touching the labels sends an empty label list. */
  lemma EditWithoutLabelsSendsNone(note: Note)
    requires !Text.IsBlank(note.noteText)
    ensures EditNote(Some(note), OpenEditNote(note)) == Some(NoteUpdate(note.id, note.noteText, []))
  {
  }

  /** Clicking a label badge in the form toggles that label, keeping the others in order. */
  function ClickLabel(form: NoteForm, labelId: int): (r: NoteForm)
    ensures r.noteText == form.noteText && r.questionId == form.questionId
    ensures labelId in r.labelIds <==> labelId !in form.labelIds
    ensures forall other :: other != labelId ==> (other in r.labelIds <==> other in form.labelIds)
  {
    form.(labelIds := Lists.ToggleMember(form.labelIds, labelId))
  }

  /** Clicking a label not yet selected twice restores the form; clicking a selected one twice
      moves it to the end of the selection. */
  lemma ClickLabelTwice(form: NoteForm, labelId: int)
    requires Lists.NoDuplicates(form.labelIds)
    ensures labelId !in form.labelIds ==> ClickLabel(ClickLabel(form, labelId), labelId) == form
    ensures multiset(ClickLabel(ClickLabel(form, labelId), labelId).labelIds) == multiset(form.labelIds)
  {
    Lists.ToggleTwice(form.labelIds, labelId);
  }
}

=== FILE: workspace_todos.dfy ===
/** The todos tab of the student workspace: priority colours and icons, the overdue test, the
    statistics, the conversion between the todo form and the API, and the form guards. Dates in
    the API are strings; `parseDate` stands for `new Date(s)` in milliseconds (`None` for an
    invalid date) and `now` for the current time. */
module WorkspaceTodos {
  import opened Wrappers
  import Text
  import Lists

  datatype Todo = Todo(
    id: int, title: string, description: Option<string>, dueDate: Option<string>,
    status: string, priority: string)

  // ---------------------------------------------------------------------------------------
  // Priority

  datatype PriorityTone = Destructive | Chart3 | Chart2 | Muted

  datatype PriorityIcon = AlertTriangle | FlagIcon | Target

  /** `priority?.toUpperCase()` compared with `name`. */
  predicate PriorityIs(priority: Option<string>, name: string)
  {
    priority.Some? && Text.ToUpper(priority.value) == name
  }

  /** `getPriorityColor(priority)`: the priority is optional here, as the `?.` in the source
      allows. */
  function PriorityColor(priority: Option<string>): (r: PriorityTone)
    ensures r == Destructive <==> PriorityIs(priority, "HIGH")
    ensures r == Chart3 <==> PriorityIs(priority, "MEDIUM")
    ensures r == Chart2 <==> PriorityIs(priority, "LOW")
  {
    if PriorityIs(priority, "HIGH") then Destructive
    else if PriorityIs(priority, "MEDIUM") then Chart3
    else if PriorityIs(priority, "LOW") then Chart2
    else Muted
  }

  /** `getPriorityIcon(priority)` */
  function PriorityIconOf(priority: Option<string>): (r: PriorityIcon)
    ensures r == AlertTriangle <==> PriorityIs(priority, "HIGH")
    ensures r == Target <==> PriorityIs(priority, "LOW")
  {
    if PriorityIs(priority, "HIGH") then AlertTriangle
    else if PriorityIs(priority, "MEDIUM") then FlagIcon
    else if PriorityIs(priority, "LOW") then Target
    else FlagIcon
  }

  function IconOfTone(t: PriorityTone): PriorityIcon
  {
    match t
    case Destructive => AlertTriangle
    case Chart3 => FlagIcon
    case Chart2 => Target
    case Muted => FlagIcon
  }

  /** The icon follows the colour, so a medium and an unknown priority share the flag icon but
      not the colour. */
  lemma PriorityIconFollowsColor(priority: Option<string>)
    ensures PriorityIconOf(priority) == IconOfTone(PriorityColor(priority))
  {
  }

  /** The colour does not depend on the spelling of the priority. */
  lemma PriorityIgnoresCase(p: string)
    ensures PriorityColor(Some(Text.ToLower(p))) == PriorityColor(Some(p))
    ensures PriorityColor(Some(Text.ToUpper(p))) == PriorityColor(Some(p))
  {
    Text.UpperOfLower(p);
    Text.ToUpperIdempotent(p);
  }

  // ---------------------------------------------------------------------------------------
  // Overdue todos and statistics

  predicate IsCompleted(t: Todo) { t.status == "COMPLETED" }

  /** `isOverdue(todo)`: an open todo whose due date is before now; an invalid date never is. */
  predicate IsOverdue(t: Todo, now: int, parseDate: string -> Option<int>): (b: bool)
    ensures b ==> !IsCompleted(t) && t.dueDate.Some? && parseDate(t.dueDate.value).Some?
    ensures !IsCompleted(t) && t.dueDate.Some? && t.dueDate.value != [] && parseDate(t.dueDate.value).Some? ==>
      (b <==> parseDate(t.dueDate.value).value < now)
  {
    t.dueDate.Some? && t.dueDate.value != [] && !IsCompleted(t)
    && parseDate(t.dueDate.value).Some? && parseDate(t.dueDate.value).value < now
  }

  /** A todo that is overdue stays overdue as time passes, as long as it stays open. */
  lemma OverdueStaysOverdue(t: Todo, now: int, later: int, parseDate: string -> Option<int>)
    requires now <= later && IsOverdue(t, now, parseDate)
    ensures IsOverdue(t, later, parseDate)
    ensures IsOverdue(t.(status := "COMPLETED"), later, parseDate) == false
  {
  }

  /** A completed todo, or one without a due date, is never overdue. */
  lemma CompletedOrUndatedNotOverdue(t: Todo, now: int, parseDate: string -> Option<int>)
    requires IsCompleted(t) || t.dueDate.None? || t.dueDate == Some("")
    ensures !IsOverdue(t, now, parseDate)
  {
  }

  datatype TodoStats = TodoStats(total: nat, completed: nat, pending: nat, overdue: nat)

  function OverdueAt(now: int, parseDate: string -> Option<int>): Todo -> bool
  {
    t => IsOverdue(t, now, parseDate)
  }

  /** `getTodosStats()` */
  function Stats(todos: Option<seq<Todo>>, now: int, parseDate: string -> Option<int>): (r: TodoStats)
    ensures todos.None? ==> r == TodoStats(0, 0, 0, 0)
    ensures r.total == r.completed + r.pending
    ensures r.overdue <= r.pending
    ensures todos.Some? ==>
              r.total == |todos.value|
              && r.completed == |Lists.Filter(todos.value, IsCompleted)|
              && r.overdue == |Lists.Filter(todos.value, OverdueAt(now, parseDate))|
  {
    match todos
    case None => TodoStats(0, 0, 0, 0)
    case Some(ts) =>
      Lists.PartitionIsComplete(ts, IsCompleted);
      OverdueArePending(ts, now, parseDate);
      TodoStats(|ts|, |Lists.Filter(ts, IsCompleted)|, |Lists.Reject(ts, IsCompleted)|,
                |Lists.Filter(ts, OverdueAt(now, parseDate))|)
  }

  /** Overdue todos are open ones, so there are no more of them than pending todos. */
  lemma {:induction false} OverdueArePending(ts: seq<Todo>, now: int, parseDate: string -> Option<int>)
    ensures |Lists.Filter(ts, OverdueAt(now, parseDate))| <= |Lists.Reject(ts, IsCompleted)|
  {
    if ts != [] {
      OverdueArePending(ts[1..], now, parseDate);
    }
  }

  // ---------------------------------------------------------------------------------------
  // The todo form and the API

  /** The form: `dueDate` is the date input's `full-date` (RFC 3339 section 5.6) or empty, and
      `priority` is `low`, `medium` or `high`. */
  datatype TodoForm = TodoForm(title: string, description: string, dueDate: string, priority: string)

  const EmptyTodoForm: TodoForm := TodoForm("", "", "", "medium")

  /** The time appended to a due date: the last millisecond of the day in UTC. */
  const EndOfDay: string := "T23:59:59.000Z"

  datatype TodoRequest = TodoRequest(title: string, description: string, dueDate: Option<string>, priority: string)

  /** The request built from the form: upper-case priority, and the due date at the end of its
      day, or no due date for a blank field. */
  function ToRequest(form: TodoForm): (r: TodoRequest)
    ensures r.title == form.title && r.description == form.description
    ensures r.priority == Text.ToUpper(form.priority)
    ensures r.dueDate.None? <==> Text.IsBlank(form.dueDate)
    ensures r.dueDate.Some? ==> r.dueDate.value == form.dueDate + EndOfDay
  {
    TodoRequest(form.title, form.description,
                if Text.IsBlank(form.dueDate) then None else Some(form.dueDate + EndOfDay),
                Text.ToUpper(form.priority))
  }

  /** `d.split('T')[0]`: the date part of an ISO date-time. */
  function DatePart(d: string): (r: string)
    ensures 'T' !in r
    ensures |r| <= |d| && r == d[..|r|] && (|r| < |d| ==> d[|r|] == 'T')
    ensures 'T' !in d ==> r == d
  {
    Text.SplitPiecesHaveNoSeparator(d, 'T');
    Text.SplitFirstPiece(d, 'T');
    if 'T' in d then Text.Split(d, 'T')[0]
    else Text.SplitOfSeparatorFree(d, 'T'); Text.Split(d, 'T')[0]
  }

  /** `openEditTodoDialog(todo)`: the form filled from a todo. */
  function FormOf(t: Todo): (r: TodoForm)
    ensures r.title == t.title
    ensures r.description == t.description.GetOr("")
    ensures t.dueDate.None? || t.dueDate == Some("") ==> r.dueDate == ""
    ensures t.dueDate.Some? && t.dueDate.value != [] ==>
      |r.dueDate| <= |t.dueDate.value| && r.dueDate == t.dueDate.value[..|r.dueDate|] && 'T' !in r.dueDate
      && (|r.dueDate| < |t.dueDate.value| ==> t.dueDate.value[|r.dueDate|] == 'T')
    ensures r.priority == Text.ToLower(t.priority)
  {
    TodoForm(t.title,
             if t.description.Some? then t.description.value else "",
             if t.dueDate.Some? && t.dueDate.value != [] then DatePart(t.dueDate.value) else "",
             Text.ToLower(t.priority))
  }

  /** The todo the API stores for a request. */
  function Stored(id: int, request: TodoRequest, status: string): Todo
  {
    Todo(id, request.title, Some(request.description), request.dueDate, status, request.priority)
  }

  /** Saving a form and opening the saved todo for editing gives the form back: the date is
      split again at the `T` that was appended, and the priority lower-cased again. */
  lemma FormRoundTrip(form: TodoForm, id: int, status: string)
    requires 'T' !in form.dueDate && !Text.IsBlank(form.dueDate)
    requires forall i :: 0 <= i < |form.priority| ==> !Text.IsUpperAscii(form.priority[i])
    ensures FormOf(Stored(id, ToRequest(form), status)) == form
  {
    Text.SplitPrefixPiece(form.dueDate, EndOfDay[1..], 'T');
    assert form.dueDate + EndOfDay == form.dueDate + ['T'] + EndOfDay[1..];
    Text.LowerOfUpper(form.priority);
  }

  /** A blank date field comes back empty. */
  lemma BlankDateComesBackEmpty(form: TodoForm, id: int, status: string)
    requires Text.IsBlank(form.dueDate)
    ensures FormOf(Stored(id, ToRequest(form), status)).dueDate == ""
  {
  }

  /** `handleCreateTodo()`: nothing is sent for a blank title. */
  function CreateTodo(form: TodoForm): (r: Option<TodoRequest>)
    ensures r.None? <==> Text.IsBlank(form.title)
    ensures r.Some? ==> r.value == ToRequest(form)
  {
    if Text.IsBlank(form.title) then None else Some(ToRequest(form))
  }

  datatype TodoUpdate = TodoUpdate(todoId: int, request: TodoRequest)

  /** `handleEditTodo()`: nothing is sent without a todo being edited or for a blank title. */
  function EditTodo(editing: Option<Todo>, form: TodoForm): (r: Option<TodoUpdate>)
    ensures r.None? <==> editing.None? || Text.IsBlank(form.title)
    ensures r.Some? ==> r.value.todoId == editing.value.id && r.value.request == ToRequest(form)
  {
    if editing.None? || Text.IsBlank(form.title) then None
    else Some(TodoUpdate(editing.value.id, ToRequest(form)))
  }

  /** What the completion checkbox asks of the API. */
  datatype CompletionCall = Reopen(todoId: int) | Complete(todoId: int)

  /** `handleToggleComplete(todo)`: a completed todo is set back to pending, any other one is
      completed. */
  function ToggleComplete(t: Todo): (r: CompletionCall)
    ensures r.todoId == t.id
    ensures r.Reopen? <==> IsCompleted(t)
  {
    if IsCompleted(t) then Reopen(t.id) else Complete(t.id)
  }
}

=== FILE: wrappers.dfy ===
/** Optional values and results: the model's stand-ins for `undefined`/`null` fields and for
    operations that throw. */
module Wrappers {

  /** A value that may be absent (`undefined` or `null` in the source). */
  datatype Option<+T> = None | Some(value: T) {

    /** The wrapped value, or `default` when absent (the `??` operator). */
    function GetOr(default: T): (r: T)
      ensures Some? ==> r == value
      ensures None? ==> r == default
    {
      match this
      case Some(v) => v
      case None => default
    }
  }

  /** The outcome of an operation that either returns a value or throws with a message. */
  datatype Result<+T> = Ok(value: T) | Err(message: string)
}
